=== FILE: README.md ===
# WAEC CBT admin console — a Dafny model of its rules

The admin console of a computer-based-test system for a college is a React
application. Most of it renders screens and calls a remote API. What this
project models are the rules those screens apply:

- the demo sign-in session: the start-up check, the credential match, sign-out and the profile merge;
- student registration: login ids, e-mails, student ids, duplicate checks and list updates;
- score aggregation on the performance and results screens: rounded means, best scores, pass rates, grade bands and flattened result tables;
- the list screens (students, subjects, questions, support tickets): their searches, deletes, required-field checks, form resets and edit-form defaults;
- the support chat and its canned reply;
- the settings screen: the profile, the password change and the two-factor set-up code;
- the sign-in page, the two-factor code page, the navigation bar and the dashboard shell.

Each source screen is one Dafny module, and shared vocabulary lives in four small modules:

- `Common`: optional values, responses, toasts, ASCII case mapping, substring tests and filters;
- `Decimal`: decimal rendering, zero padding and the numbered-name counter;
- `Otp`: the six-box code entry used on two screens;
- `Initials`: the avatar initials used on two screens.

Everything is pure. Browser storage, the clock, the network and timers are
parameters: a stored list is an `Option<seq<…>>`, and a request's outcome is
`Response` (`Ok`, `NotOk(message)` or `NetworkError`). `LoginPage.Submit`
and `VerifyPage.Submit` return both the route they take and the toast they
show. The subjects, questions and settings requests and `VerifyPage.CheckLink`
return their toast. Elsewhere a refusal is a variant of the result that
stands for its error toast, such as `Registration.Submission.MissingFields`.
The success toasts and route changes of the other operations are listed
under "Left out".

## Model

| member | source | states |
|---|---|---|
| Auth.Initial | src/context/AuthContext.jsx:32-34 | a new provider has no user, has not finished its start-up check and is not loading |
| Auth.CheckAuth | src/context/AuthContext.jsx:37-53 | after the start-up check `authChecked` holds in every case; a parseable saved record becomes the user; an unparsable one is removed |
| Auth.StartUp | src/context/AuthContext.jsx:37-53 | a fresh provider ends its start-up check signed in exactly when a parseable record was saved |
| Auth.FindAdmin | src/context/AuthContext.jsx:61-64 | the result is the first demo administrator whose e-mail equals the identifier ignoring case and whose password is `admin123`; none exactly when no administrator accepts |
| Auth.BeginLogin | src/context/AuthContext.jsx:55-56 | `login` raises the loading flag and changes nothing else |
| Auth.FinishLogin | src/context/AuthContext.jsx:61-79 | success exactly when some demo administrator accepts and the browser takes the write of the record; an accepting administrator becomes the user whether or not the write succeeds; success also saves the record; a refused write reports "Network error" and leaves the saved record; no accepting administrator gives "Invalid credentials" with user and saved record unchanged; loading is down on every path |
| Auth.Login | src/context/AuthContext.jsx:55-79 | the whole `login`: success iff some administrator accepts and the write succeeds; afterwards someone is signed in iff an administrator accepted or someone already was; a refusal keeps the user and says "Invalid credentials"; a failed write says "Network error"; loading ends down |
| Auth.FailedWriteStillSignsIn | src/context/AuthContext.jsx:66-75 | when the storage write throws, `login` reports "Network error" and yet the administrator is signed in for this page, with nothing saved for the next |
| Auth.Logout | src/context/AuthContext.jsx:81-86 | sign-out forgets the user and the saved record and keeps the flags |
| Auth.LogoutIdempotent | src/context/AuthContext.jsx:81-86 | signing out twice equals signing out once, and afterwards nobody is authenticated |
| Auth.UpdateUser | src/context/AuthContext.jsx:88-92 | the shallow merge: every given field takes the given value, every other field of the user is kept, the key set is the union, and the merged user is saved |
| Auth.AuthCheckedStays | src/context/AuthContext.jsx:37-92 | once the start-up check has finished it stays finished and loading stays down, whatever sequence of sign-ins, sign-outs and updates follows |
| Students.Load | src/components/dashboard-content/Students.jsx:30-73 | a stored list is used as it is; with nothing stored the two demo students are used and stored |
| Students.Delete | src/components/dashboard-content/Students.jsx:76-79 | the result holds exactly the students whose id differs, in order (a subsequence), and is shorter by the number of students with that id |
| Students.CountComplement | src/components/dashboard-content/Students.jsx:76-79 | the students with the id and those without it add up to the whole list |
| Students.Search | src/components/dashboard-content/Students.jsx:95-101 | a student is kept iff the lower-cased term occurs in the lower-cased full name, e-mail, login id, NIN (when present) or id; the result is the subsequence of exactly those students, duplicates included (its length is their count) |
| Students.SearchEmptyKeepsAll | src/components/dashboard-content/Students.jsx:95-101 | the empty term keeps the whole list |
| Students.Initials | src/components/dashboard-content/Students.jsx:103-106 | "ST" without a student or a first or last name, otherwise the first letters of the first and last names |
| Students.ReplaceById | src/app/dashboard/student-registration/page.jsx:142-146 | same length; the records with the given id become the new record and all others are untouched |
| Registration.LoginBase | src/app/dashboard/student-registration/page.jsx:61 | the login-id base is never empty (it always holds the dot) |
| Registration.GenerateLoginId | src/app/dashboard/student-registration/page.jsx:59-80 | "" for an empty first or last name; otherwise the result is new among the stored login ids; it is the bare base when nothing similar is stored, else the base plus the first counter from 1 whose padded name is free |
| Registration.GenerateLoginIdLoop | src/app/dashboard/student-registration/page.jsx:71-79 | the counting loop terminates and returns what `GenerateLoginId` defines |
| Decimal.FirstFree | src/app/dashboard/student-registration/page.jsx:71-79 | the counter search stops at a free name, and every earlier counter from the start is taken |
| Decimal.ValuePadded | src/app/dashboard/student-registration/page.jsx:72 | zero padding keeps the number: reading back a padded counter gives the counter |
| Decimal.SuffixedInjective | src/app/dashboard/student-registration/page.jsx:72 | two counters with the same prefix and padding give the same name only when they are equal |
| Decimal.CounterInjective | src/app/dashboard/student-registration/page.jsx:72 | numbering with one prefix and width never gives two counters the same name |
| Registration.GenerateEmail | src/app/dashboard/student-registration/page.jsx:82-85 | "" exactly for the empty login id |
| Registration.EmailRoundTrip | src/app/dashboard/student-registration/page.jsx:82-85 | the login id can be read back from the generated e-mail |
| Registration.EmailInjective | src/app/dashboard/student-registration/page.jsx:82-85 | different login ids give different e-mails |
| Registration.GenerateStudentId | src/app/dashboard/student-registration/page.jsx:87-92 | "STU/" year "/" and then the stored count plus one padded with zeros to four digits, which reads back as that count |
| Registration.StudentIdCollision | src/app/dashboard/student-registration/page.jsx:87-92 | after deleting the first demo student, the next generated id is still stored (see Findings) |
| Registration.FreshStudentId | src/app/dashboard/student-registration/page.jsx:87-92 | corrected generator: the id is never stored yet, has the same shape with a number at least count plus one, and equals the written generator whenever that one is free |
| Registration.NewStudentId | src/app/dashboard/student-registration/page.jsx:87-92 | the id a registration receives: as written, the length-based id of `generateStudentId`; with the corrected generator, an id no stored student holds; either way the student-id shape with a number of at least the count plus one |
| Registration.Record | src/app/dashboard/student-registration/page.jsx:126-139 | the stored record carries the form's eight fields, the login id generated against the stored list with its e-mail, and the two default subjects; a registration gets a new id, no exams, average 0, active `today` and registered `now`; an edit keeps the original's id, exam count, average, last activity and registration time |
| Registration.Submit | src/app/dashboard/student-registration/page.jsx:101-150 | refused iff first name, last name or class is empty; a registration is a duplicate iff some stored student has the same non-empty NIN or the generated e-mail; a saved record copies the form's names, NIN, phone, date of birth, class and password, takes the login id generated against the stored list (new and non-empty), its e-mail and the two default subjects; a registration starts with no exams, average 0, active `today` and registered `now`, and an edit keeps the original's exam count, average, last activity and registration time; a registration appends the record under `NewStudentId` (as written the length-based id, which can already be stored; with the corrected generator one that is not) and resets the form; an edit replaces by the original id |
| Registration.RegisterRepeatsStoredId | src/app/dashboard/student-registration/page.jsx:87-147 | as written: when the length-based id is already stored, every stored e-mail is the one its login id generates, and no stored NIN equals the form's non-empty NIN, a registration of a complete form is saved and leaves two students with the same id |
| Registration.DemoRegistrationRepeatsId | src/app/dashboard/student-registration/page.jsx:87-147 | as written, end to end: with the first demo student deleted, any complete 2024 registration whose NIN is not Jane Smith's is saved and leaves two students with the id STU/2024/0002 |
| Registration.EditRenamesLoginId | src/app/dashboard/student-registration/page.jsx:126-134 | an edit always gives the edited student a different login id, because the list it is checked against still holds the student |
| Registration.EmailClashNeedsInconsistentRecord | src/app/dashboard/student-registration/page.jsx:111-124 | when stored e-mails were generated from stored login ids, the e-mail test never fires and only the NIN test can reject |
| Registration.RegisterKeepsIdsDistinct | src/app/dashboard/student-registration/page.jsx:129-150 | with the corrected id generator, one registration attempt keeps the stored ids pairwise distinct and keeps every stored student |
| Registration.RegistrationsKeepIdsDistinct | src/app/dashboard/student-registration/page.jsx:129-150 | with the corrected id generator, however many registrations follow, ids stay pairwise distinct and the original list stays a prefix |
| Exams.RoundedMean | src/components/dashboard-content/Performance.jsx:48 | `Math.round(sum / n)` for integers: the nearest integer, halves rounded up |
| Exams.Average | src/components/dashboard-content/Performance.jsx:65-67 | 0 for no scores, otherwise the mean rounded to nearest |
| Exams.Best | src/components/dashboard-content/Performance.jsx:68-70 | 0 for no scores, otherwise a score that no other exceeds |
| Exams.Last | src/components/dashboard-content/Performance.jsx:60 | `slice(-k)`: the last `min(k, length)` elements, in order |
| Exams.Reverse | src/components/dashboard-content/Performance.jsx:74 | element `i` of the result is element `length-1-i` of the input |
| Exams.PassRate | src/components/dashboard-content/Performance.jsx:71-72 | 0 with no exams; otherwise the share of exams scoring at least 50, as a percentage rounded to the nearest integer with halves up; hence between 0 and 100, 0 with no passes and 100 when every exam passes |
| Exams.AverageWithinRange | src/components/dashboard-content/Performance.jsx:65-67 | the rounded mean of scores between two bounds lies between them |
| Exams.AverageAtMostBest | src/components/dashboard-content/Performance.jsx:65-70 | the average never exceeds the best score |
| Performance.SubjectExams | src/components/dashboard-content/Performance.jsx:45 | exactly the exams of the subject, in order, as many as there are |
| Performance.StatsOf | src/components/dashboard-content/Performance.jsx:45-61 | name; count of the subject's exams; zeros and no recent scores without exams; otherwise the rounded mean, a best score that is attained and not exceeded, and the last five scores in order |
| Performance.AllStats | src/components/dashboard-content/Performance.jsx:44-62 | one statistics record per subject, in the student's subject order |
| Performance.Analyse | src/components/dashboard-content/Performance.jsx:44-75 | the overview: per-subject stats; total exams; the overall average is the mean of all scores rounded to the nearest integer (0 without exams); a best score that is attained and not exceeded; the pass rate is that of `Exams.PassRate`, in 0..100 with its extremes; the last ten exams, most recent first |
| Performance.Load | src/components/dashboard-content/Performance.jsx:37-83 | an overview exactly when a student is selected; a missing history counts as empty |
| Performance.StatsInRange | src/components/dashboard-content/Performance.jsx:45-61 | with scores in 0..100, 0 <= average <= best <= 100 |
| Performance.AddSubject | src/components/dashboard-content/Performance.jsx:87-128 | refused iff the name is blank; otherwise the subject is appended, only the selected student's record is replaced, the overview is the previous one with the subject statistics recomputed for the new list |
| Performance.DeleteSubject | src/components/dashboard-content/Performance.jsx:130-172 | refused iff the subject is Mathematics or English; otherwise every occurrence is removed, the rest kept in order, only the selected record replaced; the overview is the previous one with the subject statistics recomputed for the new list |
| Performance.DeleteUndoesAdd | src/components/dashboard-content/Performance.jsx:87-172 | adding a new unprotected subject and deleting it gives back the selected student |
| Performance.ProtectedSubjectsStay | src/components/dashboard-content/Performance.jsx:131-135 | whatever adds and deletes follow, a student that takes Mathematics or English keeps it |
| Performance.Grade | src/components/dashboard-content/Performance.jsx:240 | A iff the average is at least 75, B iff in 60..74, C iff in 50..59, D below 50 |
| Results.RowsOf | src/components/dashboard-content/Results.jsx:23-32 | one row per exam of the student, in exam order, tagged with the student's id, full name and class |
| Results.Flatten | src/components/dashboard-content/Results.jsx:22-33 | a row is in the table iff it is a row of some stored student |
| Results.FlattenAppend | src/components/dashboard-content/Results.jsx:22-33 | the table of two student lists is the two tables one after the other: student order, then exam order |
| Results.FlattenSize | src/components/dashboard-content/Results.jsx:22-33 | the table has as many rows as the students have exams together |
| Results.Distinct | src/components/dashboard-content/Results.jsx:38-39 | `new Set`: the same values, without duplicates, in order of first occurrence |
| Results.ClassOptions | src/components/dashboard-content/Results.jsx:38 | "all" and then the classes of the stored students, each once, in order of first appearance (the `Set` of them) |
| Results.SubjectOptions | src/components/dashboard-content/Results.jsx:39 | "all" and then the subjects of the rows, each once, in order of first appearance |
| Results.FilterRows | src/components/dashboard-content/Results.jsx:41-45 | a row is kept iff its class matches (or "all") and its subject matches (or "all"); the result is the subsequence of exactly those rows, duplicates included (its length is their count) |
| Results.FilterAllAll | src/components/dashboard-content/Results.jsx:41-45 | "all" and "all" keep every row |
| Results.Grade | src/components/dashboard-content/Results.jsx:109 | A >= 75, B 60..74, C 50..59, D 40..49, F below 40, each as an iff |
| Results.ColorFollowsGrade | src/components/dashboard-content/Results.jsx:47-52 | the score colour is green, blue or amber exactly for grades A, B and C, and red for D and F |
| Results.GradeBandsAgree | src/components/dashboard-content/Results.jsx:109 | the results grade and the performance grade agree from 40 up; below 40 one says D and the other F |
| Results.ClassCount | src/components/dashboard-content/Results.jsx:76 | "all" counts every student; any other class counts exactly the students in that class; never more than the number of students |
| Results.ClassButtonsAddUp | src/components/dashboard-content/Results.jsx:38-76 | when no student's class is literally "all", the counts the class buttons after "all" show add up to the count under "all" |
| Subjects.Save | src/components/dashboard-content/Subjects.jsx:65-100 | sent iff name, code and class are filled; otherwise "Subject name, code, and class are required" and the form stays open; success resets the form to the defaults and closes the dialog; a failure keeps both |
| Subjects.CreateSubject | src/components/dashboard-content/Subjects.jsx:65-100 | sent iff the three required fields are filled; success resets the form |
| Subjects.UpdateSubject | src/components/dashboard-content/Subjects.jsx:102-138 | the same required-field rule as create |
| Subjects.DefaultFormRefused | src/components/dashboard-content/Subjects.jsx:84-92 | the reset form cannot be sent again as it is |
| Subjects.EditForm | src/components/dashboard-content/Subjects.jsx:167-179 | missing or falsy fields take their defaults, so duration and question count are never 0 and the exam type never empty |
| Subjects.EditFormRoundTrip | src/components/dashboard-content/Subjects.jsx:167-179 | editing a stored form gives the form back iff its exam type is not empty and its duration and question count are not 0 |
| Subjects.Search | src/components/dashboard-content/Subjects.jsx:181-185 | a subject is kept iff the lower-cased term occurs in its name, code or class; the result is the subsequence of exactly those subjects, duplicates included (its length is their count) |
| Subjects.SearchEmpty | src/components/dashboard-content/Subjects.jsx:181-185 | the empty term keeps exactly the subjects with a name, code or class |
| Questions.PickSubject | src/components/dashboard-content/Questions.jsx:78-87 | choosing a subject sets the form's subject id, class and exam type to the subject's (an absent class or exam type as empty) and changes no other field; no subject leaves the form |
| Questions.ChangeOption | src/components/dashboard-content/Questions.jsx:94-98 | only the option at the index changes; every other option and field is kept |
| Questions.Save | src/components/dashboard-content/Questions.jsx:100-138 | sent iff ready; otherwise the required-fields error; success resets the form to the default record; failure keeps it |
| Questions.CreateQuestion | src/components/dashboard-content/Questions.jsx:100-104 | sent iff subject, question text and all options are filled |
| Questions.UpdateQuestion | src/components/dashboard-content/Questions.jsx:140-144 | sent iff the question text and all options are filled; no subject is needed |
| Questions.CreateStricterThanUpdate | src/components/dashboard-content/Questions.jsx:100-144 | a form ready to create is ready to update, and they differ exactly on forms without a subject |
| Questions.DefaultFormRefused | src/components/dashboard-content/Questions.jsx:119-130 | the reset form cannot be sent again as it is |
| Questions.BulkImport | src/components/dashboard-content/Questions.jsx:203-235 | refused without a subject or with blank data; unparsable data or a thrown request gives "Invalid JSON format"; imported iff it parses and the server accepts; a server refusal shows its message or the fallback |
| Questions.EditForm | src/components/dashboard-content/Questions.jsx:237-250 | falsy fields take their defaults: four blank options, answer 0, one mark, "medium", "WAEC" |
| Questions.EditFormRoundTrip | src/components/dashboard-content/Questions.jsx:237-250 | editing a stored form gives it back iff marks are not 0 and difficulty and exam type are not empty |
| Questions.FilterQuestions | src/components/dashboard-content/Questions.jsx:254-260 | a question is kept iff it has text containing the term (ignoring case) and its subject, class and difficulty match (each or "all"); the result is the subsequence of exactly those questions, duplicates included (its length is their count) |
| Questions.FilterNothing | src/components/dashboard-content/Questions.jsx:254-260 | with no term and every selector "all", exactly the questions that have text are kept |
| Questions.NarrowingShowsLess | src/components/dashboard-content/Questions.jsx:254-260 | narrowing from "all" to a particular subject only removes questions |
| Support.Load | src/components/dashboard-content/Support.jsx:49-94 | a stored list is used; with nothing stored the three demo tickets are used and stored |
| Support.TicketId | src/components/dashboard-content/Support.jsx:103-107 | "TKT" and then the ticket count plus one padded with zeros to three digits, which reads back as that count |
| Support.CreateTicket | src/components/dashboard-content/Support.jsx:109-127 | the new ticket is put first and the others keep their order; it is open, has the next id and one message from the administrator holding the description; the form resets to technical and medium |
| Support.DemoWellNumbered | src/components/dashboard-content/Support.jsx:50-93 | the demo ids TKT001 to TKT003 are distinct and exactly the numbered names 1 to 3 |
| Support.CreateKeepsNumbering | src/components/dashboard-content/Support.jsx:103-121 | creating a ticket keeps the ids distinct and equal to the numbered names 1 to the count |
| Support.CreatesKeepNumbering | src/components/dashboard-content/Support.jsx:103-121 | any number of creations keeps that invariant |
| Support.SeededIdsDistinct | src/components/dashboard-content/Support.jsx:50-121 | from the seeded list, however many tickets are created, no two share an id |
| Support.StatusColor | src/components/dashboard-content/Support.jsx:129-136 | each known status has its own class, and any other status has the default |
| Support.StatusColorsDistinct | src/components/dashboard-content/Support.jsx:129-136 | the colour tells the known statuses apart from each other and from any other status |
| Support.PriorityColor | src/components/dashboard-content/Support.jsx:138-145 | each known priority has its own class, and any other priority has the default |
| Support.PriorityColorsDistinct | src/components/dashboard-content/Support.jsx:138-145 | the colour tells the known priorities apart |
| SupportChat.Load | src/components/SupportChat.jsx:33-55 | stored messages are used; otherwise the two support greetings with ids 1 and 2 |
| SupportChat.SeedSequential | src/components/SupportChat.jsx:38-51 | the seeded messages are numbered by position |
| SupportChat.Send | src/components/SupportChat.jsx:61-77 | blank input changes nothing; otherwise an administrator message with id length+1 is appended, the input cleared, the typing indicator set and a reply timer queued on the new list |
| SupportChat.Fire | src/components/SupportChat.jsx:77-88 | as written: the reply timer sets the list to the list it captured plus a support reply numbered after it |
| SupportChat.RunKeepsNumbering | src/components/SupportChat.jsx:41-88 | whatever is typed, sent and answered, every message's id is its position plus one |
| SupportChat.SecondMessageLost | src/components/SupportChat.jsx:61-88 | two messages sent before the first reply: when that reply lands the second message is gone until the second reply restores it (see `FirstReplyLost`) |
| SupportChat.FirstReplyLost | src/components/SupportChat.jsx:61-88 | two messages sent before the first reply: once both replies land, the list is both messages and the second reply, and the first reply is gone for good (see Findings) |
| SupportChat.FireOnCurrent | src/components/SupportChat.jsx:77-88 | corrected: the reply is appended to the list as it is when the timer fires |
| SupportChat.FixedNeverLoses | src/components/SupportChat.jsx:61-88 | with the corrected reply, every earlier list is a prefix of every later one |
| Home.Compute | src/components/dashboard-content/Home.jsx:79-90 | total students; active students (at most the total) exactly those with status "active"; pending tickets exactly those open or in progress; the other three figures 0 |
| Home.FetchDashboard | src/components/dashboard-content/Home.jsx:66-96 | missing arrays count as empty; a thrown error keeps the figures; loading ends either way |
| Home.ActiveSplit | src/components/dashboard-content/Home.jsx:79-80 | active and not-active students add up to the total |
| Home.PendingTickets | src/components/dashboard-content/Home.jsx:81 | a ticket counts iff it is open or in progress; closed tickets never do |
| Otp.Change | src/components/dashboard-content/Settings.jsx:216-220 | input that `isNaN` rejects changes nothing; otherwise box `index` takes the last character typed and the other boxes are kept; boxes stay one character each |
| Otp.CompleteIffFilled | src/components/dashboard-content/Settings.jsx:166-167 | with one character per box, the joined code has six characters iff every box is filled |
| Otp.TypingFills | src/app/login/verify-2fa/page.jsx:45-49 | typing a character into a box fills it and empties no other box |
| Settings.ProfileFor | src/components/dashboard-content/Settings.jsx:55-66 | with a user every field is filled, from the user or its default; without one the profile stays |
| Settings.UpdateProfile | src/components/dashboard-content/Settings.jsx:76-100 | an accepted update merges the profile into the user and leaves edit mode; otherwise the session and mode stay; the toast is the success text, the server message or "Failed to update profile", or "Network error" |
| Settings.SavedProfileShown | src/components/dashboard-content/Settings.jsx:55-100 | a saved profile with every field filled is what the screen shows again from the updated user |
| Settings.ClearedPhoneShowsDefault | src/components/dashboard-content/Settings.jsx:62 | a phone saved empty comes back as the default number |
| Settings.ChangePassword | src/components/dashboard-content/Settings.jsx:102-138 | sent iff the confirmation matches and the new password has at least 8 characters; mismatch is reported before length; success clears all three fields and closes the dialog; otherwise the fields stay |
| Settings.MismatchReportedFirst | src/components/dashboard-content/Settings.jsx:103-110 | a short mismatched password is reported as a mismatch |
| Settings.ClearedFormRefused | src/components/dashboard-content/Settings.jsx:129 | after a successful change the cleared form is refused as too short |
| Settings.Verify | src/components/dashboard-content/Settings.jsx:165-193 | only a six-character code is sent; acceptance clears the boxes and closes the dialog; refusal clears the boxes and shows the message or "Invalid code"; a thrown error changes nothing and shows "Verification failed" |
| Settings.SentIffAllFilled | src/components/dashboard-content/Settings.jsx:166-170 | the code is sent iff all six boxes are filled |
| Settings.RefusedCodeRetyped | src/components/dashboard-content/Settings.jsx:186-188 | after a refusal the boxes are empty, so submitting again sends nothing |
| Initials.Split | src/components/dashboard-content/Settings.jsx:355 | `split(' ')`: at least one piece, none holding a space |
| Initials.SplitJoin | src/components/dashboard-content/Settings.jsx:355 | joining the pieces with spaces gives the name back |
| Initials.HeadsOfSplit | src/components/dashboard-content/Settings.jsx:355 | the first letters of the pieces are exactly the characters that start a word |
| Initials.SettingsInitials | src/components/dashboard-content/Settings.jsx:355 | "AD" for an empty name; otherwise the first two word-start characters upper-cased; at most two characters |
| Initials.NavbarInitials | src/components/dashboard-components/Navbar.jsx:76-79 | "AD" for a missing or empty name; otherwise the upper-cased word starts cut to two |
| Initials.ScreensAgree | src/components/dashboard-components/Navbar.jsx:76-79 | the navigation bar and the settings screen compute the same initials for the same name |
| Navbar.FetchMe | src/components/dashboard-components/Navbar.jsx:58-72 | an accepted response's user replaces the live user; anything else keeps it |
| Navbar.DisplayUser | src/components/dashboard-components/Navbar.jsx:74 | the live user when there is one, otherwise the session's |
| Navbar.BadgeFor | src/components/dashboard-components/Navbar.jsx:168-173 | initials from the displayed name, the name or "Admin", the role or "Administrator" |
| Navbar.NobodyShown | src/components/dashboard-components/Navbar.jsx:74-79 | with no live user and nobody signed in the badge reads AD, Admin, Administrator |
| Navbar.BadgeMatchesSettings | src/components/dashboard-components/Navbar.jsx:168 | for a user with a name, the badge shows the same initials as the settings screen |
| Navbar.NamelessUserDiffers | src/components/dashboard-components/Navbar.jsx:77 | for a user without a name the badge shows AD while the settings screen shows AU |
| LoginPage.Submit | src/app/login/page.jsx:41-75 | nothing is called without both fields; the two-factor hand-over happens iff the reply asks for it and carries both ids; the dashboard iff the reply does not ask for it and succeeds; the error texts and loading flag on every other path |
| LoginPage.TwoFactorBeforeSuccess | src/app/login/page.jsx:53-61 | a reply that asks for a second factor never goes to the dashboard, even when it also succeeds |
| LoginPage.VerifyPath | src/app/login/page.jsx:56 | the hand-over address holds the user id and the token in their places |
| LoginPage.ReadDemo | src/app/login/page.jsx:51-69 | how the page reads a demo result: never the code page; the dashboard iff the result is a success; a failure's message becomes the error toast |
| LoginPage.DemoSignIn | src/app/login/page.jsx:51-69 | with the demo session, the page goes to the dashboard iff the demo accepts and the browser stores the record; a refusal shows "Invalid credentials" and a failed write "Network error" |
| LoginPage.SavedSessionRedirects | src/app/login/page.jsx:29-33 | a mounted page redirects only after the start-up check, and then iff a parseable session was saved |
| VerifyPage.CheckLink | src/app/login/verify-2fa/page.jsx:27-32 | the link is refused iff an id is missing, empty or the text "undefined" |
| VerifyPage.HandOverLink | src/app/login/verify-2fa/page.jsx:27-32 | a hand-over from the sign-in page is a valid link iff neither id is the text "undefined" |
| VerifyPage.Tick | src/app/login/verify-2fa/page.jsx:34-43 | with no time left the resend is offered; otherwise one second comes off and reaching zero offers it |
| VerifyPage.CountsDown | src/app/login/verify-2fa/page.jsx:34-43 | from `t` seconds, after `n` ticks the counter reads `max(t-n, 0)` and the resend is offered iff `n >= t` |
| VerifyPage.Resend | src/app/login/verify-2fa/page.jsx:95-98 | the countdown restarts at 30, the resend is withdrawn, the boxes are emptied |
| VerifyPage.ResendWaitsThirty | src/app/login/verify-2fa/page.jsx:34-43 | after a resend the next one is offered after exactly thirty ticks |
| VerifyPage.Submit | src/app/login/verify-2fa/page.jsx:61-93 | the length is checked first, then the ids; the dashboard iff success and tokens; any other reply clears the boxes and shows the message or "Invalid verification code"; a thrown error only lowers loading |
| VerifyPage.SuccessNeedsTokens | src/app/login/verify-2fa/page.jsx:80 | a success flag without tokens does not sign in |
| VerifyPage.SentWhenFilled | src/app/login/verify-2fa/page.jsx:63-87 | with a valid link the code is sent iff all six boxes are filled, and after a refusal it must be typed again |
| DashboardPage.Settle | src/app/dashboard/page.jsx:37-44 | the gate opens only when the check has finished and someone is signed in |
| DashboardPage.GateOpensOnlySignedIn | src/app/dashboard/page.jsx:37-44 | over any run of events the gate is open iff some timer fired for a finished check and a signed-in user |
| DashboardPage.Navigate | src/app/dashboard/page.jsx:56-62 | the section becomes active and the sidebar closes; "support" opens the chat, other sections leave it |
| DashboardPage.NavigateIdempotent | src/app/dashboard/page.jsx:56-62 | navigating twice to a section equals navigating once |
| DashboardPage.Render | src/app/dashboard/page.jsx:64-75 | each known section renders its view, and every other section renders the home view |

## Left out

- Rendering, animation, focus movement between code boxes, scrolling, and `window.confirm` are left out: they are presentation.
- Browser storage, `JSON.parse`/`stringify`, the clock and the current year are inputs. Timers are event queues.
- The remote API is left out. Responses are inputs. The implementations of `fetchWithAuth`, `refreshUser` and `verifyTwoFactor` do not appear in the session context, so their results are abstract inputs, and the `refreshUser` call after a successful profile update or code verification has no modelled effect.
- Settings: setting up and disabling two-factor sign-in, saving notification, exam and appearance settings, and deleting the account are left out. Each is a request followed by a fixed toast, with no rule to check.
- Questions and Subjects deletes and list fetches are left out. They are requests whose only rule is the toast.
- Common.Lower and Common.Upper: these map ASCII letters only. JavaScript's `toLowerCase`/`toUpperCase` also map other letters. So `Initials.ScreensAgree` holds for ASCII names but may fail for names whose upper-case form has a different length.
- Common.IsBlank: treats space, tab, newline, carriage return, form feed and vertical tab as white space. JavaScript's `trim` and `\s` also remove Unicode spaces.
- Otp.Change: JavaScript `isNaN` coercion is the parameter `rejects`. String lengths are counted in characters, not UTF-16 code units.
- Exams.RoundedMean: scores are integers, and `Math.round(s / n)` is modelled exactly as the nearest integer with halves rounded up. Floating-point error in the division is not modelled. The same holds for `Performance.Analyse`'s overall average.
- Exams.PassRate: JavaScript computes `Math.round((p / n) * 100)` in two floating-point steps, while the model rounds the exact ratio. The two can differ at a half: for 23 passes in 40 exams JavaScript gives 57, because `0.575 * 100` is `57.49999999999999`, and the model gives 58. `Performance.Analyse`'s pass rate inherits this.
- Auth.FinishLogin: the storage write is the only step of `login` that the model lets throw, through the parameter `canStore`. The 800 ms delay and the lookup are taken not to throw.
- Settings.ChangePassword: the length check counts characters, where JavaScript counts UTF-16 code units.
- Support.CreateTicket: the stored ticket also carries the form's `description` field. The model keeps the description only as the ticket's first message.
- Registration.Submit: the fields a stored student may lack (`loginId`, `email`) are modelled as empty strings. The numeric fields copied on edit (`examsTaken || 0`, `avgScore || 0`) are copied as they are.
- Questions.BulkImport: the count in the success toast comes from the server and is not modelled.
- LoginPage.VerifyPath: the ids are written into the address unencoded. The query-string parsing on the code page is not modelled, so it receives the two ids directly.
- SupportChat: stored message ids are taken as they are. `RunKeepsNumbering` assumes that the list it starts from is numbered by position.
- The route change after the sign-in success and after code verification waits on a timer. The model reports the route at once.
- Success toasts and route changes outside the two sign-in submits are not modelled. This covers `Students.Delete`'s toast, `Registration.Submit`'s two success toasts and the edit's return to the students list, `Support.CreateTicket`'s toast, `Performance.AddSubject`'s and `Performance.DeleteSubject`'s toasts, `VerifyPage.Resend`'s toast, and `Auth.Logout`'s toast and route to /login. They are fixed texts and fixed routes with no rule to check.
- VerifyPage.CheckLink: returns only the error toast. The redirect to /login goes with every `Some` result and is not a separate value.

## Findings

| source | as written | input that shows it | evidently intended | confidence | as-written member | corrected member |
|---|---|---|---|---|---|---|
| src/app/dashboard/student-registration/page.jsx:87-92 | the new student id numbers the stored list's length plus one | delete the first demo student (STU/2024/0001) on the students screen, then register a student in 2024: the new id is STU/2024/0002, which the remaining demo student already has | a student id not held by any stored student | high (not executed) | Registration.StudentIdCollision | Registration.FreshStudentId |
| src/components/SupportChat.jsx:77-88 | the reply timer writes back the list it captured when the message was sent, plus the reply | send a message and then a second one within two seconds: when the first reply lands the list is the first message and its reply, and the second message is gone; when the second reply lands it writes back both messages and the second reply, so the first reply is lost for good from the list and from storage | the reply appended to the current list | high (not executed) | SupportChat.FirstReplyLost | SupportChat.FireOnCurrent |

=== FILE: auth.dfy ===
/**
 The demo session of the admin console: who is signed in, whether a sign-in
 is in progress, and whether the start-up check of the saved session has
 finished. Browser storage is the `saved` field of the session; the console's
 toasts and route changes are not part of the state.
 */
module Auth {
  import opened Common

  /** A field value of a user record: the records hold strings and, for
      `subjects`, a list of strings. */
  datatype Value = Text(s: string) | TextList(items: seq<string>)

  /** A user record is a JavaScript object: field name to value. */
  type User = map<string, Value>

  /** The record saved under the session's browser key: nothing, a record
      that parses, or text that does not parse. */
  datatype Saved = Missing | Stored(user: User) | Unparsable

  datatype Session = Session(user: Option<User>, loading: bool, authChecked: bool, saved: Saved)

  datatype LoginResult = Success(data: User) | Failure(message: string)

  const DemoPassword: string := "admin123"
  const InvalidCredentials: string := "Invalid credentials"

  /** One entry of the demo administrator list. */
  datatype Admin = Admin(id: string, email: string, name: string, role: string, studentId: string, avatar: string)

  /** The fixed list of administrators the demo accepts. */
  const DemoAdmins: seq<Admin> := [
    Admin("admin001", "admin@kogistatecollege.edu.ng", "Dr. Michael Adebayo", "Administrator", "ADMIN001", "/images/avatar1.png"),
    Admin("admin002", "principal@kogistatecollege.edu.ng", "Prof. Sarah Okafor", "Principal", "ADMIN002", "/images/avatar2.png")
  ]

  /** The user record an administrator becomes once signed in. */
  function AsUser(a: Admin): User {
    map[
      "id" := Text(a.id),
      "email" := Text(a.email),
      "name" := Text(a.name),
      "role" := Text(a.role),
      "school" := Text("Kogi State College of Education"),
      "studentId" := Text(a.studentId),
      "avatar" := Text(a.avatar),
      "subjects" := TextList(["All Subjects"])
    ]
  }

  /** A string field of a user, when present. */
  function TextField(u: User, key: string): Option<string> {
    if key in u && u[key].Text? then Some(u[key].s) else None
  }

  /** The sign-in test of one administrator: e-mail equal ignoring case and
      the demo password exactly. */
  predicate Accepts(admin: Admin, identifier: string, password: string) {
    Lower(admin.email) == Lower(identifier) && password == DemoPassword
  }

  /** Some demo administrator accepts the credentials. */
  predicate SomeAdminAccepts(identifier: string, password: string) {
    exists i :: 0 <= i < |DemoAdmins| && Accepts(DemoAdmins[i], identifier, password)
  }

  /** `Array.prototype.find`: the first administrator that accepts. */
  function FindAdmin(admins: seq<Admin>, identifier: string, password: string): (r: Option<Admin>)
    ensures r.None? <==> forall i :: 0 <= i < |admins| ==> !Accepts(admins[i], identifier, password)
    ensures r.Some? ==> exists i :: 0 <= i < |admins| && admins[i] == r.value && Accepts(r.value, identifier, password)
                          && forall j :: 0 <= j < i ==> !Accepts(admins[j], identifier, password)
  {
    if admins == [] then None
    else if Accepts(admins[0], identifier, password) then Some(admins[0])
    else
      var r := FindAdmin(admins[1..], identifier, password);
      assert forall i :: 1 <= i < |admins| ==> admins[i] == admins[1..][i - 1];
      r
  }

  /** A fresh provider: nobody signed in, the saved record not yet read. */
  function Initial(saved: Saved): (s: Session)
    ensures s.user.None? && !s.authChecked && !s.loading && s.saved == saved
  {
    Session(None, false, false, saved)
  }

  /** The start-up check: restore a saved record that parses, remove one
      that does not, and in every case mark the check as done. */
  function CheckAuth(s: Session): (r: Session)
    ensures r.authChecked
    ensures r.loading == s.loading
    ensures s.saved.Stored? ==> r.user == Some(s.saved.user) && r.saved == s.saved
    ensures s.saved.Missing? ==> r.user == s.user && r.saved == Missing
    ensures s.saved.Unparsable? ==> r.user == s.user && r.saved == Missing
  {
    match s.saved
    case Stored(u) => s.(user := Some(u), authChecked := true)
    case Missing => s.(authChecked := true)
    case Unparsable => s.(saved := Missing, authChecked := true)
  }

  /** The first effect of `login`: the loading flag goes up. */
  function BeginLogin(s: Session): (r: Session)
    ensures r.loading
    ensures r.user == s.user && r.authChecked == s.authChecked && r.saved == s.saved
  {
    s.(loading := true)
  }

  const NetworkError: string := "Network error"

  /** `login`, from the raised loading flag to the end of its `finally`.
      `canStore` says whether the browser accepts the write of the signed-in
      record; when it throws, the user has already been set and the `catch`
      reports "Network error". */
  function FinishLogin(s: Session, identifier: string, password: string, canStore: bool): (r: (Session, LoginResult))
    ensures !r.0.loading
    ensures r.0.authChecked == s.authChecked
    ensures r.1.Success? <==> SomeAdminAccepts(identifier, password) && canStore
    ensures SomeAdminAccepts(identifier, password) ==> r.0.user == Some(AsUser(FindAdmin(DemoAdmins, identifier, password).value))
    ensures r.1.Success? ==> r.0.user == Some(r.1.data) && r.0.saved == Stored(r.1.data)
    ensures !SomeAdminAccepts(identifier, password) ==> r.1 == Failure(InvalidCredentials) && r.0.user == s.user && r.0.saved == s.saved
    ensures SomeAdminAccepts(identifier, password) && !canStore ==> r.1 == Failure(NetworkError) && r.0.saved == s.saved
  {
    var found := FindAdmin(DemoAdmins, identifier, password);
    assert found.Some? <==> SomeAdminAccepts(identifier, password);
    match found
    case Some(admin) =>
      var u := AsUser(admin);
      if canStore then (s.(user := Some(u), saved := Stored(u), loading := false), LoginResult.Success(u))
      else (s.(user := Some(u), loading := false), Failure(NetworkError))
    case None => (s.(loading := false), Failure(InvalidCredentials))
  }

  /** The whole of `login`. */
  function Login(s: Session, identifier: string, password: string, canStore: bool): (r: (Session, LoginResult))
    ensures !r.0.loading
    ensures r.0.authChecked == s.authChecked
    ensures r.1.Success? <==> SomeAdminAccepts(identifier, password) && canStore
    ensures IsAuthenticated(r.0) <==> SomeAdminAccepts(identifier, password) || IsAuthenticated(s)
    ensures !SomeAdminAccepts(identifier, password) ==> r.0.user == s.user && r.1 == Failure(InvalidCredentials)
    ensures SomeAdminAccepts(identifier, password) && !canStore ==> r.1 == Failure(NetworkError)
  {
    FinishLogin(BeginLogin(s), identifier, password, canStore)
  }

  /** When the browser refuses the write, `login` reports a failure and
      still leaves the administrator signed in for this page's life, with
      nothing saved for the next. */
  lemma FailedWriteStillSignsIn(s: Session, identifier: string, password: string)
    requires SomeAdminAccepts(identifier, password)
    ensures var r := Login(s, identifier, password, false);
      && r.1 == Failure(NetworkError)
      && IsAuthenticated(r.0)
      && r.0.saved == s.saved
  {
  }

  /** `logout`: forget the user and the saved record. */
  function Logout(s: Session): (r: Session)
    ensures r.user.None? && r.saved == Missing
    ensures r.loading == s.loading && r.authChecked == s.authChecked
  {
    s.(user := None, saved := Missing)
  }

  /** `updateUser`: the shallow merge `{...user, ...patch}`, saved as well.
      Spreading a missing user contributes no fields. */
  function UpdateUser(s: Session, patch: User): (r: Session)
    ensures r.user.Some? && r.saved == Stored(r.user.value)
    ensures forall k :: k in patch ==> k in r.user.value && r.user.value[k] == patch[k]
    ensures s.user.Some? ==> forall k :: k in s.user.value && k !in patch ==> k in r.user.value && r.user.value[k] == s.user.value[k]
    ensures s.user.Some? ==> r.user.value.Keys == s.user.value.Keys + patch.Keys
    ensures s.user.None? ==> r.user.value == patch
    ensures r.loading == s.loading && r.authChecked == s.authChecked
  {
    var merged := (if s.user.Some? then s.user.value else map[]) + patch;
    s.(user := Some(merged), saved := Stored(merged))
  }

  /** `isAuthenticated: !!user`. */
  predicate IsAuthenticated(s: Session) {
    s.user.Some?
  }

  /** Signing out twice is the same as signing out once. */
  lemma LogoutIdempotent(s: Session)
    ensures Logout(Logout(s)) == Logout(s)
    ensures !IsAuthenticated(Logout(s))
  {
  }

  /** The operations a provider can perform after it is created. */
  datatype Op = Check | SignIn(identifier: string, password: string, canStore: bool) | SignOut | Update(patch: User)

  function Apply(s: Session, op: Op): Session {
    match op
    case Check => CheckAuth(s)
    case SignIn(i, p, canStore) => Login(s, i, p, canStore).0
    case SignOut => Logout(s)
    case Update(patch) => UpdateUser(s, patch)
  }

  function Run(s: Session, ops: seq<Op>): Session
    decreases |ops|
  {
    if ops == [] then s else Run(Apply(s, ops[0]), ops[1..])
  }

  /** Once the start-up check has finished it stays finished, whatever the
      console does afterwards; and `loading` is down between operations. */
  lemma {:induction false} AuthCheckedStays(s: Session, ops: seq<Op>)
    requires s.authChecked && !s.loading
    ensures Run(s, ops).authChecked && !Run(s, ops).loading
    decreases |ops|
  {
    if ops != [] {
      AuthCheckedStays(Apply(s, ops[0]), ops[1..]);
    }
  }

  /** The start-up check of a fresh provider ends signed in exactly when a
      parseable record was saved. */
  lemma StartUp(saved: Saved)
    ensures CheckAuth(Initial(saved)).authChecked
    ensures IsAuthenticated(CheckAuth(Initial(saved))) <==> saved.Stored?
  {
  }
}

=== FILE: common.dfy ===
/**
 Shared vocabulary for the admin console model: optional values, the outcome
 of an HTTP call as the screens see it, and the small string operations the
 screens use (ASCII case mapping, prefix and substring tests, whitespace).
 */
module Common {

  /** A value that may be missing (`null`/`undefined` in the console). */
  datatype Option<+T> = None | Some(value: T) {
    function GetOr(default: T): T {
      match this
      case Some(v) => v
      case None => default
    }
  }

  /** How a screen observes one request to the remote API: a response whose
      `ok` flag is set, a response whose `ok` flag is clear (with the body's
      `message`, if any), or a thrown error. */
  datatype Response = Ok | NotOk(message: Option<string>) | NetworkError

  /** A toast notification. */
  datatype Toast = Success(text: string) | Error(text: string)

  const NetworkErrorText: string := "Network error"

  /** The toast a form shows once its request has been answered: the
      success text, the server's message or the screen's fallback, or the
      network error text when the request threw. */
  function ReplyToast(response: Response, success: string, fallback: string): (t: Toast)
    ensures t.Success? <==> response.Ok?
    ensures response.Ok? ==> t.text == success
    ensures response.NotOk? ==> t.text == StrOr(response.message, fallback)
    ensures response.NetworkError? ==> t.text == NetworkErrorText
  {
    match response
    case Ok => Success(success)
    case NotOk(message) => Error(StrOr(message, fallback))
    case NetworkError => Error(NetworkErrorText)
  }

  /** A string field used with `||` falls back to `default` when it is
      missing or empty (both are falsy). */
  function StrOr(v: Option<string>, default: string): (r: string)
    ensures v.Some? && v.value != "" ==> r == v.value
    ensures v.None? || v.value == "" ==> r == default
  {
    if v.Some? && v.value != "" then v.value else default
  }

  /** A numeric field used with `||` falls back to `default` when it is
      missing or zero (both are falsy). */
  function IntOr(v: Option<int>, default: int): (r: int)
    ensures v.Some? && v.value != 0 ==> r == v.value
    ensures v.None? || v.value == 0 ==> r == default
  {
    if v.Some? && v.value != 0 then v.value else default
  }

  // ---------------------------------------------------------------- case

  function LowerChar(c: char): char {
    if 'A' <= c <= 'Z' then (c as int + 32) as char else c
  }

  function UpperChar(c: char): char {
    if 'a' <= c <= 'z' then (c as int - 32) as char else c
  }

  /** `toLowerCase`, restricted to the ASCII letters. */
  function Lower(s: string): (r: string)
    ensures |r| == |s|
    ensures forall i :: 0 <= i < |s| ==> r[i] == LowerChar(s[i])
  {
    if s == [] then [] else [LowerChar(s[0])] + Lower(s[1..])
  }

  /** `toUpperCase`, restricted to the ASCII letters. */
  function Upper(s: string): (r: string)
    ensures |r| == |s|
    ensures forall i :: 0 <= i < |s| ==> r[i] == UpperChar(s[i])
  {
    if s == [] then [] else [UpperChar(s[0])] + Upper(s[1..])
  }

  lemma UpperTake(s: string, n: nat)
    requires n <= |s|
    ensures Upper(s[..n]) == Upper(s)[..n]
  {
  }

  /** Lower-casing leaves a string without upper-case ASCII letters alone. */
  lemma LowerIdentity(s: string)
    requires forall i :: 0 <= i < |s| ==> !('A' <= s[i] <= 'Z')
    ensures Lower(s) == s
  {
  }

  lemma LowerAppend(a: string, b: string)
    ensures Lower(a + b) == Lower(a) + Lower(b)
  {
  }

  // ----------------------------------------------------- prefix, substring

  /** `s.startsWith(p)`. */
  predicate IsPrefix(p: string, s: string) {
    |p| <= |s| && s[..|p|] == p
  }

  /** `s.includes(t)`: `t` occurs in `s` at some position. */
  predicate Contains(s: string, t: string)
    decreases |s|
  {
    IsPrefix(t, s) || (|s| > 0 && Contains(s[1..], t))
  }

  lemma ContainsEmpty(s: string)
    ensures Contains(s, "")
  {
  }

  /** `t` occurs in `s` starting at position `i`. */
  predicate OccursAt(s: string, t: string, i: int) {
    0 <= i && i + |t| <= |s| && s[i..i + |t|] == t
  }

  /** `includes` agrees with the existence of an occurrence position. */
  lemma {:induction false} ContainsAt(s: string, t: string)
    ensures Contains(s, t) <==> exists i :: OccursAt(s, t, i)
    decreases |s|
  {
    if IsPrefix(t, s) {
      assert OccursAt(s, t, 0);
    } else if |s| == 0 {
    } else {
      ContainsAt(s[1..], t);
      if exists i :: OccursAt(s, t, i) {
        var i :| OccursAt(s, t, i);
        assert i != 0;
        assert OccursAt(s[1..], t, i - 1);
      }
      if Contains(s[1..], t) {
        var j :| OccursAt(s[1..], t, j);
        assert OccursAt(s, t, j + 1);
      }
    }
  }

  /** Case-insensitive `includes`, as the search boxes use it. */
  predicate Matches(field: string, term: string) {
    Contains(Lower(field), Lower(term))
  }

  // ------------------------------------------------------------ whitespace

  /** A character matched by `\s` and removed by `trim()` (ASCII subset). */
  predicate IsSpace(c: char) {
    c == ' ' || c == '\t' || c == '\n' || c == '\r' || c == '\U{000B}' || c == '\U{000C}'
  }

  /** `!s.trim()`: the string is empty or consists of whitespace only. */
  predicate IsBlank(s: string) {
    forall i :: 0 <= i < |s| ==> IsSpace(s[i])
  }

  /** `s.replace(/\s+/g, '')`. */
  function RemoveSpaces(s: string): (r: string)
    ensures |r| <= |s|
    ensures forall i :: 0 <= i < |r| ==> !IsSpace(r[i])
  {
    if s == [] then []
    else if IsSpace(s[0]) then RemoveSpaces(s[1..])
    else [s[0]] + RemoveSpaces(s[1..])
  }

  lemma RemoveSpacesAppend(a: string, b: string)
    ensures RemoveSpaces(a + b) == RemoveSpaces(a) + RemoveSpaces(b)
  {
    if a == [] {
      assert a + b == b;
    } else {
      assert (a + b)[0] == a[0];
      assert (a + b)[1..] == a[1..] + b;
      RemoveSpacesAppend(a[1..], b);
      if !IsSpace(a[0]) {
        assert [a[0]] + (RemoveSpaces(a[1..]) + RemoveSpaces(b)) == ([a[0]] + RemoveSpaces(a[1..])) + RemoveSpaces(b);
      }
    }
  }

  /** `value.slice(-1)`: the last character, or "" for the empty string. */
  function LastChar(s: string): (r: string)
    ensures |r| <= 1
    ensures s != "" ==> r == [s[|s| - 1]]
    ensures s == "" ==> r == ""
  {
    if s == "" then "" else s[|s| - 1..]
  }

  /** The number of elements of `s` satisfying `p` (`filter(p).length`). */
  function Count<T>(s: seq<T>, p: T -> bool): (n: nat)
    ensures n <= |s|
  {
    if s == [] then 0 else (if p(s[0]) then 1 else 0) + Count(s[1..], p)
  }

  /** `s.filter(p)`. */
  function Filter<T(!new)>(s: seq<T>, p: T -> bool): (r: seq<T>)
    ensures |r| == Count(s, p)
    ensures forall x :: x in r <==> x in s && p(x)
  {
    if s == [] then [] else (if p(s[0]) then [s[0]] else []) + Filter(s[1..], p)
  }

  /** `a` can be obtained from `b` by deleting elements. */
  predicate IsSubsequence<T(==)>(a: seq<T>, b: seq<T>)
    decreases |b|
  {
    a == [] || (b != [] && ((a[0] == b[0] && IsSubsequence(a[1..], b[1..])) || IsSubsequence(a, b[1..])))
  }

  lemma {:induction false} FilterIsSubsequence<T(!new)>(s: seq<T>, p: T -> bool)
    ensures IsSubsequence(Filter(s, p), s)
    decreases |s|
  {
    if s != [] {
      FilterIsSubsequence(s[1..], p);
      var r := Filter(s, p);
      if p(s[0]) {
        assert r == [s[0]] + Filter(s[1..], p);
        assert r[1..] == Filter(s[1..], p);
      } else {
        assert r == Filter(s[1..], p);
      }
    }
  }

  lemma FilterAll<T(!new)>(s: seq<T>, p: T -> bool)
    requires forall x :: x in s ==> p(x)
    ensures Filter(s, p) == s
  {
    if s != [] {
      FilterAll(s[1..], p);
    }
  }

  lemma FilterAppend<T(!new)>(a: seq<T>, b: seq<T>, p: T -> bool)
    ensures Filter(a + b, p) == Filter(a, p) + Filter(b, p)
  {
    if a == [] {
      assert a + b == b;
    } else {
      assert (a + b)[0] == a[0];
      assert (a + b)[1..] == a[1..] + b;
      FilterAppend(a[1..], b, p);
      var h: seq<T> := if p(a[0]) then [a[0]] else [];
      assert h + (Filter(a[1..], p) + Filter(b, p)) == (h + Filter(a[1..], p)) + Filter(b, p);
    }
  }
}

=== FILE: dashboard_page.dfy ===
/**
 The dashboard page shell: the loading gate, the navigation handler and
 which section is rendered.
 */
module DashboardPage {

  /** The page state: the sidebar, the loading gate, the active section and
      whether the support chat is shown. */
  datatype Shell = Shell(sidebarOpen: bool, pageLoading: bool, activeSection: string, chatOpen: bool)

  const Initial: Shell := Shell(false, true, "home", false)

  /** The loading effect's timer firing: the gate opens once the start-up
      check has finished and someone is signed in; otherwise nothing is
      scheduled and the gate stays as it is. */
  function Settle(s: Shell, authChecked: bool, isAuthenticated: bool): (r: Shell)
    ensures authChecked && isAuthenticated ==> !r.pageLoading
    ensures !(authChecked && isAuthenticated) ==> r == s
    ensures r.sidebarOpen == s.sidebarOpen && r.activeSection == s.activeSection && r.chatOpen == s.chatOpen
  {
    if authChecked && isAuthenticated then s.(pageLoading := false) else s
  }

  /** `handleNavigation`: the section becomes active, the sidebar closes,
      and the support section also opens the chat. */
  function Navigate(s: Shell, section: string): (r: Shell)
    ensures r.activeSection == section && !r.sidebarOpen && r.pageLoading == s.pageLoading
    ensures section == "support" ==> r.chatOpen
    ensures section != "support" ==> r.chatOpen == s.chatOpen
  {
    var r := s.(activeSection := section, sidebarOpen := false);
    if section == "support" then r.(chatOpen := true) else r
  }

  /** The views the page can render. */
  datatype View = HomeView | StudentsView | PerformanceView | ResultsView | SupportView | SettingsView | HelpView

  /** `renderSection`: the named view, and the home view for any other
      section. */
  function Render(section: string): (v: View)
    ensures section == "students" <==> v == StudentsView
    ensures section == "performance" <==> v == PerformanceView
    ensures section == "results" <==> v == ResultsView
    ensures section == "support" <==> v == SupportView
    ensures section == "settings" <==> v == SettingsView
    ensures section == "help" <==> v == HelpView
    ensures v == HomeView <==> section !in {"students", "performance", "results", "support", "settings", "help"}
  {
    match section
    case "home" => HomeView
    case "students" => StudentsView
    case "performance" => PerformanceView
    case "results" => ResultsView
    case "support" => SupportView
    case "settings" => SettingsView
    case "help" => HelpView
    case _ => HomeView
  }

  /** What can happen on the page: the loading timer, a navigation, and the
      chat being closed. */
  datatype Event = Timer(authChecked: bool, isAuthenticated: bool) | Go(section: string) | CloseChat

  function Step(s: Shell, e: Event): Shell {
    match e
    case Timer(checked, authenticated) => Settle(s, checked, authenticated)
    case Go(section) => Navigate(s, section)
    case CloseChat => s.(chatOpen := false)
  }

  function Run(s: Shell, events: seq<Event>): Shell
    decreases |events|
  {
    if events == [] then s else Run(Step(s, events[0]), events[1..])
  }

  /** The gate opens only through a timer that fired for a finished check
      and a signed-in user, and once open it never closes again. */
  lemma {:induction false} GateOpensOnlySignedIn(s: Shell, events: seq<Event>)
    requires s.pageLoading
    ensures !Run(s, events).pageLoading <==>
              exists i :: 0 <= i < |events| && events[i].Timer? && events[i].authChecked && events[i].isAuthenticated
    decreases |events|
  {
    if events != [] {
      var e := events[0];
      var next := Step(s, e);
      if e.Timer? && e.authChecked && e.isAuthenticated {
        GateStaysOpen(next, events[1..]);
      } else {
        GateOpensOnlySignedIn(next, events[1..]);
        if exists i :: 0 <= i < |events[1..]| && events[1..][i].Timer? && events[1..][i].authChecked && events[1..][i].isAuthenticated {
          var i :| 0 <= i < |events[1..]| && events[1..][i].Timer? && events[1..][i].authChecked && events[1..][i].isAuthenticated;
          assert events[i + 1] == events[1..][i];
        }
        if exists i :: 0 <= i < |events| && events[i].Timer? && events[i].authChecked && events[i].isAuthenticated {
          var i :| 0 <= i < |events| && events[i].Timer? && events[i].authChecked && events[i].isAuthenticated;
          assert i > 0 && events[1..][i - 1] == events[i];
        }
      }
    }
  }

  lemma {:induction false} GateStaysOpen(s: Shell, events: seq<Event>)
    requires !s.pageLoading
    ensures !Run(s, events).pageLoading
    decreases |events|
  {
    if events != [] {
      GateStaysOpen(Step(s, events[0]), events[1..]);
    }
  }

  /** Navigating twice to the same section is the same as navigating
      once. */
  lemma NavigateIdempotent(s: Shell, section: string)
    ensures Navigate(Navigate(s, section), section) == Navigate(s, section)
  {
  }
}

=== FILE: decimal.dfy ===
/**
 Decimal rendering of counters, as the console builds identifiers with
 `n.toString().padStart(width, '0')` (student ids, login-id suffixes, ticket
 ids), together with the inverse reading that shows the rendering loses no
 information.
 */
module Decimal {

  predicate IsDigit(c: char) {
    '0' <= c <= '9'
  }

  predicate AllDigits(s: string) {
    forall i :: 0 <= i < |s| ==> IsDigit(s[i])
  }

  function DigitChar(d: nat): (c: char)
    requires d < 10
    ensures IsDigit(c)
  {
    (48 + d) as char
  }

  function DigitValue(c: char): (d: nat)
    requires IsDigit(c)
    ensures d < 10
  {
    c as int - 48
  }

  /** `n.toString()` for a non-negative integer: shortest decimal form. */
  function Show(n: nat): (r: string)
    ensures 1 <= |r|
    ensures AllDigits(r)
    decreases n
  {
    if n < 10 then [DigitChar(n)] else Show(n / 10) + [DigitChar(n % 10)]
  }

  /** The number a string of digits denotes (leading zeros allowed). */
  function Value(s: string): nat
    requires AllDigits(s)
    decreases |s|
  {
    if s == [] then 0 else Value(s[..|s| - 1]) * 10 + DigitValue(s[|s| - 1])
  }

  /** A run of `k` zero digits. */
  function Zeros(k: nat): (r: string)
    ensures |r| == k
    ensures forall i :: 0 <= i < k ==> r[i] == '0'
  {
    if k == 0 then [] else Zeros(k - 1) + ['0']
  }

  /** `s.padStart(width, '0')`: left-pads with zeros up to `width`
      characters and leaves longer strings alone. */
  function PadZeros(s: string, width: nat): (r: string)
    ensures |s| >= width ==> r == s
    ensures |s| < width ==> |r| == width
    ensures |r| >= |s| && r[|r| - |s|..] == s
    ensures forall i :: 0 <= i < |r| - |s| ==> r[i] == '0'
  {
    if |s| >= width then s else Zeros(width - |s|) + s
  }

  /** `n.toString().padStart(width, '0')`. */
  function Padded(n: nat, width: nat): (r: string)
    ensures |r| >= width
    ensures AllDigits(r)
  {
    PadZeros(Show(n), width)
  }

  lemma {:induction false} ValueShow(n: nat)
    ensures Value(Show(n)) == n
    decreases n
  {
    if n >= 10 {
      var s := Show(n);
      assert s[..|s| - 1] == Show(n / 10);
      ValueShow(n / 10);
    }
  }

  lemma {:induction false} ValueZeros(k: nat)
    ensures AllDigits(Zeros(k)) && Value(Zeros(k)) == 0
  {
    if k > 0 {
      assert Zeros(k)[..k - 1] == Zeros(k - 1);
      ValueZeros(k - 1);
    }
  }

  lemma {:induction false} ValueLeadingZeros(k: nat, s: string)
    requires AllDigits(s)
    ensures AllDigits(Zeros(k) + s) && Value(Zeros(k) + s) == Value(s)
    decreases |s|
  {
    var z := Zeros(k) + s;
    if s == [] {
      assert z == Zeros(k);
      ValueZeros(k);
    } else {
      assert z[..|z| - 1] == Zeros(k) + s[..|s| - 1];
      ValueLeadingZeros(k, s[..|s| - 1]);
    }
  }

  /** Left-padding digits with zeros keeps the number they denote. */
  lemma ValuePadZeros(s: string, width: nat)
    requires AllDigits(s)
    ensures AllDigits(PadZeros(s, width)) && Value(PadZeros(s, width)) == Value(s)
  {
    if |s| < width {
      ValueLeadingZeros(width - |s|, s);
    }
  }

  /** Reading a padded rendering back gives the counter: the rendering is a
      faithful encoding whatever the width. */
  lemma ValuePadded(n: nat, width: nat)
    ensures Value(Padded(n, width)) == n
  {
    ValueShow(n);
    ValuePadZeros(Show(n), width);
  }

  /** Distinct counters never render to the same padded string. */
  lemma PaddedInjective(a: nat, b: nat, width: nat)
    ensures Padded(a, width) == Padded(b, width) ==> a == b
  {
    ValuePadded(a, width);
    ValuePadded(b, width);
  }

  /** Appending distinct padded counters to a common prefix gives distinct
      strings. */
  lemma SuffixedInjective(prefix: string, a: nat, b: nat, width: nat)
    ensures prefix + Padded(a, width) == prefix + Padded(b, width) ==> a == b
  {
    if prefix + Padded(a, width) == prefix + Padded(b, width) {
      assert (prefix + Padded(a, width))[|prefix|..] == Padded(a, width);
      assert (prefix + Padded(b, width))[|prefix|..] == Padded(b, width);
      PaddedInjective(a, b, width);
    }
  }

  // ------------------------------------------------------ numbered names

  /** `prefix + counter.toString().padStart(width, '0')`. */
  function Numbered(prefix: string, width: nat, counter: nat): string {
    prefix + Padded(counter, width)
  }

  /** Numbering with a fixed prefix and width, as a naming of counters. */
  function Counter(prefix: string, width: nat): (name: nat -> string)
    ensures forall k :: name(k) == Numbered(prefix, width, k)
  {
    (k: nat) => Numbered(prefix, width, k)
  }

  /** A naming of counters in which different counters get different
      names. */
  ghost predicate Injective(name: nat -> string) {
    forall a, b :: name(a) == name(b) ==> a == b
  }

  lemma CounterInjective(prefix: string, width: nat)
    ensures Injective(Counter(prefix, width))
  {
    forall a, b | Counter(prefix, width)(a) == Counter(prefix, width)(b)
      ensures a == b
    {
      SuffixedInjective(prefix, a, b, width);
    }
  }

  /** The names of the counters `from .. c - 1`. */
  function Range(name: nat -> string, from: nat, c: nat): (r: set<string>)
    requires from <= c
    ensures forall k :: from <= k < c ==> name(k) in r
    decreases c - from
  {
    if c == from then {} else Range(name, from, c - 1) + {name(c - 1)}
  }

  /** Every name in the range is the name of one of its counters. */
  lemma {:induction false} RangeOnly(name: nat -> string, from: nat, c: nat, x: string)
    requires from <= c && x in Range(name, from, c)
    ensures exists k :: from <= k < c && x == name(k)
    decreases c - from
  {
    if x != name(c - 1) {
      RangeOnly(name, from, c - 1, x);
    }
  }

  /** Under an injective naming, the name of a counter at or past `c` is
      not in the range below `c`. */
  lemma {:induction false} RangeFresh(name: nat -> string, from: nat, c: nat, m: nat)
    requires Injective(name) && from <= c <= m
    ensures name(m) !in Range(name, from, c)
    decreases c - from
  {
    if c > from {
      RangeFresh(name, from, c - 1, m);
    }
  }

  /** Under an injective naming the range has one name per counter. */
  lemma {:induction false} RangeSize(name: nat -> string, from: nat, c: nat)
    requires Injective(name) && from <= c
    ensures |Range(name, from, c)| == c - from
    decreases c - from
  {
    if c > from {
      RangeSize(name, from, c - 1);
      RangeFresh(name, from, c - 1, c - 1);
      AddFresh(Range(name, from, c - 1), name(c - 1));
    }
  }

  lemma AddFresh<T>(a: set<T>, x: T)
    requires x !in a
    ensures |a + {x}| == |a| + 1
  {
  }

  /** A range whose every name is taken lies inside the taken set. */
  lemma {:induction false} RangeWithin(name: nat -> string, taken: set<string>, from: nat, c: nat)
    requires from <= c
    requires forall k :: from <= k < c ==> name(k) in taken
    ensures Range(name, from, c) <= taken
    decreases c - from
  {
    if c > from {
      RangeWithin(name, taken, from, c - 1);
    }
  }

  /** Pigeonhole: if every counter in `from .. c - 1` names a taken string,
      there are at most as many such counters as taken strings. */
  lemma TakenBound(name: nat -> string, taken: set<string>, from: nat, c: nat)
    requires Injective(name) && from <= c
    requires forall k :: from <= k < c ==> name(k) in taken
    ensures c - from <= |taken|
  {
    RangeSize(name, from, c);
    RangeWithin(name, taken, from, c);
    SubsetSize(Range(name, from, c), taken);
  }

  lemma {:induction false} SubsetSize<T>(a: set<T>, b: set<T>)
    requires a <= b
    ensures |a| <= |b|
    decreases |a|
  {
    if a != {} {
      var x :| x in a;
      SubsetSize(a - {x}, b - {x});
    }
  }

  /** The first counter from `c` on whose name is not taken; the counters
      `from .. c - 1` are known to be taken. */
  function FirstFree(name: nat -> string, taken: set<string>, from: nat, c: nat): (r: nat)
    requires Injective(name) && from <= c
    requires forall k :: from <= k < c ==> name(k) in taken
    ensures r >= c && name(r) !in taken
    ensures forall k :: from <= k < r ==> name(k) in taken
    decreases |taken| + from - c
  {
    TakenBound(name, taken, from, c);
    if name(c) !in taken then c
    else
      TakenBound(name, taken, from, c + 1);
      FirstFree(name, taken, from, c + 1)
  }

  /** The first free counter is the only one that is free while all
      counters before it are taken. */
  lemma FirstFreeUnique(name: nat -> string, taken: set<string>, from: nat, r: nat)
    requires Injective(name) && from <= r && name(r) !in taken
    requires forall k :: from <= k < r ==> name(k) in taken
    ensures FirstFree(name, taken, from, from) == r
  {
  }
}

=== FILE: exams.dfy ===
/**
 Exam histories and the arithmetic the analytics screens apply to them:
 sums, `Math.round` of a mean, maxima, trailing windows and pass rates.
 Scores are integers, so `Math.round(s / n)` is computed exactly.
 */
module Exams {
  import opened Common

  /** One entry of a student's stored exam history. */
  datatype Exam = Exam(subject: string, score: int, date: string)

  const PassMark: int := 50

  function Scores(exams: seq<Exam>): (r: seq<int>)
    ensures |r| == |exams|
    ensures forall i :: 0 <= i < |exams| ==> r[i] == exams[i].score
  {
    seq(|exams|, i requires 0 <= i < |exams| => exams[i].score)
  }

  function Sum(xs: seq<int>): int {
    if xs == [] then 0 else Sum(xs[..|xs| - 1]) + xs[|xs| - 1]
  }

  /** `Math.round(sum / n)`: the integer `r` with `r <= sum/n + 1/2 < r + 1`. */
  function RoundedMean(sum: int, n: nat): (r: int)
    requires n > 0
    ensures 2 * n * r <= 2 * sum + n < 2 * n * r + 2 * n
  {
    (2 * sum + n) / (2 * n)
  }

  /** The rounded mean of a list, 0 for an empty one. */
  function Average(xs: seq<int>): (r: int)
    ensures xs == [] ==> r == 0
    ensures xs != [] ==> 2 * |xs| * r <= 2 * Sum(xs) + |xs| < 2 * |xs| * r + 2 * |xs|
  {
    if xs == [] then 0 else RoundedMean(Sum(xs), |xs|)
  }

  /** `Math.max(...xs)`, 0 for an empty list. */
  function Best(xs: seq<int>): (r: int)
    ensures xs == [] ==> r == 0
    ensures xs != [] ==> r in xs && forall i :: 0 <= i < |xs| ==> xs[i] <= r
  {
    if xs == [] then 0
    else if |xs| == 1 then xs[0]
    else
      var m := Best(xs[..|xs| - 1]);
      assert forall i :: 0 <= i < |xs| - 1 ==> xs[i] == xs[..|xs| - 1][i];
      if xs[|xs| - 1] > m then xs[|xs| - 1] else m
  }

  /** `xs.slice(-k)` for `k > 0`: the last `k` elements, or all of them. */
  function Last<T>(xs: seq<T>, k: nat): (r: seq<T>)
    requires k > 0
    ensures |r| == if |xs| < k then |xs| else k
    ensures r == xs[|xs| - |r|..]
  {
    if |xs| < k then xs else xs[|xs| - k..]
  }

  function Reverse<T>(xs: seq<T>): (r: seq<T>)
    ensures |r| == |xs|
    ensures forall i :: 0 <= i < |xs| ==> r[i] == xs[|xs| - 1 - i]
  {
    if xs == [] then [] else [xs[|xs| - 1]] + Reverse(xs[..|xs| - 1])
  }

  function PassCount(exams: seq<Exam>): (n: nat)
    ensures n <= |exams|
  {
    Count(exams, (e: Exam) => e.score >= PassMark)
  }

  /** `Math.round(passCount / total * 100)`, 0 without exams. */
  function PassRate(exams: seq<Exam>): (r: int)
    ensures 0 <= r <= 100
    ensures exams == [] ==> r == 0
    ensures PassCount(exams) == |exams| && exams != [] ==> r == 100
    ensures PassCount(exams) == 0 ==> r == 0
    ensures exams != [] ==> 2 * |exams| * r <= 200 * PassCount(exams) + |exams| < 2 * |exams| * r + 2 * |exams|
  {
    if exams == [] then 0
    else
      var n, p := |exams|, PassCount(exams);
      MulMono(p, n, 100);
      RoundedMeanBetween(100 * p, n, 0, 100);
      RoundedMeanExact(100, n);
      RoundedMeanExact(0, n);
      RoundedMean(100 * p, n)
  }

  lemma MulMono(a: int, b: int, c: nat)
    requires a <= b
    ensures c * a <= c * b
  {
  }

  /** A rounded mean of a sum between `n * lo` and `n * hi` lies between
      `lo` and `hi`. */
  lemma RoundedMeanBetween(sum: int, n: nat, lo: int, hi: int)
    requires n > 0
    requires n * lo <= sum <= n * hi
    ensures lo <= RoundedMean(sum, n) <= hi
  {
    var r := RoundedMean(sum, n);
    if r < lo {
      MulMono(r + 1, lo, 2 * n);
      assert false;
    }
    if r > hi {
      MulMono(hi + 1, r, 2 * n);
      assert false;
    }
  }

  lemma RoundedMeanExact(k: int, n: nat)
    requires n > 0
    ensures RoundedMean(n * k, n) == k
  {
    RoundedMeanBetween(n * k, n, k, k);
  }

  lemma {:induction false} SumBounds(xs: seq<int>, lo: int, hi: int)
    requires forall i :: 0 <= i < |xs| ==> lo <= xs[i] <= hi
    ensures |xs| * lo <= Sum(xs) <= |xs| * hi
    decreases |xs|
  {
    if xs != [] {
      var init, n := xs[..|xs| - 1], |xs|;
      assert forall i :: 0 <= i < |init| ==> init[i] == xs[i];
      SumBounds(init, lo, hi);
      assert (n - 1) * lo + lo == n * lo && (n - 1) * hi + hi == n * hi;
    }
  }

  /** The rounded mean stays within the range of the scores it averages. */
  lemma AverageWithinRange(xs: seq<int>, lo: int, hi: int)
    requires xs != []
    requires forall i :: 0 <= i < |xs| ==> lo <= xs[i] <= hi
    ensures lo <= Average(xs) <= hi
  {
    SumBounds(xs, lo, hi);
    RoundedMeanBetween(Sum(xs), |xs|, lo, hi);
  }

  /** The mean never exceeds the best score. */
  lemma AverageAtMostBest(xs: seq<int>)
    requires xs != []
    ensures Average(xs) <= Best(xs)
  {
    var b := Best(xs);
    var lo := xs[0];
    forall i | 0 <= i < |xs| ensures xs[i] <= b {}
    var m :| m in xs && forall i :: 0 <= i < |xs| ==> m <= xs[i] by {
      MinExists(xs);
    }
    AverageWithinRange(xs, m, b);
  }

  lemma {:induction false} MinExists(xs: seq<int>)
    requires xs != []
    ensures exists m :: m in xs && forall i :: 0 <= i < |xs| ==> m <= xs[i]
    decreases |xs|
  {
    if |xs| > 1 {
      MinExists(xs[1..]);
      var m :| m in xs[1..] && forall i :: 0 <= i < |xs[1..]| ==> m <= xs[1..][i];
      if xs[0] < m {
        assert xs[0] in xs;
        assert forall i :: 0 <= i < |xs| ==> xs[0] <= xs[i] by {
          forall i | 0 <= i < |xs| ensures xs[0] <= xs[i] {
            if i > 0 { assert xs[i] == xs[1..][i - 1]; }
          }
        }
      } else {
        assert m in xs;
        assert forall i :: 0 <= i < |xs| ==> m <= xs[i] by {
          forall i | 0 <= i < |xs| ensures m <= xs[i] {
            if i > 0 { assert xs[i] == xs[1..][i - 1]; }
          }
        }
      }
    } else {
      assert xs[0] in xs;
      assert forall i :: 0 <= i < |xs| ==> xs[0] <= xs[i];
    }
  }
}

=== FILE: home.dfy ===
/**
 The dashboard home screen's statistics, computed from the student and
 ticket lists the server returns.
 */
module Home {
  import opened Common

  /** A listed student or ticket; only its status matters here. */
  datatype Listed = Listed(status: Option<string>)

  datatype Stats = Stats(
    totalStudents: nat,
    activeToday: nat,
    avgPerformance: int,
    pendingTickets: nat,
    completedExams: int,
    passRate: int)

  const InitialStats: Stats := Stats(0, 0, 0, 0, 0, 0)

  /** The screen before and after its fetch: the statistics and the loading
      flag. */
  datatype Screen = Screen(stats: Stats, loading: bool)

  const Initial: Screen := Screen(InitialStats, true)

  /** What the two requests produce: the `students` and `tickets` arrays of
      the bodies (either may be absent), or a thrown error. */
  datatype Fetch = Fetched(students: Option<seq<Listed>>, tickets: Option<seq<Listed>>) | Failed

  predicate Active(s: Listed) {
    s.status == Some("active")
  }

  predicate Pending(t: Listed) {
    t.status == Some("open") || t.status == Some("in-progress")
  }

  /** The statistics of a successful fetch. */
  function Compute(students: seq<Listed>, tickets: seq<Listed>): (r: Stats)
    ensures r.totalStudents == |students|
    ensures r.activeToday <= r.totalStudents
    ensures r.pendingTickets <= |tickets|
    ensures r.activeToday == |Filter(students, Active)|
    ensures r.pendingTickets == |Filter(tickets, Pending)|
    ensures r.avgPerformance == 0 && r.completedExams == 0 && r.passRate == 0
  {
    Stats(|students|, Count(students, Active), 0, Count(tickets, Pending), 0, 0)
  }

  /** `fetchDashboardData`: absent arrays count as empty; a thrown error
      leaves the statistics as they were; loading ends either way. */
  function FetchDashboard(s: Screen, f: Fetch): (r: Screen)
    ensures !r.loading
    ensures f.Failed? ==> r.stats == s.stats
    ensures f.Fetched? ==> r.stats == Compute(f.students.GetOr([]), f.tickets.GetOr([]))
  {
    match f
    case Failed => s.(loading := false)
    case Fetched(students, tickets) => Screen(Compute(students.GetOr([]), tickets.GetOr([])), false)
  }

  /** A failed first fetch leaves every statistic at zero. */
  lemma FailedFirstFetch()
    ensures FetchDashboard(Initial, Failed) == Screen(InitialStats, false)
  {
  }

  /** Every student is active or not, so the two counts add up to the
      total. */
  lemma {:induction false} ActiveSplit(students: seq<Listed>)
    ensures Count(students, Active) + Count(students, (s: Listed) => !Active(s)) == |students|
    decreases |students|
  {
    if students != [] {
      ActiveSplit(students[1..]);
    }
  }

  /** A ticket counts as pending exactly when it is open or in progress; no
      other status does, and closed tickets never do. */
  lemma PendingTickets(tickets: seq<Listed>)
    ensures forall t :: t in Filter(tickets, Pending) <==> t in tickets && t.status in {Some("open"), Some("in-progress")}
    ensures forall t :: t in tickets && t.status == Some("closed") ==> t !in Filter(tickets, Pending)
  {
  }
}

=== FILE: initials.dfy ===
/**
 Avatar initials of the signed-in administrator, as the settings screen and
 the navigation bar compute them: the name split on single spaces, the first
 character of each word, two characters, upper-cased. An empty word (from
 two spaces in a row, or a leading or trailing space) contributes nothing,
 as `undefined` joins as the empty string.
 */
module Initials {
  import opened Common

  /** `s.split(' ')`: the pieces between single spaces. */
  function Split(s: string): (r: seq<string>)
    ensures |r| >= 1
    ensures forall i :: 0 <= i < |r| ==> ' ' !in r[i]
    decreases |s|
  {
    if s == [] then [""]
    else
      var rest := Split(s[1..]);
      if s[0] == ' ' then [""] + rest
      else
        assert ' ' !in rest[0];
        [[s[0]] + rest[0]] + rest[1..]
  }

  /** `words.join(' ')`. */
  function JoinWords(words: seq<string>): string
    requires |words| >= 1
    decreases |words|
  {
    if |words| == 1 then words[0] else words[0] + " " + JoinWords(words[1..])
  }

  /** Splitting loses nothing: joining the pieces back gives the name. */
  lemma {:induction false} SplitJoin(s: string)
    ensures JoinWords(Split(s)) == s
    decreases |s|
  {
    if s != [] {
      var rest := Split(s[1..]);
      SplitJoin(s[1..]);
      if s[0] == ' ' {
        assert ([""] + rest)[1..] == rest;
        assert s == " " + s[1..];
      } else {
        var r := [[s[0]] + rest[0]] + rest[1..];
        if |rest| == 1 {
          assert s == [s[0]] + s[1..];
        } else {
          assert r[1..] == rest[1..];
          assert JoinWords(rest) == rest[0] + " " + JoinWords(rest[1..]);
          assert s == [s[0]] + s[1..];
        }
      }
    }
  }

  /** `words.map(n => n[0]).join('')`. */
  function Heads(words: seq<string>): string
    decreases |words|
  {
    if words == [] then "" else (if words[0] == "" then "" else [words[0][0]]) + Heads(words[1..])
  }

  /** The characters that start a word: not a space, and first or right
      after a space. `atStart` says whether the previous character was a
      space (or there was none). */
  function Starts(s: string, atStart: bool): string
    decreases |s|
  {
    if s == [] then ""
    else (if atStart && s[0] != ' ' then [s[0]] else "") + Starts(s[1..], s[0] == ' ')
  }

  /** A word followed by anything starts with its first letter (when a word
      may start there) and contributes no other start. */
  lemma {:induction false} StartsWord(w: string, rest: string, atStart: bool)
    requires w != [] && ' ' !in w
    ensures Starts(w + rest, atStart) == (if atStart then [w[0]] else "") + Starts(rest, false)
    decreases |w|
  {
    var s := w + rest;
    assert s[0] == w[0];
    if |w| > 1 {
      assert s[1..] == w[1..] + rest;
      assert w[1] in w;
      StartsWord(w[1..], rest, false);
    } else {
      assert s[1..] == rest;
    }
  }

  lemma {:induction false} HeadsOfSplit(s: string)
    ensures Heads(Split(s)) == Starts(s, true)
    ensures Heads(Split(s)[1..]) == Starts(s, false)
    decreases |s|
  {
    if s != [] {
      var rest := Split(s[1..]);
      HeadsOfSplit(s[1..]);
      if s[0] == ' ' {
        assert ([""] + rest)[1..] == rest;
      } else {
        var r := [[s[0]] + rest[0]] + rest[1..];
        assert r[1..] == rest[1..];
        assert r[0][0] == s[0];
      }
    }
  }

  /** The first letters of the words are exactly the characters that start
      a word. */
  lemma FirstLettersAreWordStarts(name: string)
    ensures Heads(Split(name)) == Starts(name, true)
  {
    HeadsOfSplit(name);
  }

  /** `substring(0, 2)` / `slice(0, 2)`. */
  function TakeTwo(s: string): (r: string)
    ensures |s| <= 2 ==> r == s
    ensures |s| > 2 ==> r == s[..2]
  {
    if |s| <= 2 then s else s[..2]
  }

  /** The settings screen: "AD" for an empty name, otherwise two first
      letters, then upper-cased. */
  function SettingsInitials(name: string): (r: string)
    ensures name == "" ==> r == "AD"
    ensures name != "" ==> r == Upper(TakeTwo(Starts(name, true)))
    ensures |r| <= 2
  {
    HeadsOfSplit(name);
    if name == "" then "AD" else Upper(TakeTwo(Heads(Split(name))))
  }

  /** The navigation bar: "AD" for a missing or empty name, otherwise the
      first letters upper-cased, then two of them. */
  function NavbarInitials(name: Option<string>): (r: string)
    ensures name.None? || name.value == "" ==> r == "AD"
    ensures name.Some? && name.value != "" ==> r == TakeTwo(Upper(Starts(name.value, true)))
    ensures |r| <= 2
  {
    if name.None? || name.value == "" then "AD"
    else
      HeadsOfSplit(name.value);
      TakeTwo(Upper(Heads(Split(name.value))))
  }

  /** The two screens show the same initials for the same name: upper-casing
      and taking two characters commute. */
  lemma ScreensAgree(name: string)
    ensures SettingsInitials(name) == NavbarInitials(Some(name))
  {
    var h := Starts(name, true);
    if |h| > 2 {
      UpperTake(h, 2);
    }
  }
}

=== FILE: login_page.dfy ===
/**
 The sign-in page: the check before calling `login`, how the page reads the
 result (two-factor hand-over first, then success, then failure), and when
 an already signed-in visitor is sent on to the dashboard.
 */
module LoginPage {
  import opened Common
  import Auth

  /** A JavaScript value used as a condition: present and not empty. */
  predicate Truthy(v: Option<string>) {
    v.Some? && v.value != ""
  }

  /** The fields of a `login` result the page reads. Missing booleans are
      false. */
  datatype Reply = Reply(requiresTwoFactor: bool, userId: Option<string>, tempToken: Option<string>,
                         success: bool, message: Option<string>)

  /** What the awaited `login` call gives: a result, or a thrown error with
      its `message`. */
  datatype Answer = Answered(reply: Reply) | Threw(error: Option<string>)

  /** Where the page sends the visitor. */
  datatype Route = Stay | ToVerify(userId: string, token: string) | ToDashboard

  /** The page after a submission: whether `login` was called, the loading
      flag, the route, and the toast left on screen (none when it was
      dismissed). */
  datatype Submission = Submission(called: bool, loading: bool, route: Route, toast: Option<Toast>)

  const MissingCredentials: string := "Please enter your admin credentials"
  const Welcome: string := "Welcome back, Admin!"
  const BadTwoFactorReply: string := "Invalid 2FA response from server"
  const InvalidAdmin: string := "Invalid admin credentials"
  const AuthenticationFailed: string := "Authentication failed. Please try again."

  /** The address of the two-factor page for a hand-over. */
  function VerifyPath(userId: string, token: string): (r: string)
    ensures |r| == 25 + |userId| + 5 + |token|
    ensures r[..25] == "/login/verify-2fa?userId=" && r[25 + |userId|..][..5] == "&tkn="
    ensures r[25..25 + |userId|] == userId && r[30 + |userId|..] == token
  {
    "/login/verify-2fa?userId=" + userId + "&tkn=" + token
  }

  /** `handleSubmit`. Without both fields nothing is called. A two-factor
      reply hands over to the code page when it carries both ids and is an
      error otherwise; then success goes to the dashboard (loading stays
      up until the page changes) and anything else shows the message. */
  function Submit(identifier: string, password: string, answer: Answer): (r: Submission)
    ensures !r.called <==> identifier == "" || password == ""
    ensures !r.called ==> r == Submission(false, false, Stay, Some(Error(MissingCredentials)))
    ensures r.route.ToVerify? <==> r.called && answer.Answered? && answer.reply.requiresTwoFactor
                                   && Truthy(answer.reply.userId) && Truthy(answer.reply.tempToken)
    ensures r.route.ToVerify? ==> r.route == ToVerify(answer.reply.userId.value, answer.reply.tempToken.value)
                                  && r.loading && r.toast.None?
    ensures r.route.ToDashboard? <==> r.called && answer.Answered? && !answer.reply.requiresTwoFactor && answer.reply.success
    ensures r.route.ToDashboard? ==> r.loading && r.toast == Some(Success(Welcome))
    ensures r.called && r.route.Stay? ==> !r.loading && r.toast.Some? && r.toast.value.Error?
    ensures r.called && answer.Answered? && answer.reply.requiresTwoFactor && r.route.Stay? ==>
              r.toast == Some(Error(BadTwoFactorReply))
    ensures r.called && answer.Answered? && !answer.reply.requiresTwoFactor && !answer.reply.success ==>
              r.toast == Some(Error(StrOr(answer.reply.message, InvalidAdmin)))
    ensures r.called && answer.Threw? ==>
              r.route.Stay? && r.toast == Some(Error(StrOr(answer.error, AuthenticationFailed)))
  {
    if identifier == "" || password == "" then Submission(false, false, Stay, Some(Error(MissingCredentials)))
    else
      match answer
      case Threw(error) => Submission(true, false, Stay, Some(Error(StrOr(error, AuthenticationFailed))))
      case Answered(reply) =>
        if reply.requiresTwoFactor then
          if Truthy(reply.userId) && Truthy(reply.tempToken) then
            Submission(true, true, ToVerify(reply.userId.value, reply.tempToken.value), None)
          else Submission(true, false, Stay, Some(Error(BadTwoFactorReply)))
        else if reply.success then Submission(true, true, ToDashboard, Some(Success(Welcome)))
        else Submission(true, false, Stay, Some(Error(StrOr(reply.message, InvalidAdmin))))
  }

  /** A reply that asks for a second factor never reaches the dashboard,
      even when it also says it succeeded. */
  lemma TwoFactorBeforeSuccess(identifier: string, password: string, reply: Reply)
    requires reply.requiresTwoFactor && reply.success
    ensures !Submit(identifier, password, Answered(reply)).route.ToDashboard?
  {
  }

  /** The result of the demo session's `login` as the page reads it. */
  function FromDemo(result: Auth.LoginResult): (r: Reply)
    ensures !r.requiresTwoFactor
    ensures r.success <==> result.Success?
    ensures result.Failure? ==> r.message == Some(result.message)
  {
    match result
    case Success(_) => Reply(false, None, None, true, None)
    case Failure(message) => Reply(false, None, None, false, Some(message))
  }

  /** With the demo session, the page goes to the dashboard exactly when
      the demo accepts the credentials and the session could be saved; a
      refusal shows "Invalid credentials" and a failed write "Network
      error", never the page's fallback. */
  lemma DemoSignIn(s: Auth.Session, identifier: string, password: string, canStore: bool)
    requires identifier != "" && password != ""
    ensures var r := Submit(identifier, password, Answered(FromDemo(Auth.Login(s, identifier, password, canStore).1)));
      && !r.route.ToVerify?
      && (r.route.ToDashboard? <==> Auth.SomeAdminAccepts(identifier, password) && canStore)
      && (!Auth.SomeAdminAccepts(identifier, password) ==> r.toast == Some(Error(Auth.InvalidCredentials)))
      && (Auth.SomeAdminAccepts(identifier, password) && !canStore ==> r.toast == Some(Error(Auth.NetworkError)))
  {
    ReadDemo(identifier, password, Auth.Login(s, identifier, password, canStore).1);
  }

  /** How the page reads any demo result: never a hand-over, the dashboard
      exactly on success, and a failure's own message when it has one. */
  lemma ReadDemo(identifier: string, password: string, result: Auth.LoginResult)
    requires identifier != "" && password != ""
    ensures var r := Submit(identifier, password, Answered(FromDemo(result)));
      && !r.route.ToVerify?
      && (r.route.ToDashboard? <==> result.Success?)
      && (result.Failure? && result.message != "" ==> r.toast == Some(Error(result.message)))
  {
  }

  /** The redirect effect: a signed-in visitor is sent on only once the page
      has mounted and the start-up check has finished. */
  predicate ShouldRedirect(mounted: bool, authChecked: bool, isAuthenticated: bool) {
    mounted && authChecked && isAuthenticated
  }

  /** A visitor with a saved session is sent on once the page has mounted
      and the session's start-up check has run; before that check, never. */
  lemma SavedSessionRedirects(saved: Auth.Saved)
    ensures !ShouldRedirect(true, Auth.Initial(saved).authChecked, Auth.IsAuthenticated(Auth.Initial(saved)))
    ensures var s := Auth.CheckAuth(Auth.Initial(saved));
      ShouldRedirect(true, s.authChecked, Auth.IsAuthenticated(s)) <==> saved.Stored?
  {
    Auth.StartUp(saved);
  }
}

=== FILE: navbar.dfy ===
/**
 The navigation bar's profile badge: which user it shows (the one fetched
 live from the server, else the session's), the avatar initials, and the
 name and role with their fallbacks.
 */
module Navbar {
  import opened Common
  import Auth
  import Initials
  import Settings

  /** The outcome of the live `/api/auth/me` request: an accepted response
      carrying a `user` (which may be absent), or anything else. */
  datatype Me = MeOk(user: Option<Auth.User>) | MeFailed

  /** The live user after the request: replaced by an accepted response's
      `user`, left as it was otherwise. */
  function FetchMe(live: Option<Auth.User>, me: Me): (r: Option<Auth.User>)
    ensures me.MeOk? ==> r == me.user
    ensures me.MeFailed? ==> r == live
  {
    match me
    case MeOk(user) => user
    case MeFailed => live
  }

  /** `liveUser || user`: the live user when there is one. */
  function DisplayUser(live: Option<Auth.User>, session: Option<Auth.User>): (r: Option<Auth.User>)
    ensures live.Some? ==> r == live
    ensures live.None? ==> r == session
    ensures r.Some? <==> live.Some? || session.Some?
  {
    if live.Some? then live else session
  }

  /** `displayUser?.name`: missing when there is no user, or the user has
      no text name. */
  function NameOf(u: Option<Auth.User>): (r: Option<string>)
    ensures u.None? ==> r.None?
    ensures u.Some? ==> r == Auth.TextField(u.value, "name")
  {
    if u.None? then None else Auth.TextField(u.value, "name")
  }

  const FallbackName: string := "Admin"
  const FallbackRole: string := "Administrator"

  datatype Badge = Badge(initials: string, name: string, role: string)

  /** The badge for the displayed user. */
  function BadgeFor(u: Option<Auth.User>): (r: Badge)
    ensures |r.initials| <= 2
    ensures r.name != "" && r.role != ""
    ensures r.initials == Initials.NavbarInitials(NameOf(u))
    ensures NameOf(u).Some? && NameOf(u).value != "" ==> r.name == NameOf(u).value
    ensures NameOf(u).None? || NameOf(u).value == "" ==> r.name == FallbackName && r.initials == "AD"
    ensures u.Some? && Auth.TextField(u.value, "role").Some? && Auth.TextField(u.value, "role").value != "" ==>
              r.role == Auth.TextField(u.value, "role").value
    ensures u.None? ==> r == Badge("AD", FallbackName, FallbackRole)
  {
    var role := if u.None? then None else Auth.TextField(u.value, "role");
    Badge(Initials.NavbarInitials(NameOf(u)), StrOr(NameOf(u), FallbackName), StrOr(role, FallbackRole))
  }

  /** A failed live request with nobody signed in shows the fallback badge. */
  lemma NobodyShown()
    ensures BadgeFor(DisplayUser(FetchMe(None, MeFailed), None)) == Badge("AD", FallbackName, FallbackRole)
  {
  }

  /** For a user with a name, the navigation bar and the settings screen
      show the same initials. */
  lemma BadgeMatchesSettings(u: Auth.User, any: Settings.Profile)
    requires Auth.TextField(u, "name").Some? && Auth.TextField(u, "name").value != ""
    ensures BadgeFor(Some(u)).initials == Initials.SettingsInitials(Settings.ProfileFor(Some(u), any).name)
  {
    Initials.ScreensAgree(Auth.TextField(u, "name").value);
  }

  /** For a user without a name the two screens differ: the navigation bar
      shows "AD" while the settings screen shows the initials of its default
      name, "AU". */
  lemma NamelessUserDiffers(u: Auth.User, any: Settings.Profile)
    requires "name" !in u
    ensures BadgeFor(Some(u)).initials == "AD"
    ensures Initials.SettingsInitials(Settings.ProfileFor(Some(u), any).name) == "AU"
  {
    DefaultNameInitials();
  }

  /** The settings screen's default name "Admin User" has the initials
      "AU". */
  lemma DefaultNameInitials()
    ensures Initials.SettingsInitials(Settings.DefaultName) == "AU"
  {
    DefaultNameStarts();
    UpperInitials();
    assert Settings.DefaultName != "";
  }

  lemma DefaultNameStarts()
    ensures Initials.Starts(Settings.DefaultName, true) == "AU"
  {
    TwoWordStarts("Admin", "User");
    assert Settings.DefaultName == "Admin" + " " + "User";
  }

  /** Two words separated by one space start with their first letters. */
  lemma TwoWordStarts(first: string, second: string)
    requires first != [] && ' ' !in first
    requires second != [] && ' ' !in second
    ensures Initials.Starts(first + " " + second, true) == [first[0], second[0]]
  {
    var rest := " " + second;
    assert first + " " + second == first + rest;
    Initials.StartsWord(first, rest, true);
    assert rest[1..] == second + "";
    Initials.StartsWord(second, "", true);
  }

  lemma UpperInitials()
    ensures Common.Upper(Initials.TakeTwo("AU")) == "AU"
  {
    assert Common.Upper("AU")[0] == 'A' && Common.Upper("AU")[1] == 'U';
  }
}

=== FILE: otp.dfy ===
/**
 Six-slot entry of a one-time code, as both the security settings and the
 two-factor sign-in page implement it: one box per digit, each holding the
 last character typed into it.
 */
module Otp {
  import opened Common

  const Size: nat := 6

  /** Six empty boxes. */
  const Blank: seq<string> := ["", "", "", "", "", ""]

  /** Six boxes of at most one character each. */
  predicate WellFormed(slots: seq<string>) {
    |slots| == Size && forall i :: 0 <= i < |slots| ==> |slots[i]| <= 1
  }

  lemma BlankWellFormed()
    ensures WellFormed(Blank) && Join(Blank) == ""
  {
    assert Blank[1..] == ["", "", "", "", ""];
    assert Blank[1..][1..] == ["", "", "", ""];
    assert Blank[1..][1..][1..] == ["", "", ""];
    assert Blank[1..][1..][1..][1..] == ["", ""];
    assert Blank[1..][1..][1..][1..][1..] == [""];
  }

  /** `slots.join('')`. */
  function Join(slots: seq<string>): string
    decreases |slots|
  {
    if slots == [] then "" else slots[0] + Join(slots[1..])
  }

  /** The number of filled boxes. */
  function Filled(slots: seq<string>): nat
    decreases |slots|
  {
    if slots == [] then 0 else (if slots[0] != "" then 1 else 0) + Filled(slots[1..])
  }

  /** With boxes of at most one character, the joined code is as long as the
      number of filled boxes. */
  lemma {:induction false} JoinLength(slots: seq<string>)
    requires forall i :: 0 <= i < |slots| ==> |slots[i]| <= 1
    ensures |Join(slots)| == Filled(slots)
    decreases |slots|
  {
    if slots != [] {
      JoinLength(slots[1..]);
    }
  }

  lemma {:induction false} FilledAll(slots: seq<string>)
    ensures Filled(slots) == |slots| <==> forall i :: 0 <= i < |slots| ==> slots[i] != ""
    ensures Filled(slots) <= |slots|
    decreases |slots|
  {
    if slots != [] {
      FilledAll(slots[1..]);
      assert forall i :: 1 <= i < |slots| ==> slots[i] == slots[1..][i - 1];
    }
  }

  /** The code is complete (six characters long) exactly when every box is
      filled. */
  lemma CompleteIffFilled(slots: seq<string>)
    requires WellFormed(slots)
    ensures |Join(slots)| == Size <==> forall i :: 0 <= i < Size ==> slots[i] != ""
  {
    JoinLength(slots);
    FilledAll(slots);
  }

  /** `handleChange`/`handle2FAChange`. Input that `isNaN` rejects is
      ignored (`rejects` stands for it); otherwise box `index` takes the last
      character of the input, and the other boxes keep theirs. The boxes call
      it with their own index. */
  function Change(slots: seq<string>, index: nat, value: string, rejects: string -> bool): (r: seq<string>)
    requires index < |slots|
    ensures rejects(value) ==> r == slots
    ensures !rejects(value) ==> |r| == |slots| && r[index] == LastChar(value)
    ensures forall i :: 0 <= i < |slots| && i != index ==> r[i] == slots[i]
    ensures WellFormed(slots) ==> WellFormed(r)
  {
    if rejects(value) then slots else slots[index := LastChar(value)]
  }

  /** Typing a character into each box in turn completes the code. */
  lemma {:induction false} TypingFills(slots: seq<string>, index: nat, value: string, rejects: string -> bool)
    requires WellFormed(slots) && index < Size && value != "" && !rejects(value)
    ensures Change(slots, index, value, rejects)[index] != ""
    ensures forall i :: 0 <= i < Size && slots[i] != "" ==> Change(slots, index, value, rejects)[i] != ""
  {
  }
}

=== FILE: performance.dfy ===
/**
 The performance screen of one selected student: per-subject statistics and
 an overview computed from the student's stored exam history, and the two
 edits the screen offers on the student's subject list.
 */
module Performance {
  import opened Common
  import opened Exams
  import opened Students

  /** The subjects an administrator may never remove. */
  const Mathematics: string := "Mathematics"
  const English: string := "English"

  predicate Protected(subject: string) {
    subject == Mathematics || subject == English
  }

  datatype SubjectStats = SubjectStats(name: string, avgScore: int, bestScore: int, totalExams: nat, recentScores: seq<int>)

  datatype Overview = Overview(
    subjects: seq<SubjectStats>,
    overallAvg: int,
    bestOverall: int,
    totalExams: nat,
    passRate: int,
    recentExams: seq<Exam>)

  /** `examHistory.filter(e => e.subject === subject)`. */
  function SubjectExams(history: seq<Exam>, subject: string): (r: seq<Exam>)
    ensures forall e :: e in r <==> e in history && e.subject == subject
    ensures |r| == Count(history, (e: Exam) => e.subject == subject)
    ensures IsSubsequence(r, history)
  {
    FilterIsSubsequence(history, (e: Exam) => e.subject == subject);
    Filter(history, (e: Exam) => e.subject == subject)
  }

  /** Every score in the scores of a list belongs to one of its exams. */
  lemma ScoreOwner(exams: seq<Exam>, x: int)
    requires x in Scores(exams)
    ensures exists e :: e in exams && e.score == x
  {
    var i :| 0 <= i < |exams| && Scores(exams)[i] == x;
    assert exams[i] in exams;
  }

  /** The highest score of a non-empty list is the score of one of its exams
      and no exam of the list scores more. */
  lemma BestOfExams(exams: seq<Exam>)
    ensures exams != [] ==> exists e :: e in exams && e.score == Best(Scores(exams))
    ensures forall e :: e in exams ==> e.score <= Best(Scores(exams))
  {
    if exams != [] {
      ScoreOwner(exams, Best(Scores(exams)));
    }
    forall e | e in exams
      ensures e.score <= Best(Scores(exams))
    {
      var i :| 0 <= i < |exams| && exams[i] == e;
      assert Scores(exams)[i] == e.score;
    }
  }

  lemma ScoresSuffix(exams: seq<Exam>, k: nat)
    requires k <= |exams|
    ensures Scores(exams[k..]) == Scores(exams)[k..]
  {
  }

  /** One entry of `subjects` in the load effect. */
  function StatsOf(history: seq<Exam>, subject: string): (r: SubjectStats)
    ensures r.name == subject
    ensures r.totalExams == Count(history, (e: Exam) => e.subject == subject)
    ensures r.totalExams == 0 ==> r.avgScore == 0 && r.bestScore == 0 && r.recentScores == []
    ensures r.totalExams > 0 ==>
              var xs := Scores(SubjectExams(history, subject));
              2 * |xs| * r.avgScore <= 2 * Sum(xs) + |xs| < 2 * |xs| * r.avgScore + 2 * |xs|
    ensures r.totalExams > 0 ==> exists e :: e in history && e.subject == subject && e.score == r.bestScore
    ensures forall e :: e in history && e.subject == subject ==> e.score <= r.bestScore
    ensures |r.recentScores| == if r.totalExams < 5 then r.totalExams else 5
    ensures r.recentScores == Scores(SubjectExams(history, subject))[r.totalExams - |r.recentScores|..]
  {
    var exams := SubjectExams(history, subject);
    var scores := Scores(exams);
    BestOfExams(exams);
    ScoresSuffix(exams, |exams| - |Last(exams, 5)|);
    SubjectStats(subject, Average(scores), Best(scores), |exams|, Scores(Last(exams, 5)))
  }

  /** The stats of every subject, in the order of the subject list. */
  function AllStats(history: seq<Exam>, subjects: seq<string>): (r: seq<SubjectStats>)
    ensures |r| == |subjects|
    ensures forall i :: 0 <= i < |subjects| ==> r[i] == StatsOf(history, subjects[i]) && r[i].name == subjects[i]
  {
    seq(|subjects|, i requires 0 <= i < |subjects| => StatsOf(history, subjects[i]))
  }

  /** The last ten exams, most recent first. */
  lemma RecentExams(history: seq<Exam>)
    ensures |Reverse(Last(history, 10))| == if |history| < 10 then |history| else 10
    ensures forall i :: 0 <= i < |Reverse(Last(history, 10))| ==> Reverse(Last(history, 10))[i] == history[|history| - 1 - i]
  {
    var last := Last(history, 10);
    forall i | 0 <= i < |last|
      ensures Reverse(last)[i] == history[|history| - 1 - i]
    {
      assert Reverse(last)[i] == last[|last| - 1 - i];
      assert last[|last| - 1 - i] == history[|history| - |last|..][|last| - 1 - i];
    }
  }

  /** The history-wide part of the overview, before the per-subject
      statistics are filled in. */
  function Totals(history: seq<Exam>): (r: Overview)
    ensures r.subjects == []
    ensures r.totalExams == |history|
    ensures history == [] ==> r.overallAvg == 0 && r.bestOverall == 0 && r.passRate == 0
    ensures history != [] ==> var n := |history|;
              2 * n * r.overallAvg <= 2 * Sum(Scores(history)) + n < 2 * n * r.overallAvg + 2 * n
    ensures r.passRate == PassRate(history)
    ensures history != [] ==> exists e :: e in history && e.score == r.bestOverall
    ensures forall e :: e in history ==> e.score <= r.bestOverall
    ensures |r.recentExams| == if |history| < 10 then |history| else 10
    ensures forall i :: 0 <= i < |r.recentExams| ==> r.recentExams[i] == history[|history| - 1 - i]
  {
    BestOfExams(history);
    RecentExams(history);
    Overview([], Average(Scores(history)), Best(Scores(history)), |history|,
             PassRate(history), Reverse(Last(history, 10)))
  }

  /** The overview the load effect computes. */
  function Analyse(subjects: seq<string>, history: seq<Exam>): (r: Overview)
    ensures r.subjects == AllStats(history, subjects)
    ensures r.totalExams == |history|
    ensures history == [] ==> r.overallAvg == 0 && r.bestOverall == 0 && r.passRate == 0
    ensures history != [] ==> var n := |history|;
              2 * n * r.overallAvg <= 2 * Sum(Scores(history)) + n < 2 * n * r.overallAvg + 2 * n
    ensures r.passRate == PassRate(history)
    ensures history != [] ==> exists e :: e in history && e.score == r.bestOverall
    ensures forall e :: e in history ==> e.score <= r.bestOverall
    ensures 0 <= r.passRate <= 100
    ensures history != [] && PassCount(history) == |history| ==> r.passRate == 100
    ensures PassCount(history) == 0 ==> r.passRate == 0
    ensures |r.recentExams| == if |history| < 10 then |history| else 10
    ensures forall i :: 0 <= i < |r.recentExams| ==> r.recentExams[i] == history[|history| - 1 - i]
  {
    Totals(history).(subjects := AllStats(history, subjects))
  }

  /** The load effect: nothing without a selected student; a missing history
      counts as an empty one. */
  function Load(selected: Option<Student>, history: Option<seq<Exam>>): (r: Option<Overview>)
    ensures r.Some? <==> selected.Some?
    ensures r.Some? ==> r.value == Analyse(selected.value.subjects, history.GetOr([]))
  {
    match selected
    case None => None
    case Some(s) => Some(Analyse(s.subjects, history.GetOr([])))
  }

  /** What a subject edit does: refused, or the edited student, the stored
      list with that student replaced, and the overview with fresh subject
      statistics. */
  datatype Change = Refused | Changed(student: Student, students: seq<Student>, overview: Overview)

  /** Applies a new subject list to the selected student. */
  function WithSubjects(selected: Student, students: seq<Student>, history: seq<Exam>, prev: Overview, subjects: seq<string>): (r: Change)
    ensures r.Changed?
    ensures r.student == selected.(subjects := subjects)
    ensures |r.students| == |students|
    ensures forall i :: 0 <= i < |students| ==> r.students[i] == if students[i].id == selected.id then r.student else students[i]
    ensures r.overview == prev.(subjects := AllStats(history, subjects))
  {
    var updated := selected.(subjects := subjects);
    Changed(updated, ReplaceById(students, updated), prev.(subjects := AllStats(history, subjects)))
  }

  /** `handleAddSubject`. The name is appended as typed; only a name that is
      empty after trimming is refused. */
  function AddSubject(selected: Student, students: seq<Student>, history: seq<Exam>, prev: Overview, name: string): (r: Change)
    ensures r.Refused? <==> IsBlank(name)
    ensures r.Changed? ==> r.student.subjects == selected.subjects + [name]
    ensures r.Changed? ==> r.student == selected.(subjects := r.student.subjects)
    ensures r.Changed? ==> r.students == ReplaceById(students, r.student)
    ensures r.Changed? ==> |r.overview.subjects| == |selected.subjects| + 1
                           && r.overview.subjects[|selected.subjects|] == StatsOf(history, name)
    ensures r.Changed? ==> r.overview == prev.(subjects := AllStats(history, r.student.subjects))
  {
    if IsBlank(name) then Refused
    else WithSubjects(selected, students, history, prev, selected.subjects + [name])
  }

  /** `handleDeleteSubject`: every occurrence of the subject goes, unless it
      is one of the two protected subjects. */
  function DeleteSubject(selected: Student, students: seq<Student>, history: seq<Exam>, prev: Overview, subject: string): (r: Change)
    ensures r.Refused? <==> Protected(subject)
    ensures r.Changed? ==> forall x :: x in r.student.subjects <==> x in selected.subjects && x != subject
    ensures r.Changed? ==> IsSubsequence(r.student.subjects, selected.subjects)
    ensures r.Changed? ==> r.student == selected.(subjects := r.student.subjects)
    ensures r.Changed? ==> r.students == ReplaceById(students, r.student)
    ensures r.Changed? ==> r.overview == prev.(subjects := AllStats(history, r.student.subjects))
  {
    if Protected(subject) then Refused
    else
      FilterIsSubsequence(selected.subjects, (x: string) => x != subject);
      WithSubjects(selected, students, history, prev, Filter(selected.subjects, (x: string) => x != subject))
  }

  /** Deleting a subject that was just added, and was not there before,
      gives back the original subject list. */
  lemma DeleteUndoesAdd(selected: Student, students: seq<Student>, history: seq<Exam>, prev: Overview, name: string)
    requires !IsBlank(name) && !Protected(name) && name !in selected.subjects
    ensures
      var added := AddSubject(selected, students, history, prev, name);
      DeleteSubject(added.student, added.students, history, added.overview, name).student == selected
  {
    var p := (x: string) => x != name;
    FilterAppend(selected.subjects, [name], p);
    FilterAll(selected.subjects, p);
    assert Filter([name], p) == [];
  }

  /** The edits a user can make on the screen. */
  datatype Edit = Add(name: string) | Remove(subject: string)

  function ApplyEdit(selected: Student, edit: Edit): Student {
    var r := match edit
      case Add(name) => AddSubject(selected, [], [], Overview([], 0, 0, 0, 0, []), name)
      case Remove(subject) => DeleteSubject(selected, [], [], Overview([], 0, 0, 0, 0, []), subject);
    if r.Changed? then r.student else selected
  }

  function ApplyEdits(selected: Student, edits: seq<Edit>): Student
    decreases |edits|
  {
    if edits == [] then selected else ApplyEdits(ApplyEdit(selected, edits[0]), edits[1..])
  }

  /** Whatever the edits, a protected subject the student takes stays. */
  lemma {:induction false} ProtectedSubjectsStay(selected: Student, edits: seq<Edit>, subject: string)
    requires Protected(subject) && subject in selected.subjects
    ensures subject in ApplyEdits(selected, edits).subjects
    decreases |edits|
  {
    if edits != [] {
      var next := ApplyEdit(selected, edits[0]);
      assert subject in next.subjects;
      ProtectedSubjectsStay(next, edits[1..], subject);
    }
  }

  /** The grade badge of the overview. */
  function Grade(avg: int): (g: char)
    ensures g == 'A' <==> avg >= 75
    ensures g == 'B' <==> 60 <= avg < 75
    ensures g == 'C' <==> 50 <= avg < 60
    ensures g == 'D' <==> avg < 50
  {
    if avg >= 75 then 'A' else if avg >= 60 then 'B' else if avg >= 50 then 'C' else 'D'
  }

  /** With scores between 0 and 100 every statistic stays between 0 and 100,
      and a subject's mean never exceeds its best score. */
  lemma StatsInRange(history: seq<Exam>, subject: string)
    requires forall e :: e in history ==> 0 <= e.score <= 100
    ensures var st := StatsOf(history, subject);
      0 <= st.avgScore <= st.bestScore <= 100
  {
    var exams := SubjectExams(history, subject);
    var xs := Scores(exams);
    if exams != [] {
      forall i | 0 <= i < |xs|
        ensures 0 <= xs[i] <= 100
      {
        assert exams[i] in exams;
      }
      AverageAtMostBest(xs);
      AverageWithinRange(xs, 0, 100);
    }
  }
}

=== FILE: questions.dfy ===
/**
 The question bank screen: the question form, the required-field rules of
 create, update and bulk import, the edit dialog's defaults, and the
 four-way filter. Questions live on the server; its answers are inputs.
 */
module Questions {
  import opened Common
  import Subjects

  /** The question form. `className` is the form's `class` field. */
  datatype QuestionForm = QuestionForm(
    subjectId: string,
    question: string,
    options: seq<string>,
    correctAnswer: int,
    marks: int,
    explanation: string,
    difficulty: string,
    topic: string,
    className: string,
    examType: string)

  const BlankOptions: seq<string> := ["", "", "", ""]

  const DefaultForm: QuestionForm := QuestionForm("", "", BlankOptions, 0, 1, "", "medium", "", "", "WAEC")

  /** A question as the server lists it; any field but the id may be
      absent. */
  datatype StoredQuestion = StoredQuestion(
    id: string,
    subjectId: Option<string>,
    question: Option<string>,
    options: Option<seq<string>>,
    correctAnswer: Option<int>,
    marks: Option<int>,
    explanation: Option<string>,
    difficulty: Option<string>,
    topic: Option<string>,
    className: Option<string>,
    examType: Option<string>)

  /** The effect that runs when a subject is picked: the form takes the
      subject's id, class and exam type (an absent field becomes empty). */
  function PickSubject(form: QuestionForm, subject: Option<Subjects.StoredSubject>): (r: QuestionForm)
    ensures subject.None? ==> r == form
    ensures subject.Some? ==> r.subjectId == subject.value.id
    ensures subject.Some? && subject.value.className.Some? ==> r.className == subject.value.className.value
    ensures subject.Some? && subject.value.className.None? ==> r.className == ""
    ensures subject.Some? && subject.value.examType.Some? ==> r.examType == subject.value.examType.value
    ensures subject.Some? && subject.value.examType.None? ==> r.examType == ""
    ensures r == form.(subjectId := r.subjectId, className := r.className, examType := r.examType)
  {
    match subject
    case None => form
    case Some(s) => form.(subjectId := s.id, className := s.className.GetOr(""), examType := s.examType.GetOr(""))
  }

  /** `handleOptionChange`: the option at `index` becomes `value`. The
      screen only offers the indices of the options it shows. */
  function ChangeOption(form: QuestionForm, index: nat, value: string): (r: QuestionForm)
    requires index < |form.options|
    ensures |r.options| == |form.options| && r.options[index] == value
    ensures forall i :: 0 <= i < |form.options| && i != index ==> r.options[i] == form.options[i]
    ensures r == form.(options := r.options)
  {
    form.(options := form.options[index := value])
  }

  /** Every option is filled in (none is the empty string). */
  predicate OptionsFilled(form: QuestionForm) {
    "" !in form.options
  }

  /** What a new question needs: a subject, the text and every option. */
  predicate CreateReady(form: QuestionForm) {
    form.subjectId != "" && form.question != "" && OptionsFilled(form)
  }

  /** What an edited question needs: the text and every option. */
  predicate UpdateReady(form: QuestionForm) {
    form.question != "" && OptionsFilled(form)
  }

  const RequiredText: string := "Please fill in all required fields"

  /** The outcome of a save button: the form afterwards, whether a request
      was sent, and the toast shown. */
  datatype Outcome = Outcome(form: QuestionForm, sent: bool, toast: Toast)

  /** The shared shape of `handleCreateQuestion` and `handleUpdateQuestion`. */
  function Save(form: QuestionForm, ready: bool, response: Response, success: string, fallback: string): (r: Outcome)
    ensures r.sent <==> ready
    ensures !ready ==> r.form == form && r.toast == Error(RequiredText)
    ensures ready ==> r.toast == ReplyToast(response, success, fallback)
    ensures ready && response.Ok? ==> r.form == DefaultForm
    ensures ready && !response.Ok? ==> r.form == form
  {
    if !ready then Outcome(form, false, Error(RequiredText))
    else Outcome(if response.Ok? then DefaultForm else form, true, ReplyToast(response, success, fallback))
  }

  /** `handleCreateQuestion`. */
  function CreateQuestion(form: QuestionForm, response: Response): (r: Outcome)
    ensures r.sent <==> form.subjectId != "" && form.question != "" && "" !in form.options
    ensures r.toast.Success? <==> r.sent && response.Ok?
    ensures r.toast.Success? ==> r.form == DefaultForm
    ensures r.toast.Error? ==> r.form == form
  {
    Save(form, CreateReady(form), response, "Question created successfully!", "Failed to create question")
  }

  /** `handleUpdateQuestion`: as creating, but the subject is not required. */
  function UpdateQuestion(form: QuestionForm, response: Response): (r: Outcome)
    ensures r.sent <==> form.question != "" && "" !in form.options
    ensures r.toast.Success? <==> r.sent && response.Ok?
    ensures r.toast.Success? ==> r.form == DefaultForm
    ensures r.toast.Error? ==> r.form == form
  {
    Save(form, UpdateReady(form), response, "Question updated successfully!", "Failed to update question")
  }

  /** Whatever may be created may be updated; the converse fails exactly for
      a form without a subject. */
  lemma CreateStricterThanUpdate(form: QuestionForm)
    ensures CreateReady(form) ==> UpdateReady(form)
    ensures UpdateReady(form) && !CreateReady(form) <==> UpdateReady(form) && form.subjectId == ""
  {
  }

  /** The reset form can be neither created nor updated. */
  lemma DefaultFormRefused(response: Response)
    ensures !CreateQuestion(DefaultForm, response).sent
    ensures !UpdateQuestion(DefaultForm, response).sent
  {
  }

  /** What `handleBulkImport` does; the pasted text is cleared only after
      `Imported`. */
  datatype Import =
    | Incomplete                    // no subject picked, or only blanks pasted
    | BadJson                       // the pasted text does not parse
    | Imported(subjectId: string)   // the server took the questions
    | Rejected(message: string)     // the server refused them

  /** `handleBulkImport`. Whether the text parses as JSON is an input. A
      request that throws lands in the same `catch` as a parse failure, so a
      network error is reported as bad JSON too. */
  function BulkImport(subject: Option<Subjects.StoredSubject>, data: string, parses: bool, response: Response): (r: Import)
    ensures r.Incomplete? <==> subject.None? || IsBlank(data)
    ensures r.BadJson? <==> subject.Some? && !IsBlank(data) && (!parses || response.NetworkError?)
    ensures r.Imported? <==> subject.Some? && !IsBlank(data) && parses && response.Ok?
    ensures r.Imported? ==> r.subjectId == subject.value.id
    ensures r.Rejected? ==> response.NotOk? && r.message == StrOr(response.message, "Failed to import questions")
  {
    if subject.None? || IsBlank(data) then Incomplete
    else if !parses then BadJson
    else match response
      case Ok => Imported(subject.value.id)
      case NotOk(message) => Rejected(StrOr(message, "Failed to import questions"))
      case NetworkError => BadJson
  }

  /** `openEditModal`: each falsy field takes the form's default. An options
      list is never falsy, even when empty. */
  function EditForm(q: StoredQuestion): (r: QuestionForm)
    ensures r.subjectId == StrOr(q.subjectId, "") && r.question == StrOr(q.question, "")
    ensures r.options == q.options.GetOr(BlankOptions)
    ensures r.correctAnswer == IntOr(q.correctAnswer, 0) && r.marks == IntOr(q.marks, 1)
    ensures r.explanation == StrOr(q.explanation, "") && r.topic == StrOr(q.topic, "")
    ensures r.difficulty == StrOr(q.difficulty, "medium") && r.examType == StrOr(q.examType, "WAEC")
    ensures r.className == StrOr(q.className, "")
    ensures r.marks != 0 && r.difficulty != "" && r.examType != ""
  {
    QuestionForm(StrOr(q.subjectId, ""), StrOr(q.question, ""), q.options.GetOr(BlankOptions),
                 IntOr(q.correctAnswer, 0), IntOr(q.marks, 1), StrOr(q.explanation, ""),
                 StrOr(q.difficulty, "medium"), StrOr(q.topic, ""), StrOr(q.className, ""),
                 StrOr(q.examType, "WAEC"))
  }

  /** The question a saved form becomes on the server. */
  function Stored(id: string, form: QuestionForm): StoredQuestion {
    StoredQuestion(id, Some(form.subjectId), Some(form.question), Some(form.options), Some(form.correctAnswer),
                   Some(form.marks), Some(form.explanation), Some(form.difficulty), Some(form.topic),
                   Some(form.className), Some(form.examType))
  }

  /** Opening the edit dialog on a question saved from a form gives back that
      form exactly when its marks, difficulty and exam type were not falsy. */
  lemma EditFormRoundTrip(id: string, form: QuestionForm)
    ensures EditForm(Stored(id, form)) == form <==> form.marks != 0 && form.difficulty != "" && form.examType != ""
  {
  }

  /** The filter settings; "all" is the wildcard of the three selectors. */
  datatype QuestionFilter = QuestionFilter(term: string, subject: string, className: string, difficulty: string)

  /** A selector accepts a field when set to "all" or equal to it; an absent
      field equals no selector value. */
  predicate Selects(selector: string, field: Option<string>) {
    selector == "all" || field == Some(selector)
  }

  /** The test of one question. A question without text never shows. */
  predicate Shown(q: StoredQuestion, f: QuestionFilter) {
    && q.question.Some? && Matches(q.question.value, f.term)
    && Selects(f.subject, q.subjectId)
    && Selects(f.className, q.className)
    && Selects(f.difficulty, q.difficulty)
  }

  /** `filteredQuestions`. */
  function FilterQuestions(questions: seq<StoredQuestion>, f: QuestionFilter): (r: seq<StoredQuestion>)
    ensures forall q :: q in r <==> q in questions && Shown(q, f)
    ensures IsSubsequence(r, questions)
    ensures |r| == Count(questions, (q: StoredQuestion) => Shown(q, f))
  {
    FilterIsSubsequence(questions, (q: StoredQuestion) => Shown(q, f));
    Filter(questions, (q: StoredQuestion) => Shown(q, f))
  }

  /** With an empty term and every selector on "all", exactly the questions
      that have text are shown. */
  lemma FilterNothing(questions: seq<StoredQuestion>)
    ensures forall q :: q in FilterQuestions(questions, QuestionFilter("", "all", "all", "all")) <==> q in questions && q.question.Some?
  {
    forall q | q in questions && q.question.Some?
      ensures Shown(q, QuestionFilter("", "all", "all", "all"))
    {
      ContainsEmpty(Lower(q.question.value));
    }
  }

  /** Narrowing one selector from "all" to a value never shows more. */
  lemma NarrowingShowsLess(questions: seq<StoredQuestion>, f: QuestionFilter, subject: string)
    requires f.subject == "all"
    ensures forall q :: q in FilterQuestions(questions, f.(subject := subject)) ==> q in FilterQuestions(questions, f)
  {
  }
}

=== FILE: registration.dfy ===
/**
 The student registration page: login-id, e-mail and student-id generation,
 and the submit handler that validates the form, rejects duplicates and
 writes the new or edited record into the stored list.
 */
module Registration {
  import opened Common
  import opened Decimal
  import opened Students

  const EmailDomain: string := "@kogistatecollege.edu.ng"
  const DefaultSubjects: seq<string> := ["Mathematics", "English"]

  // ------------------------------------------------------------ login id

  function LoginIds(students: seq<Student>): set<string> {
    set s | s in students :: s.loginId
  }

  /** `${first.toLowerCase()}.${last.toLowerCase()}`, which the e-mail
      comparison uses as it is. */
  function NameStem(first: string, last: string): string {
    Lower(first) + "." + Lower(last)
  }

  /** The login-id base: the stem with all whitespace removed. */
  function LoginBase(first: string, last: string): (r: string)
    ensures r != ""
  {
    assert NameStem(first, last) == Lower(first) + ("." + Lower(last));
    RemoveSpacesAppend(Lower(first), "." + Lower(last));
    RemoveSpacesAppend(".", Lower(last));
    assert RemoveSpaces(".") == ".";
    RemoveSpaces(NameStem(first, last))
  }

  /** Some stored student's login id starts with the base, or its e-mail
      starts with the unstripped stem. */
  predicate HasSimilar(students: seq<Student>, first: string, last: string) {
    exists s :: s in students && (IsPrefix(LoginBase(first, last), s.loginId) || IsPrefix(NameStem(first, last), s.email))
  }

  /** `generateLoginId`. */
  function GenerateLoginId(first: string, last: string, students: seq<Student>): (r: string)
    ensures first == "" || last == "" ==> r == ""
    ensures first != "" && last != "" ==> r != "" && r !in LoginIds(students)
    ensures first != "" && last != "" && !HasSimilar(students, first, last) ==> r == LoginBase(first, last)
    ensures first != "" && last != "" && HasSimilar(students, first, last) ==>
              exists c :: c >= 1 && r == Numbered(LoginBase(first, last), 3, c)
                          && forall k :: 1 <= k < c ==> Numbered(LoginBase(first, last), 3, k) in LoginIds(students)
  {
    if first == "" || last == "" then ""
    else
      var base := LoginBase(first, last);
      if !HasSimilar(students, first, last) then
        assert IsPrefix(base, base);
        base
      else
        CounterInjective(base, 3);
        var c := FirstFree(Counter(base, 3), LoginIds(students), 1, 1);
        Numbered(base, 3, c)
  }

  /** The loop's test: some stored student has this login id. */
  lemma StoredLoginId(students: seq<Student>, id: string)
    ensures (exists i :: 0 <= i < |students| && students[i].loginId == id) <==> id in LoginIds(students)
  {
    if id in LoginIds(students) {
      var s :| s in students && s.loginId == id;
      var i :| 0 <= i < |students| && students[i] == s;
    }
  }

  /** The `while` loop of `generateLoginId`, step by step: it stops, and at
      the counter the reference definition names. */
  method GenerateLoginIdLoop(first: string, last: string, students: seq<Student>) returns (r: string)
    ensures r == GenerateLoginId(first, last, students)
  {
    if first == "" || last == "" {
      return "";
    }
    var base := LoginBase(first, last);
    if !HasSimilar(students, first, last) {
      return base;
    }
    ghost var taken := LoginIds(students);
    ghost var name := Counter(base, 3);
    CounterInjective(base, 3);
    var counter := 1;
    var candidate := Numbered(base, 3, counter);
    while exists i :: 0 <= i < |students| && students[i].loginId == candidate
      invariant counter >= 1 && candidate == name(counter)
      invariant forall k :: 1 <= k < counter ==> name(k) in taken
      decreases |taken| + 1 - counter
    {
      StoredLoginId(students, candidate);
      TakenBound(name, taken, 1, counter + 1);
      counter := counter + 1;
      candidate := Numbered(base, 3, counter);
    }
    StoredLoginId(students, candidate);
    FirstFreeUnique(name, taken, 1, counter);
    r := candidate;
  }

  // -------------------------------------------------------------- e-mail

  /** `generateEmail`. */
  function GenerateEmail(loginId: string): (r: string)
    ensures loginId == "" <==> r == ""
  {
    if loginId == "" then "" else loginId + EmailDomain
  }

  /** The login id an institutional e-mail address was made from. */
  function LoginIdOf(email: string): string {
    if |email| >= |EmailDomain| && email[|email| - |EmailDomain|..] == EmailDomain
    then email[..|email| - |EmailDomain|]
    else ""
  }

  /** The e-mail address determines the login id it was generated from. */
  lemma EmailRoundTrip(loginId: string)
    ensures LoginIdOf(GenerateEmail(loginId)) == loginId
  {
    if loginId != "" {
      var e := loginId + EmailDomain;
      assert e[|e| - |EmailDomain|..] == EmailDomain;
      assert e[..|e| - |EmailDomain|] == loginId;
    }
  }

  lemma EmailInjective(a: string, b: string)
    ensures GenerateEmail(a) == GenerateEmail(b) ==> a == b
  {
    EmailRoundTrip(a);
    EmailRoundTrip(b);
  }

  // ---------------------------------------------------------- student id

  function StudentIdPrefix(year: nat): string {
    "STU/" + Show(year) + "/"
  }

  function StudentIds(students: seq<Student>): set<string> {
    set s | s in students :: s.id
  }

  /** `generateStudentId` as written: the sequence number is one more than
      the length of the stored list. */
  function GenerateStudentId(year: nat, students: seq<Student>): (r: string)
    ensures IsPrefix(StudentIdPrefix(year), r) && AllDigits(r[|StudentIdPrefix(year)|..])
            && Value(r[|StudentIdPrefix(year)|..]) == |students| + 1
    ensures r[|StudentIdPrefix(year)|..] == Padded(|students| + 1, 4)
  {
    var r := Numbered(StudentIdPrefix(year), 4, |students| + 1);
    ValuePadded(|students| + 1, 4);
    assert r[|StudentIdPrefix(year)|..] == Padded(|students| + 1, 4);
    r
  }

  /** After a deletion the length-based number can repeat an id that is
      still stored: delete the first demo student, register another one in
      2024, and the new id equals the remaining demo student's id. */
  lemma StudentIdCollision()
    ensures var remaining := Delete(DemoStudents, "STU/2024/0001");
            GenerateStudentId(2024, remaining) in StudentIds(remaining)
  {
    var remaining := Delete(DemoStudents, "STU/2024/0001");
    DeleteFirstDemo();
    Year2024();
    SecondNumber();
    assert |remaining| == 1;
    assert GenerateStudentId(2024, remaining) == Numbered(StudentIdPrefix(2024), 4, 2);
    assert "STU/2024/" + "0002" == DemoStudents[1].id;
    assert DemoStudents[1] in remaining;
  }

  lemma DeleteFirstDemo()
    ensures Delete(DemoStudents, "STU/2024/0001") == [DemoStudents[1]]
  {
    var p := (s: Student) => s.id != "STU/2024/0001";
    assert p(DemoStudents[1]);
    assert !p(DemoStudents[0]);
    assert DemoStudents[1..][1..] == [];
    assert Filter(DemoStudents[1..], p) == [DemoStudents[1]] + Filter(DemoStudents[1..][1..], p);
  }

  lemma Year2024()
    ensures StudentIdPrefix(2024) == "STU/2024/"
  {
    assert Show(2) == "2";
    assert Show(20) == "20";
    assert Show(202) == "202";
    assert Show(2024) == "2024";
  }

  lemma SecondNumber()
    ensures Padded(2, 4) == "0002"
  {
    assert Show(2) == "2";
    assert Zeros(1) == "0";
    assert Zeros(2) == "00";
    assert Zeros(3) == "000";
  }

  /** The corrected generator: the first sequence number from
      `|students| + 1` on whose id is not stored yet. */
  function FreshStudentId(year: nat, students: seq<Student>): (r: string)
    ensures r !in StudentIds(students)
    ensures IsPrefix(StudentIdPrefix(year), r) && AllDigits(r[|StudentIdPrefix(year)|..])
            && Value(r[|StudentIdPrefix(year)|..]) >= |students| + 1
    ensures GenerateStudentId(year, students) !in StudentIds(students) ==> r == GenerateStudentId(year, students)
  {
    CounterInjective(StudentIdPrefix(year), 4);
    var n := FirstFree(Counter(StudentIdPrefix(year), 4), StudentIds(students), |students| + 1, |students| + 1);
    var r := Numbered(StudentIdPrefix(year), 4, n);
    ValuePadded(n, 4);
    assert r[|StudentIdPrefix(year)|..] == Padded(n, 4);
    r
  }

  // -------------------------------------------------------------- submit

  datatype StudentForm = StudentForm(
    firstName: string,
    lastName: string,
    middleName: string,
    nin: string,
    phone: string,
    dateOfBirth: string,
    className: string,
    password: string)

  const EmptyForm: StudentForm := StudentForm("", "", "", "", "", "", "", "123456")

  /** A new registration, or an edit of a stored record that the students
      screen handed over. */
  datatype Mode = Register | Edit(original: Student)

  datatype Submission =
    | MissingFields
    | Duplicate
    | Saved(students: seq<Student>, record: Student, form: StudentForm)

  /** A stored student that clashes with a new registration: same
      non-empty NIN, or same generated e-mail. */
  predicate Clashes(s: Student, form: StudentForm, email: string) {
    (s.nin != "" && s.nin == form.nin) || s.email == email
  }

  /** Which student-id generator a registration uses: the page's own,
      or the corrected one. */
  datatype IdRule = AsWritten | Corrected

  /** The id a new registration gets under each generator. */
  function NewStudentId(rule: IdRule, year: nat, students: seq<Student>): (r: string)
    ensures rule.AsWritten? ==> r == GenerateStudentId(year, students)
    ensures rule.Corrected? ==> r !in StudentIds(students)
    ensures IsPrefix(StudentIdPrefix(year), r) && AllDigits(r[|StudentIdPrefix(year)|..])
            && Value(r[|StudentIdPrefix(year)|..]) >= |students| + 1
  {
    match rule
    case AsWritten => GenerateStudentId(year, students)
    case Corrected => FreshStudentId(year, students)
  }

  /** The fields the page copies from the form into the stored record. */
  predicate FromForm(s: Student, form: StudentForm) {
    && s.firstName == form.firstName && s.lastName == form.lastName && s.middleName == form.middleName
    && s.nin == form.nin && s.phone == form.phone && s.dateOfBirth == form.dateOfBirth
    && s.className == form.className && s.password == form.password
  }

  /** The record the page writes: the form's fields, a login id generated
      against the stored list and its e-mail, and either fresh bookkeeping
      (a new id, no exams, registered `now`, active `today`) or the edited
      student's own. */
  function Record(rule: IdRule, form: StudentForm, mode: Mode, students: seq<Student>, year: nat, now: string, today: string): (r: Student)
    ensures FromForm(r, form)
    ensures r.loginId == GenerateLoginId(form.firstName, form.lastName, students) && r.email == GenerateEmail(r.loginId)
    ensures r.subjects == DefaultSubjects
    ensures mode.Register? ==> r.id == NewStudentId(rule, year, students)
                               && r.examsTaken == 0 && r.avgScore == 0 && r.lastActive == today && r.registeredAt == now
    ensures mode.Edit? ==> r.id == mode.original.id
                           && r.examsTaken == mode.original.examsTaken && r.avgScore == mode.original.avgScore
                           && r.lastActive == mode.original.lastActive && r.registeredAt == mode.original.registeredAt
  {
    var loginId := GenerateLoginId(form.firstName, form.lastName, students);
    Student(
      if mode.Edit? then mode.original.id else NewStudentId(rule, year, students),
      form.firstName, form.lastName, form.middleName, form.nin, form.phone, form.dateOfBirth, form.className,
      GenerateEmail(loginId), loginId, DefaultSubjects,
      if mode.Edit? then mode.original.examsTaken else 0,
      if mode.Edit? then mode.original.avgScore else 0,
      if mode.Edit? then mode.original.lastActive else today,
      if mode.Edit? then mode.original.registeredAt else now,
      form.password)
  }

  /** `handleSubmit`, with the page's own id generator (`AsWritten`) or the
      corrected one. */
  function Submit(rule: IdRule, form: StudentForm, mode: Mode, students: seq<Student>, year: nat, now: string, today: string): (r: Submission)
    ensures r.MissingFields? <==> form.firstName == "" || form.lastName == "" || form.className == ""
    ensures r.Duplicate? <==> form.firstName != "" && form.lastName != "" && form.className != "" && mode.Register?
                              && exists s :: s in students && Clashes(s, form, GenerateEmail(GenerateLoginId(form.firstName, form.lastName, students)))
    ensures r.Saved? ==> FromForm(r.record, form)
    ensures r.Saved? ==> r.record.loginId == GenerateLoginId(form.firstName, form.lastName, students)
                         && r.record.loginId !in LoginIds(students) && r.record.loginId != ""
                         && r.record.email == GenerateEmail(r.record.loginId)
                         && r.record.subjects == DefaultSubjects
    ensures r.Saved? && mode.Register? ==> r.record.examsTaken == 0 && r.record.avgScore == 0
                                           && r.record.lastActive == today && r.record.registeredAt == now
    ensures r.Saved? && mode.Edit? ==> r.record.examsTaken == mode.original.examsTaken && r.record.avgScore == mode.original.avgScore
                                       && r.record.lastActive == mode.original.lastActive && r.record.registeredAt == mode.original.registeredAt
    ensures r.Saved? && mode.Register? ==> r.students == students + [r.record] && r.record.id == NewStudentId(rule, year, students) && r.form == EmptyForm
    ensures r.Saved? && mode.Register? && rule.Corrected? ==> r.record.id !in StudentIds(students)
    ensures r.Saved? && mode.Edit? ==> r.record.id == mode.original.id && r.students == ReplaceById(students, r.record) && r.form == form
  {
    if form.firstName == "" || form.lastName == "" || form.className == "" then MissingFields
    else
      var email := GenerateEmail(GenerateLoginId(form.firstName, form.lastName, students));
      if mode.Register? && exists s :: s in students && Clashes(s, form, email) then Duplicate
      else
        var record := Record(rule, form, mode, students, year, now, today);
        if mode.Edit? then Saved(ReplaceById(students, record), record, form)
        else Saved(students + [record], record, EmptyForm)
  }

  /** An edit always gives the student a new login id: the id is generated
      against a list that still holds the student's own record. */
  lemma EditRenamesLoginId(rule: IdRule, form: StudentForm, original: Student, students: seq<Student>, year: nat, now: string, today: string)
    requires original in students
    requires Submit(rule, form, Edit(original), students, year, now, today).Saved?
    ensures Submit(rule, form, Edit(original), students, year, now, today).record.loginId != original.loginId
  {
  }

  /** Stored records whose e-mail was generated from their login id never
      clash by e-mail with a new registration: only the NIN test rejects. */
  lemma EmailClashNeedsInconsistentRecord(form: StudentForm, students: seq<Student>)
    requires form.firstName != "" && form.lastName != ""
    requires forall s :: s in students ==> s.email == GenerateEmail(s.loginId)
    ensures forall s :: s in students ==> s.email != GenerateEmail(GenerateLoginId(form.firstName, form.lastName, students))
  {
    var loginId := GenerateLoginId(form.firstName, form.lastName, students);
    forall s | s in students
      ensures s.email != GenerateEmail(loginId)
    {
      EmailInjective(s.loginId, loginId);
    }
  }

  /** No two stored students share an id. */
  predicate IdsDistinct(students: seq<Student>) {
    forall i, j :: 0 <= i < j < |students| ==> students[i].id != students[j].id
  }

  /** The stored list after one registration attempt: the saved list, or
      the list as it was when the attempt was refused. */
  function AfterRegister(rule: IdRule, form: StudentForm, students: seq<Student>, year: nat, now: string, today: string): seq<Student> {
    var r := Submit(rule, form, Register, students, year, now, today);
    if r.Saved? then r.students else students
  }

  /** As written, a saved registration repeats a stored id whenever the
      length-based number is already taken, as after the deletion in
      `StudentIdCollision`. */
  lemma RegisterRepeatsStoredId(form: StudentForm, students: seq<Student>, year: nat, now: string, today: string)
    requires GenerateStudentId(year, students) in StudentIds(students)
    requires form.firstName != "" && form.lastName != "" && form.className != ""
    requires forall s :: s in students ==> (s.nin == "" || s.nin != form.nin) && s.email == GenerateEmail(s.loginId)
    ensures Submit(AsWritten, form, Register, students, year, now, today).Saved?
    ensures !IdsDistinct(AfterRegister(AsWritten, form, students, year, now, today))
  {
    EmailClashNeedsInconsistentRecord(form, students);
    var after := AfterRegister(AsWritten, form, students, year, now, today);
    var k :| 0 <= k < |students| && students[k].id == GenerateStudentId(year, students);
    assert after[k].id == after[|students|].id;
  }

  /** The collision end to end: after the first demo student is deleted,
      any complete registration in 2024 whose NIN is not Jane Smith's is
      saved, and the list then holds two students with the id
      STU/2024/0002. */
  lemma DemoRegistrationRepeatsId(form: StudentForm, now: string, today: string)
    requires form.firstName != "" && form.lastName != "" && form.className != ""
    requires form.nin != DemoStudents[1].nin
    ensures Submit(AsWritten, form, Register, Delete(DemoStudents, "STU/2024/0001"), 2024, now, today).Saved?
    ensures !IdsDistinct(AfterRegister(AsWritten, form, Delete(DemoStudents, "STU/2024/0001"), 2024, now, today))
  {
    RemainingDemo();
    RegisterRepeatsStoredId(form, Delete(DemoStudents, "STU/2024/0001"), 2024, now, today);
  }

  /** After the deletion only Jane Smith is stored, with the e-mail her
      login id generates, and the next length-based id is hers. */
  lemma RemainingDemo()
    ensures var remaining := Delete(DemoStudents, "STU/2024/0001");
            && remaining == [DemoStudents[1]]
            && GenerateStudentId(2024, remaining) in StudentIds(remaining)
            && DemoStudents[1].email == GenerateEmail(DemoStudents[1].loginId)
  {
    DeleteFirstDemo();
    StudentIdCollision();
    JaneEmail();
  }

  lemma JaneEmail()
    ensures DemoStudents[1].email == GenerateEmail(DemoStudents[1].loginId)
  {
    var jane := DemoStudents[1];
    assert jane.loginId == "jane.smith";
    assert jane.email == "jane.smith@kogistatecollege.edu.ng";
    JaneSmithEmail();
  }

  lemma JaneSmithEmail()
    ensures GenerateEmail("jane.smith") == "jane.smith@kogistatecollege.edu.ng"
  {
    assert "jane.smith" + EmailDomain == "jane.smith@kogistatecollege.edu.ng";
  }

  /** With the corrected generator a registration attempt keeps the stored
      ids distinct and keeps every stored student. */
  lemma RegisterKeepsIdsDistinct(form: StudentForm, students: seq<Student>, year: nat, now: string, today: string)
    requires IdsDistinct(students)
    ensures IdsDistinct(AfterRegister(Corrected, form, students, year, now, today))
    ensures students <= AfterRegister(Corrected, form, students, year, now, today)
  {
    var r := Submit(Corrected, form, Register, students, year, now, today);
    if r.Saved? {
      var after := r.students;
      assert after == students + [r.record];
      forall i, j | 0 <= i < j < |after|
        ensures after[i].id != after[j].id
      {
        if j == |students| {
          assert after[i] == students[i] && students[i] in students;
        } else {
          assert after[i] == students[i] && after[j] == students[j];
        }
      }
    }
  }

  /** The list after the page has been submitted once per form, in order,
      with the corrected generator. */
  function RegisterAll(forms: seq<StudentForm>, students: seq<Student>, year: nat, now: string, today: string): seq<Student>
    decreases |forms|
  {
    if forms == [] then students
    else RegisterAll(forms[1..], AfterRegister(Corrected, forms[0], students, year, now, today), year, now, today)
  }

  /** With the corrected generator, however many registrations follow, the
      ids stay distinct and every student stored before is still stored. */
  lemma {:induction false} RegistrationsKeepIdsDistinct(forms: seq<StudentForm>, students: seq<Student>, year: nat, now: string, today: string)
    requires IdsDistinct(students)
    ensures IdsDistinct(RegisterAll(forms, students, year, now, today))
    ensures students <= RegisterAll(forms, students, year, now, today)
    decreases |forms|
  {
    if forms != [] {
      var next := AfterRegister(Corrected, forms[0], students, year, now, today);
      RegisterKeepsIdsDistinct(forms[0], students, year, now, today);
      RegistrationsKeepIdsDistinct(forms[1..], next, year, now, today);
    }
  }
}

=== FILE: results.dfy ===
/**
 The results screen: every student's exam history flattened into one table,
 the class and subject option lists, the two-way filter, and the grade and
 colour bands of a score.
 */
module Results {
  import opened Common
  import opened Exams
  import opened Students
  import Performance

  /** One row of the table: the exam, tagged with its student. */
  datatype Row = Row(studentId: string, studentName: string, studentClass: string, exam: Exam)

  /** Stored exam histories by student id; a student without one has none. */
  type Histories = map<string, seq<Exam>>

  function HistoryOf(histories: Histories, id: string): seq<Exam> {
    if id in histories then histories[id] else []
  }

  /** The rows of one student, in the order of the history. */
  function RowsOf(s: Student, histories: Histories): (r: seq<Row>)
    ensures |r| == |HistoryOf(histories, s.id)|
    ensures forall j :: 0 <= j < |r| ==>
              r[j] == Row(s.id, s.firstName + " " + s.lastName, s.className, HistoryOf(histories, s.id)[j])
  {
    var h := HistoryOf(histories, s.id);
    seq(|h|, j requires 0 <= j < |h| => Row(s.id, s.firstName + " " + s.lastName, s.className, h[j]))
  }

  /** The load effect's `allResults`. */
  function Flatten(students: seq<Student>, histories: Histories): (r: seq<Row>)
    ensures forall row :: row in r <==> exists s :: s in students && row in RowsOf(s, histories)
    decreases |students|
  {
    if students == [] then []
    else
      var rest := Flatten(students[1..], histories);
      assert forall s :: s in students <==> s == students[0] || s in students[1..];
      RowsOf(students[0], histories) + rest
  }

  /** The table is the concatenation of the students' rows, so it lists
      students in order and each student's exams in history order. */
  lemma {:induction false} FlattenAppend(a: seq<Student>, b: seq<Student>, histories: Histories)
    ensures Flatten(a + b, histories) == Flatten(a, histories) + Flatten(b, histories)
    decreases |a|
  {
    if a == [] {
      assert a + b == b;
    } else {
      assert (a + b)[0] == a[0];
      assert (a + b)[1..] == a[1..] + b;
      FlattenAppend(a[1..], b, histories);
    }
  }

  /** The total number of exams of a list of students. */
  function TotalExams(students: seq<Student>, histories: Histories): nat
    decreases |students|
  {
    if students == [] then 0 else |HistoryOf(histories, students[0].id)| + TotalExams(students[1..], histories)
  }

  /** One row per exam of each student. */
  lemma {:induction false} FlattenSize(students: seq<Student>, histories: Histories)
    ensures |Flatten(students, histories)| == TotalExams(students, histories)
    decreases |students|
  {
    if students != [] {
      FlattenSize(students[1..], histories);
    }
  }

  predicate NoDuplicates<T(==)>(xs: seq<T>) {
    forall i, j :: 0 <= i < j < |xs| ==> xs[i] != xs[j]
  }

  /** The position of the first occurrence of `x`. */
  function FirstIndex<T(==)>(xs: seq<T>, x: T): (k: nat)
    requires x in xs
    ensures k < |xs| && xs[k] == x
    ensures forall j :: 0 <= j < k ==> xs[j] != x
  {
    if xs[0] == x then 0 else 1 + FirstIndex(xs[1..], x)
  }

  /** `[...new Set(xs)]`: each value once, in order of first occurrence. */
  function Distinct<T(==,!new)>(xs: seq<T>): (r: seq<T>)
    ensures forall x :: x in r <==> x in xs
    ensures NoDuplicates(r)
    ensures forall i, j :: 0 <= i < j < |r| ==> FirstIndex(xs, r[i]) < FirstIndex(xs, r[j])
    decreases |xs|
  {
    if xs == [] then []
    else
      var n := |xs| - 1;
      var front := xs[..n];
      var d := Distinct(front);
      assert xs == front + [xs[n]];
      FirstIndexesOfPrefix(xs, n);
      if xs[n] in d then d
      else
        FirstIndexOfNew(xs, n);
        d + [xs[n]]
  }

  /** A value of a prefix is first found where the prefix first has it. */
  lemma FirstIndexesOfPrefix<T>(xs: seq<T>, n: nat)
    requires n <= |xs|
    ensures forall y :: y in xs[..n] ==> FirstIndex(xs, y) == FirstIndex(xs[..n], y)
  {
    forall y | y in xs[..n]
      ensures FirstIndex(xs, y) == FirstIndex(xs[..n], y)
    {
      var k := FirstIndex(xs[..n], y);
      var m := FirstIndex(xs, y);
      assert xs[k] == y;
    }
  }

  /** A value absent from the prefix before `n` is first found at `n`. */
  lemma FirstIndexOfNew<T>(xs: seq<T>, n: nat)
    requires n < |xs| && xs[n] !in xs[..n]
    ensures FirstIndex(xs, xs[n]) == n
  {
  }

  /** The option lists: "all" first, then the distinct values. */
  function Options(values: seq<string>): (r: seq<string>)
    ensures |r| >= 1 && r[0] == "all"
    ensures forall x :: x in r[1..] <==> x in values
    ensures NoDuplicates(r[1..])
  {
    ["all"] + Distinct(values)
  }

  function Classes(students: seq<Student>): seq<string> {
    seq(|students|, i requires 0 <= i < |students| => students[i].className)
  }

  function Subjects(rows: seq<Row>): seq<string> {
    seq(|rows|, i requires 0 <= i < |rows| => rows[i].exam.subject)
  }

  function ClassOptions(students: seq<Student>): (r: seq<string>)
    ensures |r| >= 1 && r[0] == "all"
    ensures r[1..] == Distinct(Classes(students)) && NoDuplicates(r[1..])
    ensures forall c :: c in r[1..] <==> exists s :: s in students && s.className == c
  {
    var cs := Classes(students);
    assert forall c :: c in cs <==> exists s :: s in students && s.className == c by {
      forall c ensures c in cs ==> exists s :: s in students && s.className == c {
        if c in cs {
          var i :| 0 <= i < |cs| && cs[i] == c;
          assert students[i] in students;
        }
      }
      forall s | s in students ensures s.className in cs {
        var i :| 0 <= i < |students| && students[i] == s;
        assert cs[i] == s.className;
      }
    }
    Options(cs)
  }

  function SubjectOptions(rows: seq<Row>): (r: seq<string>)
    ensures |r| >= 1 && r[0] == "all"
    ensures r[1..] == Distinct(Subjects(rows)) && NoDuplicates(r[1..])
    ensures forall x :: x in r[1..] <==> exists row :: row in rows && row.exam.subject == x
  {
    var xs := Subjects(rows);
    assert forall x :: x in xs <==> exists row :: row in rows && row.exam.subject == x by {
      forall x ensures x in xs ==> exists row :: row in rows && row.exam.subject == x {
        if x in xs {
          var i :| 0 <= i < |xs| && xs[i] == x;
          assert rows[i] in rows;
        }
      }
      forall row | row in rows ensures row.exam.subject in xs {
        var i :| 0 <= i < |rows| && rows[i] == row;
        assert xs[i] == row.exam.subject;
      }
    }
    Options(xs)
  }

  /** The filter test of one row; "all" matches anything. */
  predicate Shown(row: Row, selectedClass: string, selectedExam: string) {
    (selectedClass == "all" || row.studentClass == selectedClass)
    && (selectedExam == "all" || row.exam.subject == selectedExam)
  }

  /** `filteredResults`. */
  function FilterRows(rows: seq<Row>, selectedClass: string, selectedExam: string): (r: seq<Row>)
    ensures forall row :: row in r <==> row in rows && Shown(row, selectedClass, selectedExam)
    ensures IsSubsequence(r, rows)
    ensures |r| == Count(rows, (row: Row) => Shown(row, selectedClass, selectedExam))
  {
    FilterIsSubsequence(rows, (row: Row) => Shown(row, selectedClass, selectedExam));
    Filter(rows, (row: Row) => Shown(row, selectedClass, selectedExam))
  }

  /** With both selectors on "all" the whole table is shown. */
  lemma FilterAllAll(rows: seq<Row>)
    ensures FilterRows(rows, "all", "all") == rows
  {
    FilterAll(rows, (row: Row) => Shown(row, "all", "all"));
  }

  /** The grade column. */
  function Grade(score: int): (g: char)
    ensures g == 'A' <==> score >= 75
    ensures g == 'B' <==> 60 <= score < 75
    ensures g == 'C' <==> 50 <= score < 60
    ensures g == 'D' <==> 40 <= score < 50
    ensures g == 'F' <==> score < 40
  {
    if score >= 75 then 'A' else if score >= 60 then 'B' else if score >= 50 then 'C' else if score >= 40 then 'D' else 'F'
  }

  const Green: string := "text-[#10B981] bg-[#D1FAE5]"
  const Blue: string := "text-[#2563EB] bg-[#DBEAFE]"
  const Amber: string := "text-[#F59E0B] bg-[#FEF3C7]"
  const Red: string := "text-[#DC2626] bg-[#FEE2E2]"

  /** `getScoreColor`. */
  function ScoreColor(score: int): (c: string)
    ensures c in {Green, Blue, Amber, Red}
  {
    if score >= 75 then Green else if score >= 60 then Blue else if score >= 50 then Amber else Red
  }

  /** The colour of a score follows its grade: one colour each for A, B and
      C, and red for D and F alike. */
  lemma ColorFollowsGrade(score: int)
    ensures ScoreColor(score) == Green <==> Grade(score) == 'A'
    ensures ScoreColor(score) == Blue <==> Grade(score) == 'B'
    ensures ScoreColor(score) == Amber <==> Grade(score) == 'C'
    ensures ScoreColor(score) == Red <==> Grade(score) in {'D', 'F'}
  {
  }

  /** The four-band grade of the performance screen agrees with this one
      from 40 up; below 40 it says D where this one says F. */
  lemma GradeBandsAgree(score: int)
    ensures score >= 40 ==> Performance.Grade(score) == Grade(score)
    ensures score < 40 ==> Performance.Grade(score) == 'D' && Grade(score) == 'F'
  {
  }

  /** How many students are in class `cls`. */
  function InClass(students: seq<Student>, cls: string): nat {
    Count(students, (s: Student) => s.className == cls)
  }

  /** The number under a class button: everyone under "all", otherwise the
      students of that class. */
  function ClassCount(students: seq<Student>, cls: string): (n: nat)
    ensures n <= |students|
    ensures cls == "all" ==> n == |students|
    ensures cls != "all" ==> n == InClass(students, cls)
  {
    if cls == "all" then |students| else Count(students, (s: Student) => s.className == cls)
  }

  /** The numbers on a row of class buttons added up. */
  function Buttons(students: seq<Student>, classes: seq<string>): nat
    decreases |classes|
  {
    if classes == [] then 0 else ClassCount(students, classes[0]) + Buttons(students, classes[1..])
  }

  /** Buttons for real classes show the class counts. */
  lemma {:induction false} ButtonsTally(students: seq<Student>, classes: seq<string>)
    requires "all" !in classes
    ensures Buttons(students, classes) == Tally(students, classes)
    decreases |classes|
  {
    if classes != [] {
      ButtonsTally(students, classes[1..]);
    }
  }

  /** The counts of a list of classes added up. */
  function Tally(students: seq<Student>, classes: seq<string>): nat
    decreases |classes|
  {
    if classes == [] then 0 else InClass(students, classes[0]) + Tally(students, classes[1..])
  }

  function Occurrences(xs: seq<string>, x: string): nat
    decreases |xs|
  {
    if xs == [] then 0 else (if xs[0] == x then 1 else 0) + Occurrences(xs[1..], x)
  }

  lemma {:induction false} TallyCons(s: Student, rest: seq<Student>, classes: seq<string>)
    ensures Tally([s] + rest, classes) == Occurrences(classes, s.className) + Tally(rest, classes)
    decreases |classes|
  {
    if classes != [] {
      assert ([s] + rest)[0] == s;
      assert ([s] + rest)[1..] == rest;
      TallyCons(s, rest, classes[1..]);
    }
  }

  lemma {:induction false} OccursOnce(xs: seq<string>, x: string)
    requires NoDuplicates(xs) && x in xs
    ensures Occurrences(xs, x) == 1
    decreases |xs|
  {
    if xs[0] == x {
      OccursNot(xs[1..], x);
    } else {
      OccursOnce(xs[1..], x);
    }
  }

  lemma {:induction false} OccursNot(xs: seq<string>, x: string)
    requires x !in xs
    ensures Occurrences(xs, x) == 0
    decreases |xs|
  {
    if xs != [] {
      OccursNot(xs[1..], x);
    }
  }

  /** The counts of any duplicate-free list of classes that covers every
      student's class add up to the number of students. */
  lemma {:induction false} TallyCovers(students: seq<Student>, classes: seq<string>)
    requires NoDuplicates(classes)
    requires forall s :: s in students ==> s.className in classes
    ensures Tally(students, classes) == |students|
    decreases |students|
  {
    if students == [] {
      TallyEmpty(classes);
    } else {
      var rest := students[1..];
      assert students == [students[0]] + rest;
      TallyCons(students[0], rest, classes);
      OccursOnce(classes, students[0].className);
      TallyCovers(rest, classes);
    }
  }

  lemma {:induction false} TallyEmpty(classes: seq<string>)
    ensures Tally([], classes) == 0
    decreases |classes|
  {
    if classes != [] {
      TallyEmpty(classes[1..]);
    }
  }

  /** When no student's class is literally "all", the numbers on the class
      buttons after "all" add up to the number under "all". */
  lemma ClassButtonsAddUp(students: seq<Student>)
    requires forall s :: s in students ==> s.className != "all"
    ensures Buttons(students, ClassOptions(students)[1..]) == ClassCount(students, "all")
  {
    var options := ClassOptions(students)[1..];
    assert NoDuplicates(options);
    ButtonsTally(students, options);
    TallyCovers(students, options);
  }
}

=== FILE: settings.dfy ===
/**
 The settings screen: the profile shown for the signed-in user and its
 update, the password change checks, and the two-factor set-up code check.
 */
module Settings {
  import opened Common
  import Auth
  import Otp

  datatype Profile = Profile(name: string, email: string, role: string, school: string, phone: string, address: string)

  const DefaultName: string := "Admin User"
  const DefaultEmail: string := "admin@kogistatecollege.edu.ng"
  const DefaultRole: string := "Administrator"
  const DefaultSchool: string := "Kogi State College of Education"
  const DefaultPhone: string := "+234 800 123 4567"
  const DefaultAddress: string := "Kogi State College of Education"

  /** The profile before any user has been seen. */
  const InitialProfile: Profile := Profile("", "", "", "", DefaultPhone, DefaultAddress)

  /** Every field of the profile is filled in. */
  predicate Filled(p: Profile) {
    p.name != "" && p.email != "" && p.role != "" && p.school != "" && p.phone != "" && p.address != ""
  }

  /** A field of the profile as the effect fills it: the user's text when it
      is there and not empty, otherwise the default. */
  function FieldOr(u: Auth.User, key: string, default: string): (r: string)
    requires default != ""
    ensures r != ""
    ensures (exists x :: Auth.TextField(u, key) == Some(x) && x != "") ==> r == Auth.TextField(u, key).value
    ensures (forall x :: Auth.TextField(u, key) == Some(x) ==> x == "") ==> r == default
  {
    StrOr(Auth.TextField(u, key), default)
  }

  /** The profile effect: whenever there is a user, every field comes from
      the user or falls back to its default; without a user the profile
      stays as it is. */
  function ProfileFor(user: Option<Auth.User>, current: Profile): (r: Profile)
    ensures user.None? ==> r == current
    ensures user.Some? ==> Filled(r)
    ensures user.Some? ==>
              && r.name == FieldOr(user.value, "name", DefaultName)
              && r.email == FieldOr(user.value, "email", DefaultEmail)
              && r.role == FieldOr(user.value, "role", DefaultRole)
              && r.school == FieldOr(user.value, "school", DefaultSchool)
              && r.phone == FieldOr(user.value, "phone", DefaultPhone)
              && r.address == FieldOr(user.value, "address", DefaultAddress)
  {
    match user
    case None => current
    case Some(u) =>
      Profile(FieldOr(u, "name", DefaultName), FieldOr(u, "email", DefaultEmail), FieldOr(u, "role", DefaultRole),
              FieldOr(u, "school", DefaultSchool), FieldOr(u, "phone", DefaultPhone), FieldOr(u, "address", DefaultAddress))
  }

  /** The profile as the fields it sends and merges into the user. */
  function AsPatch(p: Profile): (r: Auth.User)
    ensures r.Keys == {"name", "email", "role", "school", "phone", "address"}
    ensures Auth.TextField(r, "name") == Some(p.name) && Auth.TextField(r, "email") == Some(p.email)
    ensures Auth.TextField(r, "role") == Some(p.role) && Auth.TextField(r, "school") == Some(p.school)
    ensures Auth.TextField(r, "phone") == Some(p.phone) && Auth.TextField(r, "address") == Some(p.address)
  {
    map["name" := Auth.Text(p.name), "email" := Auth.Text(p.email), "role" := Auth.Text(p.role),
        "school" := Auth.Text(p.school), "phone" := Auth.Text(p.phone), "address" := Auth.Text(p.address)]
  }

  const ProfileUpdated: string := "Profile updated successfully!"
  const ProfileFailed: string := "Failed to update profile"

  /** What a profile save leaves behind: the session, whether the form is
      still in edit mode, and the toast. */
  datatype ProfileSave = ProfileSave(session: Auth.Session, editing: bool, toast: Toast)

  /** `handleProfileUpdate`: an accepted update is merged into the user and
      leaves edit mode; anything else only shows the error. */
  function UpdateProfile(s: Auth.Session, profile: Profile, editing: bool, response: Response): (r: ProfileSave)
    ensures r.toast == ReplyToast(response, ProfileUpdated, ProfileFailed)
    ensures response.Ok? ==> r.session == Auth.UpdateUser(s, AsPatch(profile)) && !r.editing
    ensures !response.Ok? ==> r.session == s && r.editing == editing
  {
    var toast := ReplyToast(response, ProfileUpdated, ProfileFailed);
    if response.Ok? then ProfileSave(Auth.UpdateUser(s, AsPatch(profile)), false, toast)
    else ProfileSave(s, editing, toast)
  }

  /** A saved profile with every field filled in is what the screen shows
      again once the effect reruns on the updated user. */
  lemma SavedProfileShown(s: Auth.Session, profile: Profile, editing: bool, any: Profile)
    requires Filled(profile)
    ensures ProfileFor(UpdateProfile(s, profile, editing, Ok).session.user, any) == profile
  {
    var u := UpdateProfile(s, profile, editing, Ok).session.user.value;
    var patch := AsPatch(profile);
    assert forall k :: k in patch ==> u[k] == patch[k];
    assert Auth.TextField(u, "name") == Some(profile.name);
    assert Auth.TextField(u, "email") == Some(profile.email);
    assert Auth.TextField(u, "role") == Some(profile.role);
    assert Auth.TextField(u, "school") == Some(profile.school);
    assert Auth.TextField(u, "phone") == Some(profile.phone);
    assert Auth.TextField(u, "address") == Some(profile.address);
  }

  /** A field saved empty comes back as its default: clearing the phone
      number shows the default number again. */
  lemma ClearedPhoneShowsDefault(s: Auth.Session, profile: Profile, editing: bool, any: Profile)
    requires profile.phone == ""
    ensures ProfileFor(UpdateProfile(s, profile, editing, Ok).session.user, any).phone == DefaultPhone
  {
    var u := UpdateProfile(s, profile, editing, Ok).session.user.value;
    assert u["phone"] == AsPatch(profile)["phone"];
    assert Auth.TextField(u, "phone") == Some("");
  }

  // ---------------------------------------------------------------- password

  datatype Passwords = Passwords(current: string, next: string, confirm: string)

  const Cleared: Passwords := Passwords("", "", "")
  const MinLength: nat := 8
  const Mismatch: string := "New passwords do not match"
  const TooShort: string := "Password must be at least 8 characters"
  const PasswordChanged: string := "Password changed successfully!"
  const PasswordFailed: string := "Failed to change password"

  /** The password form after a submission: its fields, whether its dialog
      is open, whether the request was sent, and the toast. */
  datatype PasswordChange = PasswordChange(fields: Passwords, dialogOpen: bool, sent: bool, toast: Toast)

  /** `handlePasswordChange`: the confirmation is compared first, then the
      length; only then is the request sent. Success clears the fields and
      closes the dialog. */
  function ChangePassword(p: Passwords, dialogOpen: bool, response: Response): (r: PasswordChange)
    ensures r.sent <==> p.next == p.confirm && |p.next| >= MinLength
    ensures p.next != p.confirm ==> r.toast == Error(Mismatch)
    ensures p.next == p.confirm && |p.next| < MinLength ==> r.toast == Error(TooShort)
    ensures !r.sent ==> r.fields == p && r.dialogOpen == dialogOpen
    ensures r.sent ==> r.toast == ReplyToast(response, PasswordChanged, PasswordFailed)
    ensures r.sent && response.Ok? ==> r.fields == Cleared && !r.dialogOpen
    ensures r.sent && !response.Ok? ==> r.fields == p && r.dialogOpen == dialogOpen
  {
    if p.next != p.confirm then PasswordChange(p, dialogOpen, false, Error(Mismatch))
    else if |p.next| < MinLength then PasswordChange(p, dialogOpen, false, Error(TooShort))
    else
      var toast := ReplyToast(response, PasswordChanged, PasswordFailed);
      if response.Ok? then PasswordChange(Cleared, false, true, toast)
      else PasswordChange(p, dialogOpen, true, toast)
  }

  /** A confirmation that differs is reported as such even when the new
      password is also too short: the mismatch check comes first. */
  lemma MismatchReportedFirst(p: Passwords, dialogOpen: bool, response: Response)
    requires p.next != p.confirm && |p.next| < MinLength
    ensures ChangePassword(p, dialogOpen, response).toast == Error(Mismatch)
  {
  }

  /** After a successful change the cleared form cannot be sent again as it
      is. */
  lemma ClearedFormRefused(p: Passwords, dialogOpen: bool, response: Response, again: Response)
    requires ChangePassword(p, dialogOpen, Ok).sent
    ensures var r := ChangePassword(ChangePassword(p, dialogOpen, Ok).fields, false, again);
      !r.sent && r.toast == Error(TooShort)
  {
  }

  // ---------------------------------------------------------------- two-factor

  const IncompleteCode: string := "Please enter complete 6-digit code"
  const TwoFactorEnabled: string := "2FA enabled successfully"
  const InvalidCode: string := "Invalid code"
  const VerificationFailed: string := "Verification failed"

  /** The two-factor set-up dialog: the six code boxes and whether it is
      open. */
  datatype SetupDialog = SetupDialog(slots: seq<string>, open: bool)

  datatype Verification = Verification(dialog: SetupDialog, sent: bool, toast: Toast)

  /** `handleVerify2FA`: only a six-character code is sent. Acceptance closes
      the dialog and clears the boxes; a refusal clears the boxes and shows
      the server's message; a thrown error changes nothing. */
  function Verify(d: SetupDialog, response: Response): (r: Verification)
    ensures r.sent <==> |Otp.Join(d.slots)| == Otp.Size
    ensures !r.sent ==> r.dialog == d && r.toast == Error(IncompleteCode)
    ensures r.sent && response.Ok? ==> r.dialog == SetupDialog(Otp.Blank, false) && r.toast == Success(TwoFactorEnabled)
    ensures r.sent && response.NotOk? ==> r.dialog == d.(slots := Otp.Blank) && r.toast == Error(StrOr(response.message, InvalidCode))
    ensures r.sent && response.NetworkError? ==> r.dialog == d && r.toast == Error(VerificationFailed)
  {
    if |Otp.Join(d.slots)| != Otp.Size then Verification(d, false, Error(IncompleteCode))
    else
      match response
      case Ok => Verification(SetupDialog(Otp.Blank, false), true, Success(TwoFactorEnabled))
      case NotOk(message) => Verification(d.(slots := Otp.Blank), true, Error(StrOr(message, InvalidCode)))
      case NetworkError => Verification(d, true, Error(VerificationFailed))
  }

  /** With one character per box, the code is sent exactly when all six
      boxes are filled. */
  lemma SentIffAllFilled(d: SetupDialog, response: Response)
    requires Otp.WellFormed(d.slots)
    ensures Verify(d, response).sent <==> forall i :: 0 <= i < Otp.Size ==> d.slots[i] != ""
  {
    Otp.CompleteIffFilled(d.slots);
  }

  /** A refused code must be typed again: submitting straight after a
      refusal sends nothing. */
  lemma RefusedCodeRetyped(d: SetupDialog, message: Option<string>, again: Response)
    requires Verify(d, NotOk(message)).sent
    ensures !Verify(Verify(d, NotOk(message)).dialog, again).sent
  {
    Otp.BlankWellFormed();
  }
}

=== FILE: students.dfy ===
/**
 Student records as the console keeps them in browser storage, and the
 student list screen: first-visit seeding, deletion, the search box and the
 avatar initials.
 */
module Students {
  import opened Common

  /** A stored student. A field that a stored record lacks is the empty
      string here; `nin` and `middleName` are optional in the same way. */
  datatype Student = Student(
    id: string,
    firstName: string,
    lastName: string,
    middleName: string,
    nin: string,
    phone: string,
    dateOfBirth: string,
    className: string,
    email: string,
    loginId: string,
    subjects: seq<string>,
    examsTaken: nat,
    avgScore: int,
    lastActive: string,
    registeredAt: string,
    password: string)

  /** The two students written to storage on the first visit. */
  const DemoStudents: seq<Student> := [
    Student("STU/2024/0001", "John", "Doe", "James", "12345678901", "08012345678", "2005-05-15", "SS3",
            "john.doe@kogistatecollege.edu.ng", "john.doe", ["Mathematics", "English", "Physics"],
            12, 78, "2024-01-15", "2023-09-10", ""),
    Student("STU/2024/0002", "Jane", "Smith", "", "23456789012", "08023456789", "2006-08-22", "SS2",
            "jane.smith@kogistatecollege.edu.ng", "jane.smith", ["Mathematics", "English", "Biology", "Chemistry"],
            10, 85, "2024-01-15", "2023-09-15", "")
  ]

  /** The list the screen shows after loading, and what storage holds
      afterwards. */
  datatype Loaded = Loaded(students: seq<Student>, stored: seq<Student>)

  /** Loading the list: whatever was stored (even an empty list), or the
      two demo students, which are then stored. */
  function Load(stored: Option<seq<Student>>): (r: Loaded)
    ensures r.stored == r.students
    ensures stored.Some? ==> r.students == stored.value
    ensures stored.None? ==> |r.students| == 2
                             && r.students[0].id == "STU/2024/0001" && r.students[1].id == "STU/2024/0002"
  {
    match stored
    case Some(list) => Loaded(list, list)
    case None => Loaded(DemoStudents, DemoStudents)
  }

  /** `handleDeleteStudent`: keep every student whose id differs. */
  function Delete(students: seq<Student>, id: string): (r: seq<Student>)
    ensures forall s :: s in r <==> s in students && s.id != id
    ensures IsSubsequence(r, students)
    ensures |r| == |students| - Count(students, (s: Student) => s.id == id)
  {
    FilterIsSubsequence(students, (s: Student) => s.id != id);
    CountComplement(students, id);
    Filter(students, (s: Student) => s.id != id)
  }

  lemma {:induction false} CountComplement(students: seq<Student>, id: string)
    ensures Count(students, (s: Student) => s.id != id) + Count(students, (s: Student) => s.id == id) == |students|
    decreases |students|
  {
    if students != [] {
      CountComplement(students[1..], id);
    }
  }

  /** `students.map(s => s.id === record.id ? record : s)`: every student
      with the record's id is replaced, the rest stay where they are. */
  function ReplaceById(students: seq<Student>, record: Student): (r: seq<Student>)
    ensures |r| == |students|
    ensures forall i :: 0 <= i < |students| && students[i].id == record.id ==> r[i] == record
    ensures forall i :: 0 <= i < |students| && students[i].id != record.id ==> r[i] == students[i]
  {
    seq(|students|, i requires 0 <= i < |students| => if students[i].id == record.id then record else students[i])
  }

  /** The text the search box looks at for the name. */
  function FullName(s: Student): string {
    s.firstName + " " + s.lastName + " " + s.middleName
  }

  /** The search test of one student. */
  predicate SearchHit(s: Student, term: string) {
    || Matches(FullName(s), term)
    || Matches(s.email, term)
    || Matches(s.loginId, term)
    || (s.nin != "" && Matches(s.nin, term))
    || Matches(s.id, term)
  }

  /** `filteredStudents`. */
  function Search(students: seq<Student>, term: string): (r: seq<Student>)
    ensures forall s :: s in r <==> s in students && SearchHit(s, term)
    ensures IsSubsequence(r, students)
    ensures |r| == Count(students, (s: Student) => SearchHit(s, term))
  {
    FilterIsSubsequence(students, (s: Student) => SearchHit(s, term));
    Filter(students, (s: Student) => SearchHit(s, term))
  }

  /** An empty search term shows every student, in order. */
  lemma SearchEmptyKeepsAll(students: seq<Student>)
    ensures Search(students, "") == students
  {
    forall s | s in students
      ensures SearchHit(s, "")
    {
      ContainsEmpty(Lower(s.id));
    }
    FilterAll(students, (s: Student) => SearchHit(s, ""));
  }

  /** `getInitials` of the list screen: "ST" unless both names are present,
      otherwise the first letter of each. */
  function Initials(s: Option<Student>): (r: string)
    ensures |r| == 2
    ensures s.Some? && s.value.firstName != "" && s.value.lastName != "" ==> r == [s.value.firstName[0], s.value.lastName[0]]
    ensures s.None? || s.value.firstName == "" || s.value.lastName == "" ==> r == "ST"
  {
    if s.None? || s.value.firstName == "" || s.value.lastName == "" then "ST"
    else [s.value.firstName[0], s.value.lastName[0]]
  }
}

=== FILE: subjects.dfy ===
/**
 The subject management screen: the subject form with its defaults, the
 required-field rule of create and update, the edit dialog's defaults, and
 the search box. Subjects live on the server; the screen only sees the
 server's answers, which are inputs here.
 */
module Subjects {
  import opened Common

  /** The subject form. `className` is the form's `class` field. */
  datatype SubjectForm = SubjectForm(
    name: string,
    code: string,
    description: string,
    className: string,
    examType: string,
    duration: int,
    questionCount: int)

  const DefaultForm: SubjectForm := SubjectForm("", "", "", "", "WAEC", 120, 50)

  /** A subject as the server lists it; any field but the id may be absent. */
  datatype StoredSubject = StoredSubject(
    id: string,
    name: Option<string>,
    code: Option<string>,
    description: Option<string>,
    className: Option<string>,
    examType: Option<string>,
    duration: Option<int>,
    questionCount: Option<int>)

  const RequiredText: string := "Subject name, code, and class are required"

  /** Name, code and class are all filled in. */
  predicate Complete(form: SubjectForm) {
    form.name != "" && form.code != "" && form.className != ""
  }

  /** The outcome of pressing a save button: the form afterwards, whether
      the form was sent to the server, the toast shown, and whether the
      dialog is still open. */
  datatype Outcome = Outcome(form: SubjectForm, sent: bool, toast: Toast, dialogOpen: bool)

  /** The shared shape of `handleCreateSubject` and `handleUpdateSubject`:
      an incomplete form is refused before any request; a request the server
      accepts closes the dialog and resets the form; any other answer keeps
      both. */
  function Save(form: SubjectForm, response: Response, success: string, fallback: string): (r: Outcome)
    ensures r.sent <==> Complete(form)
    ensures !Complete(form) ==> r.form == form && r.toast == Error(RequiredText) && r.dialogOpen
    ensures Complete(form) ==> r.toast == ReplyToast(response, success, fallback)
    ensures Complete(form) && response.Ok? ==> r.form == DefaultForm && !r.dialogOpen
    ensures Complete(form) && !response.Ok? ==> r.form == form && r.dialogOpen
  {
    if !Complete(form) then Outcome(form, false, Error(RequiredText), true)
    else if response.Ok? then Outcome(DefaultForm, true, ReplyToast(response, success, fallback), false)
    else Outcome(form, true, ReplyToast(response, success, fallback), true)
  }

  function CreateSubject(form: SubjectForm, response: Response): (r: Outcome)
    ensures r.sent <==> Complete(form)
    ensures r.toast.Success? <==> Complete(form) && response.Ok?
    ensures r.toast.Success? ==> r.form == DefaultForm
    ensures r.toast.Error? ==> r.form == form
  {
    Save(form, response, "Subject created successfully!", "Failed to create subject")
  }

  /** Updating applies exactly the rule of creating. */
  function UpdateSubject(form: SubjectForm, response: Response): (r: Outcome)
    ensures r.sent <==> Complete(form)
    ensures r.toast.Success? <==> Complete(form) && response.Ok?
    ensures r.toast.Success? ==> r.form == DefaultForm
    ensures r.toast.Error? ==> r.form == form
  {
    Save(form, response, "Subject updated successfully!", "Failed to update subject")
  }

  /** The reset form cannot be saved: it lacks every required field. */
  lemma DefaultFormRefused(response: Response)
    ensures !CreateSubject(DefaultForm, response).sent
    ensures !UpdateSubject(DefaultForm, response).sent
  {
  }

  /** `openEditModal`: each falsy field of the subject takes the form's
      default, so a zero duration or question count becomes 120 or 50. */
  function EditForm(s: StoredSubject): (r: SubjectForm)
    ensures r.name == StrOr(s.name, "") && r.code == StrOr(s.code, "")
    ensures r.description == StrOr(s.description, "") && r.className == StrOr(s.className, "")
    ensures r.examType == StrOr(s.examType, "WAEC")
    ensures r.duration == IntOr(s.duration, 120) && r.questionCount == IntOr(s.questionCount, 50)
    ensures r.duration != 0 && r.questionCount != 0 && r.examType != ""
  {
    SubjectForm(StrOr(s.name, ""), StrOr(s.code, ""), StrOr(s.description, ""), StrOr(s.className, ""),
                StrOr(s.examType, "WAEC"), IntOr(s.duration, 120), IntOr(s.questionCount, 50))
  }

  /** The subject a saved form becomes on the server. */
  function Stored(id: string, form: SubjectForm): StoredSubject {
    StoredSubject(id, Some(form.name), Some(form.code), Some(form.description), Some(form.className),
                  Some(form.examType), Some(form.duration), Some(form.questionCount))
  }

  /** Opening the edit dialog on a subject saved from a form gives back that
      form exactly when none of the defaulted fields was falsy. */
  lemma EditFormRoundTrip(id: string, form: SubjectForm)
    ensures EditForm(Stored(id, form)) == form <==> form.examType != "" && form.duration != 0 && form.questionCount != 0
  {
  }

  /** A field the search box looks at: present and containing the term,
      ignoring case. */
  predicate FieldMatches(field: Option<string>, term: string) {
    field.Some? && Matches(field.value, term)
  }

  predicate SearchHit(s: StoredSubject, term: string) {
    FieldMatches(s.name, term) || FieldMatches(s.code, term) || FieldMatches(s.className, term)
  }

  /** `filteredSubjects`. */
  function Search(subjects: seq<StoredSubject>, term: string): (r: seq<StoredSubject>)
    ensures forall s :: s in r <==> s in subjects && SearchHit(s, term)
    ensures IsSubsequence(r, subjects)
    ensures |r| == Count(subjects, (s: StoredSubject) => SearchHit(s, term))
  {
    FilterIsSubsequence(subjects, (s: StoredSubject) => SearchHit(s, term));
    Filter(subjects, (s: StoredSubject) => SearchHit(s, term))
  }

  /** An empty search keeps exactly the subjects with a name, a code or a
      class, in order. */
  lemma SearchEmpty(subjects: seq<StoredSubject>)
    ensures forall s :: s in Search(subjects, "") <==> s in subjects && (s.name.Some? || s.code.Some? || s.className.Some?)
  {
    forall s | s in subjects
      ensures SearchHit(s, "") <==> s.name.Some? || s.code.Some? || s.className.Some?
    {
      if s.name.Some? { ContainsEmpty(Lower(s.name.value)); }
      if s.code.Some? { ContainsEmpty(Lower(s.code.value)); }
      if s.className.Some? { ContainsEmpty(Lower(s.className.value)); }
    }
  }
}

=== FILE: support.dfy ===
/**
 The support ticket screen: first-visit seeding, sequential ticket ids, the
 create handler, and the status and priority colours.
 */
module Support {
  import opened Common
  import opened Decimal

  datatype Message = Message(sender: string, text: string, timestamp: string)

  datatype Ticket = Ticket(
    id: string,
    subject: string,
    category: string,
    priority: string,
    status: string,
    createdAt: string,
    messages: seq<Message>)

  datatype TicketForm = TicketForm(subject: string, category: string, priority: string, description: string)

  const DefaultForm: TicketForm := TicketForm("", "technical", "medium", "")

  /** The three tickets written to storage on the first visit. */
  const DemoTickets: seq<Ticket> := [
    Ticket("TKT001", "Cannot add new students", "technical", "high", "open", "2024-01-15T10:30:00",
           [Message("admin", "Getting error when adding students", "2024-01-15T10:30:00"),
            Message("support", "Checking this issue now", "2024-01-15T11:15:00")]),
    Ticket("TKT002", "Student results not showing", "bug", "medium", "in-progress", "2024-01-14T09:00:00",
           [Message("admin", "Some results are missing", "2024-01-14T09:00:00")]),
    Ticket("TKT003", "Need more student accounts", "feature", "low", "closed", "2024-01-13T14:20:00",
           [Message("admin", "Can we increase the limit?", "2024-01-13T14:20:00"),
            Message("support", "Limit increased to 500 students", "2024-01-13T15:30:00")])
  ]

  const Prefix: string := "TKT"
  const Width: nat := 3

  /** The list after loading, and what storage holds afterwards. */
  datatype Loaded = Loaded(tickets: seq<Ticket>, stored: seq<Ticket>)

  /** Loading: whatever was stored, or the three demo tickets, which are then
      stored. */
  function Load(stored: Option<seq<Ticket>>): (r: Loaded)
    ensures r.stored == r.tickets
    ensures stored.Some? ==> r.tickets == stored.value
    ensures stored.None? ==> |r.tickets| == 3 && r.tickets == DemoTickets
  {
    match stored
    case Some(list) => Loaded(list, list)
    case None => Loaded(DemoTickets, DemoTickets)
  }

  /** `generateTicketId`: "TKT" and the next counter padded to three
      digits. */
  function TicketId(tickets: seq<Ticket>): (r: string)
    ensures |r| >= 6 && r[..3] == Prefix
    ensures AllDigits(r[3..]) && Value(r[3..]) == |tickets| + 1
    ensures r[3..] == Padded(|tickets| + 1, 3)
  {
    var digits := Padded(|tickets| + 1, Width);
    ValuePadded(|tickets| + 1, Width);
    assert (Prefix + digits)[3..] == digits;
    Prefix + digits
  }

  /** `handleCreateTicket`: the new ticket goes first, open, with the
      description as its only message, from the administrator. There is no
      validation. The result is the list and the reset form. */
  function CreateTicket(tickets: seq<Ticket>, form: TicketForm, now: string): (r: (seq<Ticket>, TicketForm))
    ensures |r.0| == |tickets| + 1 && r.0[1..] == tickets
    ensures r.0[0].id == TicketId(tickets) && r.0[0].status == "open" && r.0[0].createdAt == now
    ensures r.0[0].subject == form.subject && r.0[0].category == form.category && r.0[0].priority == form.priority
    ensures r.0[0].messages == [Message("admin", form.description, now)]
    ensures r.1 == DefaultForm
  {
    var ticket := Ticket(TicketId(tickets), form.subject, form.category, form.priority, "open", now,
                         [Message("admin", form.description, now)]);
    ([ticket] + tickets, DefaultForm)
  }

  function Ids(tickets: seq<Ticket>): set<string> {
    set t | t in tickets :: t.id
  }

  /** The ids are pairwise distinct and are exactly the numbered names of
      the counters 1 to the number of tickets. */
  predicate WellNumbered(tickets: seq<Ticket>) {
    && (forall i, j :: 0 <= i < j < |tickets| ==> tickets[i].id != tickets[j].id)
    && Ids(tickets) == Range(Counter(Prefix, Width), 1, |tickets| + 1)
  }

  lemma TicketIdNumbered(tickets: seq<Ticket>)
    ensures TicketId(tickets) == Numbered(Prefix, Width, |tickets| + 1)
  {
  }

  lemma SeedNumbers()
    ensures Numbered(Prefix, Width, 1) == "TKT001"
    ensures Numbered(Prefix, Width, 2) == "TKT002"
    ensures Numbered(Prefix, Width, 3) == "TKT003"
  {
    assert Zeros(2) == "00";
    assert Show(1) == "1" && Show(2) == "2" && Show(3) == "3";
  }

  /** The numbered names of the counters 1 to 3. */
  lemma SeedRange()
    ensures Range(Counter(Prefix, Width), 1, 4) == {"TKT001", "TKT002", "TKT003"}
  {
    SeedNumbers();
    var range := Range(Counter(Prefix, Width), 1, 4);
    forall x | x in range ensures x in {"TKT001", "TKT002", "TKT003"} {
      RangeOnly(Counter(Prefix, Width), 1, 4, x);
      var k :| 1 <= k < 4 && x == Counter(Prefix, Width)(k);
    }
    assert Numbered(Prefix, Width, 1) in range;
    assert Numbered(Prefix, Width, 2) in range;
    assert Numbered(Prefix, Width, 3) in range;
  }

  /** The seeded ids, one per ticket. */
  lemma SeedIds()
    ensures |DemoTickets| == 3
    ensures DemoTickets[0].id == "TKT001" && DemoTickets[1].id == "TKT002" && DemoTickets[2].id == "TKT003"
    ensures Ids(DemoTickets) == {"TKT001", "TKT002", "TKT003"}
  {
    assert DemoTickets[0] in DemoTickets && DemoTickets[1] in DemoTickets && DemoTickets[2] in DemoTickets;
  }

  /** The seeded list is well numbered. */
  lemma DemoWellNumbered()
    ensures WellNumbered(DemoTickets)
  {
    SeedRange();
    SeedIds();
  }

  /** The counter after the last one names no ticket yet. */
  lemma NextIdUnused(tickets: seq<Ticket>)
    requires Ids(tickets) == Range(Counter(Prefix, Width), 1, |tickets| + 1)
    ensures Numbered(Prefix, Width, |tickets| + 1) !in Ids(tickets)
  {
    CounterInjective(Prefix, Width);
    RangeFresh(Counter(Prefix, Width), 1, |tickets| + 1, |tickets| + 1);
  }

  lemma RangeStep(n: nat)
    ensures Range(Counter(Prefix, Width), 1, n + 2) == Range(Counter(Prefix, Width), 1, n + 1) + {Numbered(Prefix, Width, n + 1)}
  {
  }

  lemma IdsCons(t: Ticket, tickets: seq<Ticket>)
    ensures Ids([t] + tickets) == {t.id} + Ids(tickets)
  {
    var r := [t] + tickets;
    forall x | x in r ensures x == t || x in tickets {
      var i :| 0 <= i < |r| && r[i] == x;
      if i > 0 { assert x == tickets[i - 1]; }
    }
  }

  /** Creating a ticket keeps the list well numbered: the new id is the one
      numbered name not yet used. */
  lemma CreateKeepsNumbering(tickets: seq<Ticket>, form: TicketForm, now: string)
    requires WellNumbered(tickets)
    ensures WellNumbered(CreateTicket(tickets, form, now).0)
  {
    var n := |tickets|;
    var r := CreateTicket(tickets, form, now).0;
    TicketIdNumbered(tickets);
    NextIdUnused(tickets);
    assert r == [r[0]] + tickets;
    forall i, j | 0 <= i < j < |r|
      ensures r[i].id != r[j].id
    {
      assert r[j] == tickets[j - 1];
      if i == 0 {
        assert r[j].id in Ids(tickets);
      } else {
        assert r[i] == tickets[i - 1];
      }
    }
    IdsCons(r[0], tickets);
    RangeStep(n);
  }

  /** Starting from the seed, any number of created tickets keeps every id
      distinct. */
  lemma {:induction false} CreatesKeepNumbering(tickets: seq<Ticket>, forms: seq<TicketForm>, now: string)
    requires WellNumbered(tickets)
    ensures WellNumbered(CreateAll(tickets, forms, now))
    decreases |forms|
  {
    if forms != [] {
      CreateKeepsNumbering(tickets, forms[0], now);
      CreatesKeepNumbering(CreateTicket(tickets, forms[0], now).0, forms[1..], now);
    }
  }

  function CreateAll(tickets: seq<Ticket>, forms: seq<TicketForm>, now: string): seq<Ticket>
    decreases |forms|
  {
    if forms == [] then tickets else CreateAll(CreateTicket(tickets, forms[0], now).0, forms[1..], now)
  }

  /** From the seeded list, however many tickets are created, no two
      tickets share an id. */
  lemma SeededIdsDistinct(forms: seq<TicketForm>, now: string)
    ensures var t := CreateAll(DemoTickets, forms, now);
      forall i, j :: 0 <= i < j < |t| ==> t[i].id != t[j].id
  {
    DemoWellNumbered();
    CreatesKeepNumbering(DemoTickets, forms, now);
  }

  const StatusOpen: string := "bg-[#FEF3C7] text-[#F59E0B]"
  const StatusInProgress: string := "bg-[#DBEAFE] text-[#2563EB]"
  const StatusClosed: string := "bg-[#D1FAE5] text-[#10B981]"
  const StatusOther: string := "bg-gray-100 text-gray-600"

  /** `getStatusColor`. */
  function StatusColor(status: string): (c: string)
    ensures status == "open" ==> c == StatusOpen
    ensures status == "in-progress" ==> c == StatusInProgress
    ensures status == "closed" ==> c == StatusClosed
    ensures status !in {"open", "in-progress", "closed"} ==> c == StatusOther
  {
    match status
    case "open" => StatusOpen
    case "in-progress" => StatusInProgress
    case "closed" => StatusClosed
    case _ => StatusOther
  }

  const PriorityHigh: string := "text-[#DC2626]"
  const PriorityMedium: string := "text-[#F59E0B]"
  const PriorityLow: string := "text-[#10B981]"
  const PriorityOther: string := "text-[#626060]"

  /** `getPriorityColor`. */
  function PriorityColor(priority: string): (c: string)
    ensures priority == "high" ==> c == PriorityHigh
    ensures priority == "medium" ==> c == PriorityMedium
    ensures priority == "low" ==> c == PriorityLow
    ensures priority !in {"high", "medium", "low"} ==> c == PriorityOther
  {
    match priority
    case "high" => PriorityHigh
    case "medium" => PriorityMedium
    case "low" => PriorityLow
    case _ => PriorityOther
  }

  /** Each known status has its own colour, different from the fallback, so
      the colour tells the known statuses apart. */
  lemma StatusColorsDistinct(a: string, b: string)
    requires a in {"open", "in-progress", "closed"}
    ensures StatusColor(a) == StatusColor(b) <==> a == b
  {
  }

  /** Each known priority has its own colour, different from the fallback. */
  lemma PriorityColorsDistinct(a: string, b: string)
    requires a in {"high", "medium", "low"}
    ensures PriorityColor(a) == PriorityColor(b) <==> a == b
  {
  }
}

=== FILE: support_chat.dfy ===
/**
 The floating support chat: first-visit seeding, sending a message, and the
 canned reply that a two-second timer adds afterwards. Timers are modelled
 as a queue of pending callbacks that fire in the order they were set, each
 holding the message list it captured when it was set.
 */
module SupportChat {
  import opened Common

  datatype ChatMessage = ChatMessage(id: int, sender: string, text: string, timestamp: string)

  const Greeting: string := "Hello! How can we help you today?"
  const FollowUp: string := "Feel free to ask any questions about managing your students or using the admin portal."
  const ReplyText: string := "Thank you for your message. Our support team will get back to you shortly."

  /** The two support messages written on the first visit; their timestamps
      come from the clock. */
  function Seed(first: string, second: string): (r: seq<ChatMessage>)
    ensures |r| == 2 && r[0].id == 1 && r[1].id == 2
    ensures r[0].sender == "support" && r[1].sender == "support"
  {
    [ChatMessage(1, "support", Greeting, first), ChatMessage(2, "support", FollowUp, second)]
  }

  /** The messages shown after loading: the stored ones, or the seed. */
  function Load(stored: Option<seq<ChatMessage>>, first: string, second: string): (r: seq<ChatMessage>)
    ensures stored.Some? ==> r == stored.value
    ensures stored.None? ==> r == Seed(first, second)
  {
    stored.GetOr(Seed(first, second))
  }

  /** Every message's id is its position plus one. */
  predicate Sequential(ms: seq<ChatMessage>) {
    forall i :: 0 <= i < |ms| ==> ms[i].id == i + 1
  }

  lemma SeedSequential(first: string, second: string)
    ensures Sequential(Seed(first, second))
  {
  }

  /** The chat: the list shown (and stored), the input box, the typing
      indicator, and the pending reply timers with the lists they captured. */
  datatype Chat = Chat(messages: seq<ChatMessage>, input: string, typing: bool, pending: seq<seq<ChatMessage>>)

  /** `handleSendMessage`: ignored for blank input; otherwise the input is
      appended as the administrator's message, the box is cleared, and a
      reply timer is set on the new list. */
  function Send(c: Chat, now: string): (r: Chat)
    ensures IsBlank(c.input) ==> r == c
    ensures !IsBlank(c.input) ==>
              && r.messages == c.messages + [ChatMessage(|c.messages| + 1, "admin", c.input, now)]
              && r.input == "" && r.typing
              && r.pending == c.pending + [r.messages]
  {
    if IsBlank(c.input) then c
    else
      var updated := c.messages + [ChatMessage(|c.messages| + 1, "admin", c.input, now)];
      Chat(updated, "", true, c.pending + [updated])
  }

  /** The canned reply appended to a list. */
  function WithReply(ms: seq<ChatMessage>, now: string): (r: seq<ChatMessage>)
    ensures r == ms + [ChatMessage(|ms| + 1, "support", ReplyText, now)]
  {
    ms + [ChatMessage(|ms| + 1, "support", ReplyText, now)]
  }

  /** The oldest reply timer fires, as written: the list becomes the list
      that timer captured, plus the reply. */
  function Fire(c: Chat, now: string): (r: Chat)
    ensures c.pending == [] ==> r == c
    ensures c.pending != [] ==> r.messages == WithReply(c.pending[0], now) && !r.typing
                                && r.pending == c.pending[1..] && r.input == c.input
  {
    if c.pending == [] then c
    else Chat(WithReply(c.pending[0], now), c.input, false, c.pending[1..])
  }

  /** The timer callback as evidently intended: the reply is appended to the
      list as it is when the timer fires. */
  function FireOnCurrent(c: Chat, now: string): (r: Chat)
    ensures c.pending == [] ==> r == c
    ensures c.pending != [] ==> r.messages == WithReply(c.messages, now) && !r.typing
                                && r.pending == c.pending[1..] && r.input == c.input
  {
    if c.pending == [] then c
    else Chat(WithReply(c.messages, now), c.input, false, c.pending[1..])
  }

  /** What can happen to the chat: typing into the box, pressing send, and
      the oldest timer firing. */
  datatype Event = Type(text: string) | Press(now: string) | Timer(now: string)

  function Step(c: Chat, e: Event, fixed: bool): Chat {
    match e
    case Type(text) => c.(input := text)
    case Press(now) => Send(c, now)
    case Timer(now) => if fixed then FireOnCurrent(c, now) else Fire(c, now)
  }

  function Run(c: Chat, events: seq<Event>, fixed: bool): Chat
    decreases |events|
  {
    if events == [] then c else Run(Step(c, events[0], fixed), events[1..], fixed)
  }

  /** The shown list and every captured list are numbered by position. */
  predicate Numbered(c: Chat) {
    Sequential(c.messages) && forall i :: 0 <= i < |c.pending| ==> Sequential(c.pending[i])
  }

  lemma StepKeepsNumbering(c: Chat, e: Event, fixed: bool)
    requires Numbered(c)
    ensures Numbered(Step(c, e, fixed))
  {
    if e.Press? && !IsBlank(c.input) {
      var r := Step(c, e, fixed);
      assert forall i :: 0 <= i < |c.pending| ==> r.pending[i] == c.pending[i];
    } else if e.Timer? && c.pending != [] {
      var r := Step(c, e, fixed);
      assert Sequential(c.pending[0]);
      assert forall i :: 0 <= i < |r.pending| ==> r.pending[i] == c.pending[i + 1];
    }
  }

  /** In either version, ids stay equal to positions plus one, whatever the
      user and the timers do. */
  lemma {:induction false} RunKeepsNumbering(c: Chat, events: seq<Event>, fixed: bool)
    requires Numbered(c)
    ensures Sequential(Run(c, events, fixed).messages)
    ensures Numbered(Run(c, events, fixed))
    decreases |events|
  {
    if events != [] {
      StepKeepsNumbering(c, events[0], fixed);
      RunKeepsNumbering(Step(c, events[0], fixed), events[1..], fixed);
    }
  }

  /** As written, a second message sent before the first reply arrives
      disappears when that reply lands: the first timer restores the list it
      captured, which lacks the second message. */
  lemma SecondMessageLost(c: Chat, a: string, b: string, t: string)
    requires c.pending == [] && Sequential(c.messages) && !IsBlank(a) && !IsBlank(b)
    ensures var r := Run(c, [Type(a), Press(t), Type(b), Press(t), Timer(t)], false);
      && ChatMessage(|c.messages| + 2, "admin", b, t) !in r.messages
      && r.messages == c.messages + [ChatMessage(|c.messages| + 1, "admin", a, t),
                                     ChatMessage(|c.messages| + 2, "support", ReplyText, t)]
  {
    var c1 := Step(c, Type(a), false);
    var c2 := Step(c1, Press(t), false);
    var c3 := Step(c2, Type(b), false);
    var c4 := Step(c3, Press(t), false);
    var c5 := Step(c4, Timer(t), false);
    assert c4.pending[0] == c2.messages;
    assert Run(c, [Type(a), Press(t), Type(b), Press(t), Timer(t)], false) == c5 by {
      assert [Type(a), Press(t), Type(b), Press(t), Timer(t)][1..] == [Press(t), Type(b), Press(t), Timer(t)];
      assert [Press(t), Type(b), Press(t), Timer(t)][1..] == [Type(b), Press(t), Timer(t)];
      assert [Type(b), Press(t), Timer(t)][1..] == [Press(t), Timer(t)];
      assert [Press(t), Timer(t)][1..] == [Timer(t)];
      assert Run(c5, [], false) == c5;
      assert Run(c4, [Timer(t)], false) == c5;
      assert Run(c3, [Press(t), Timer(t)], false) == c5;
      assert Run(c2, [Type(b), Press(t), Timer(t)], false) == c5;
      assert Run(c1, [Press(t), Type(b), Press(t), Timer(t)], false) == c5;
    }
    var lost := ChatMessage(|c.messages| + 2, "admin", b, t);
    assert c5.messages[|c.messages| + 1].sender == "support";
    assert forall i :: 0 <= i < |c.messages| ==> c5.messages[i] == c.messages[i];
    assert forall i :: 0 <= i < |c5.messages| ==> c5.messages[i].id != lost.id || c5.messages[i].sender != "admin";
  }

  /** As written, the loss that lasts: when the second reply lands too, its
      timer restores both messages, and it is the first reply that is gone
      for good. */
  lemma FirstReplyLost(c: Chat, a: string, b: string, t: string)
    requires c.pending == [] && Sequential(c.messages) && !IsBlank(a) && !IsBlank(b)
    ensures var r := Run(c, [Type(a), Press(t), Type(b), Press(t), Timer(t), Timer(t)], false);
      && ChatMessage(|c.messages| + 2, "support", ReplyText, t) !in r.messages
      && r.messages == c.messages + [ChatMessage(|c.messages| + 1, "admin", a, t),
                                     ChatMessage(|c.messages| + 2, "admin", b, t),
                                     ChatMessage(|c.messages| + 3, "support", ReplyText, t)]
      && r.pending == []
  {
    var sends := [Type(a), Press(t), Type(b), Press(t)];
    var timers := [Timer(t), Timer(t)];
    assert [Type(a), Press(t), Type(b), Press(t), Timer(t), Timer(t)] == sends + timers;
    RunAppend(c, sends, timers, false);
    TwoSends(c, a, b, t);
    var first := c.messages + [ChatMessage(|c.messages| + 1, "admin", a, t)];
    var both := first + [ChatMessage(|c.messages| + 2, "admin", b, t)];
    TwoReplies(first, both, t);
    FirstReplyMissing(c.messages, a, b, t);
  }

  /** The two timers of two sends: the second one's list wins. */
  lemma TwoReplies(first: seq<ChatMessage>, both: seq<ChatMessage>, t: string)
    ensures Run(Chat(both, "", true, [first, both]), [Timer(t), Timer(t)], false) == Chat(WithReply(both, t), "", false, [])
  {
    var c5 := Step(Chat(both, "", true, [first, both]), Timer(t), false);
    assert [Timer(t), Timer(t)][1..] == [Timer(t)];
    assert Run(c5, [Timer(t)], false) == Run(Step(c5, Timer(t), false), [], false);
  }

  /** The list the second reply leaves holds no support message numbered
      right after the first send. */
  lemma FirstReplyMissing(ms: seq<ChatMessage>, a: string, b: string, t: string)
    requires Sequential(ms)
    ensures var both := ms + [ChatMessage(|ms| + 1, "admin", a, t), ChatMessage(|ms| + 2, "admin", b, t)];
      && WithReply(both, t) == ms + [ChatMessage(|ms| + 1, "admin", a, t),
                                     ChatMessage(|ms| + 2, "admin", b, t),
                                     ChatMessage(|ms| + 3, "support", ReplyText, t)]
      && ChatMessage(|ms| + 2, "support", ReplyText, t) !in WithReply(both, t)
  {
    var both := ms + [ChatMessage(|ms| + 1, "admin", a, t), ChatMessage(|ms| + 2, "admin", b, t)];
    var r := WithReply(both, t);
    var lost := ChatMessage(|ms| + 2, "support", ReplyText, t);
    assert forall i :: 0 <= i < |ms| ==> r[i] == ms[i];
    assert forall i :: 0 <= i < |r| ==> r[i].id != lost.id || r[i].sender != "support";
  }

  /** Running two event lists one after the other is running their
      concatenation. */
  lemma {:induction false} RunAppend(c: Chat, xs: seq<Event>, ys: seq<Event>, fixed: bool)
    ensures Run(c, xs + ys, fixed) == Run(Run(c, xs, fixed), ys, fixed)
    decreases |xs|
  {
    if xs == [] {
      assert xs + ys == ys;
    } else {
      assert (xs + ys)[1..] == xs[1..] + ys;
      RunAppend(Step(c, xs[0], fixed), xs[1..], ys, fixed);
    }
  }

  /** Two messages sent before any reply: both are shown, and two timers
      wait, the first holding only the first message. */
  lemma TwoSends(c: Chat, a: string, b: string, t: string)
    requires c.pending == [] && !IsBlank(a) && !IsBlank(b)
    ensures var first := c.messages + [ChatMessage(|c.messages| + 1, "admin", a, t)];
            var both := first + [ChatMessage(|c.messages| + 2, "admin", b, t)];
            Run(c, [Type(a), Press(t), Type(b), Press(t)], false) == Chat(both, "", true, [first, both])
  {
    var c1 := Step(c, Type(a), false);
    var c2 := Step(c1, Press(t), false);
    var c3 := Step(c2, Type(b), false);
    var c4 := Step(c3, Press(t), false);
    assert [Type(a), Press(t), Type(b), Press(t)][1..] == [Press(t), Type(b), Press(t)];
    assert [Press(t), Type(b), Press(t)][1..] == [Type(b), Press(t)];
    assert [Type(b), Press(t)][1..] == [Press(t)];
    assert Run(c3, [Press(t)], false) == c4;
    assert Run(c2, [Type(b), Press(t)], false) == c4;
    assert Run(c1, [Press(t), Type(b), Press(t)], false) == c4;
  }

  /** With the reply appended to the current list, nothing shown is ever
      taken away: every earlier list is a prefix of every later one. */
  lemma {:induction false} FixedNeverLoses(c: Chat, events: seq<Event>)
    ensures c.messages <= Run(c, events, true).messages
    decreases |events|
  {
    if events != [] {
      var next := Step(c, events[0], true);
      assert c.messages <= next.messages;
      FixedNeverLoses(next, events[1..]);
    }
  }
}

=== FILE: verify_page.dfy ===
/**
 The two-factor code page: the check of the link it was opened with, the
 resend countdown, the code submission and the resend.
 */
module VerifyPage {
  import opened Common
  import Otp
  import LoginPage

  /** The page: the six code boxes, the loading flag, the seconds left
      before a resend, and whether a resend is offered. */
  datatype Page = Page(otp: seq<string>, loading: bool, timeLeft: int, canResend: bool)

  const Countdown: int := 30

  const Start: Page := Page(Otp.Blank, false, Countdown, false)

  /** The link carries both ids, neither empty nor the text "undefined"
      (what a missing id turns into when written into the link). */
  predicate LinkValid(userId: Option<string>, token: Option<string>) {
    LoginPage.Truthy(userId) && LoginPage.Truthy(token) && userId.value != "undefined" && token.value != "undefined"
  }

  const InvalidLink: string := "Invalid verification link"

  /** The link check effect: the error an invalid link shows. The page then
      goes back to the sign-in page, which a `Some` result stands for. */
  function CheckLink(userId: Option<string>, token: Option<string>): (r: Option<Toast>)
    ensures r.None? <==> LinkValid(userId, token)
    ensures r.Some? ==> r.value == Error(InvalidLink)
  {
    if LinkValid(userId, token) then None else Some(Error(InvalidLink))
  }

  /** A hand-over from the sign-in page opens a valid link exactly when
      neither id is the text "undefined". */
  lemma HandOverLink(identifier: string, password: string, answer: LoginPage.Answer)
    requires LoginPage.Submit(identifier, password, answer).route.ToVerify?
    ensures var route := LoginPage.Submit(identifier, password, answer).route;
      LinkValid(Some(route.userId), Some(route.token)) <==> route.userId != "undefined" && route.token != "undefined"
  {
  }

  // ---------------------------------------------------------------- countdown

  /** One second of the countdown effect: when no time is left a resend is
      offered (and the interval is not set again); otherwise a second is
      taken off, and reaching zero offers the resend. */
  function Tick(p: Page): (r: Page)
    ensures r.otp == p.otp && r.loading == p.loading
    ensures p.timeLeft <= 0 ==> r.timeLeft == p.timeLeft && r.canResend
    ensures p.timeLeft > 0 ==> r.timeLeft == p.timeLeft - 1 && (r.canResend <==> p.canResend || p.timeLeft == 1)
  {
    if p.timeLeft <= 0 then p.(canResend := true)
    else
      var next := p.(timeLeft := p.timeLeft - 1);
      if next.timeLeft <= 0 then next.(canResend := true) else next
  }

  function Ticks(p: Page, n: nat): Page
    decreases n
  {
    if n == 0 then p else Ticks(Tick(p), n - 1)
  }

  /** From `t` seconds left and no resend offered, `n` seconds later the
      counter reads `t - n` (never below zero) and the resend is offered
      exactly when the `t` seconds have passed. */
  lemma {:induction false} CountsDown(p: Page, n: nat)
    requires p.timeLeft > 0 && !p.canResend
    ensures var r := Ticks(p, n);
      && r.timeLeft == (if n >= p.timeLeft then 0 else p.timeLeft - n)
      && (r.canResend <==> n >= p.timeLeft)
      && r.otp == p.otp && r.loading == p.loading
    decreases n
  {
    if n > 0 {
      var q := Tick(p);
      if p.timeLeft == 1 {
        StaysOffered(q, n - 1);
      } else {
        CountsDown(q, n - 1);
      }
    }
  }

  /** Once the counter is at zero and the resend offered, it stays so. */
  lemma {:induction false} StaysOffered(p: Page, n: nat)
    requires p.timeLeft == 0 && p.canResend
    ensures Ticks(p, n) == p
    decreases n
  {
    if n > 0 {
      StaysOffered(Tick(p), n - 1);
    }
  }

  /** `handleResend`: the countdown restarts, the resend is withdrawn and
      the boxes are emptied. */
  function Resend(p: Page): (r: Page)
    ensures r.timeLeft == Countdown && !r.canResend && r.otp == Otp.Blank && r.loading == p.loading
  {
    p.(timeLeft := Countdown, canResend := false, otp := Otp.Blank)
  }

  /** After a resend the next one is offered after exactly thirty
      seconds. */
  lemma ResendWaitsThirty(p: Page)
    ensures !Ticks(Resend(p), 29).canResend
    ensures Ticks(Resend(p), 30).canResend
  {
    CountsDown(Resend(p), 29);
    CountsDown(Resend(p), 30);
  }

  // ---------------------------------------------------------------- submit

  /** What `verifyTwoFactor` answers: whether it says it succeeded, whether
      it carries tokens, its message; or a thrown error. */
  datatype Answer = Replied(success: bool, hasTokens: bool, message: Option<string>) | Threw

  datatype Route = Stay | ToLogin | ToDashboard

  /** The page after a submission: the page, whether `verifyTwoFactor` was
      called, the route and the toast. */
  datatype Submission = Submission(page: Page, called: bool, route: Route, toast: Toast)

  const IncompleteCode: string := "Please enter complete 6-digit code"
  const MissingData: string := "Missing verification data"
  const Verified: string := "Verification successful!"
  const InvalidCode: string := "Invalid verification code"
  const VerificationFailed: string := "Verification failed"

  /** `handleSubmit`: the code length is checked first, then the presence of
      the ids; only then is the code sent. Both the success flag and the
      tokens are needed to go on; any other answer empties the boxes, and a
      thrown error leaves them. */
  function Submit(p: Page, userId: Option<string>, token: Option<string>, answer: Answer): (r: Submission)
    ensures r.called <==> |Otp.Join(p.otp)| == Otp.Size && LoginPage.Truthy(userId) && LoginPage.Truthy(token)
    ensures |Otp.Join(p.otp)| != Otp.Size ==> r == Submission(p, false, Stay, Error(IncompleteCode))
    ensures |Otp.Join(p.otp)| == Otp.Size && !r.called ==> r == Submission(p, false, ToLogin, Error(MissingData))
    ensures r.route.ToDashboard? <==> r.called && answer.Replied? && answer.success && answer.hasTokens
    ensures r.route.ToDashboard? ==> r.page == p.(loading := true) && r.toast == Success(Verified)
    ensures r.called && answer.Replied? && !r.route.ToDashboard? ==>
              r.page == p.(otp := Otp.Blank, loading := false) && r.toast == Error(StrOr(answer.message, InvalidCode))
    ensures r.called && answer.Threw? ==>
              r.page == p.(loading := false) && r.route.Stay? && r.toast == Error(VerificationFailed)
  {
    if |Otp.Join(p.otp)| != Otp.Size then Submission(p, false, Stay, Error(IncompleteCode))
    else if !LoginPage.Truthy(userId) || !LoginPage.Truthy(token) then Submission(p, false, ToLogin, Error(MissingData))
    else
      match answer
      case Threw => Submission(p.(loading := false), true, Stay, Error(VerificationFailed))
      case Replied(success, hasTokens, message) =>
        if success && hasTokens then Submission(p.(loading := true), true, ToDashboard, Success(Verified))
        else Submission(p.(otp := Otp.Blank, loading := false), true, Stay, Error(StrOr(message, InvalidCode)))
  }

  /** A success flag without tokens is treated as a refusal. */
  lemma SuccessNeedsTokens(p: Page, userId: Option<string>, token: Option<string>, message: Option<string>)
    ensures !Submit(p, userId, token, Replied(true, false, message)).route.ToDashboard?
  {
  }

  /** With a valid link and a box filled per digit, the code is sent exactly
      when all six boxes are filled; a refused code has to be typed again. */
  lemma SentWhenFilled(p: Page, userId: Option<string>, token: Option<string>, answer: Answer, again: Answer)
    requires Otp.WellFormed(p.otp) && LinkValid(userId, token)
    ensures Submit(p, userId, token, answer).called <==> forall i :: 0 <= i < Otp.Size ==> p.otp[i] != ""
    ensures answer.Replied? && Submit(p, userId, token, answer).called && !Submit(p, userId, token, answer).route.ToDashboard? ==>
              !Submit(Submit(p, userId, token, answer).page, userId, token, again).called
  {
    Otp.CompleteIffFilled(p.otp);
    Otp.BlankWellFormed();
  }
}
